=== FILE: README.md ===
# apxml in Dafny

A Dafny model of the pure core of apxml. apxml is a tool that reduces
application profiles (APXML documents) to the file-system and Windows
Registry artifacts that every run of an application leaves behind. Each
profile lists file records (`FileObject`) and registry cell records
(`CellObject`) observed while an application was installed, opened, closed
and uninstalled.

The model covers five parts:

- **File-path normalizer** (`file_path_normalizer.dfy`, module
  `FilePathNormalizer`). It strips a leading `C:\` and turns backslashes
  into slashes. It then walks the ordered table of placeholder rules
  (`%PROGRAMFILES%`, `%USERPROFILE%`, `%PREFETCH%`, ...). A rule fires when
  the path starts with one of its literals and then replaces every
  occurrence. The user-profile rule deletes the user name, and the prefetch
  rule cuts the nine characters before the first `.pf`.
- **Registry cell-path normalizer** (`cell_path_normalizer.dfy`, module
  `CellPathNormalizer`). It strips the hive prefix, substitutes the root key
  and collapses the control-set aliases of the SYSTEM hive. It also cleans up
  a file path found in a cell's name.
- **Pre-processing pass** (`preprocess.dfy`, module `PreProcess`). It derives
  the normalised fields of every file and cell record of a profile and
  collects the records into a file output and a cell output.
- **Intersection engine** (`equivalence.dfy`, `profile_order.dfy`,
  `intersection.dfy`; modules `Equivalence`, `ProfileOrder`,
  `Intersection`). It has four parts:
  - the equivalence rules for files (`.lnk`, `.pf`, default) and for cells
    (`UserAssist`, default);
  - the profile orderings (`highest`, `lowest`, `stacked`);
  - a seed pass, then a left fold that adds one to every matching
    accumulator entry or appends the record with a count of one;
  - the per-count statistics and the extraction of the entries counted `k`
    times.
- **Container helpers and statistics** (`apxml.dfy`, module `Apxml`). This
  covers:
  - `_qsplit`, `_intcast` and `_boolcast`;
  - the files-then-cells container with its `append` and iteration order;
  - the counters of `generate_stats`.

Supporting modules:

- `Wrappers` holds `Option`, the Python exception kinds and `Result`.
- `Strings` holds Python's `str` operations on `seq<char>`: `startswith`,
  `split`, `join`, `replace`, `find`, slicing and ASCII `lower`.
- `Objects` holds the file and cell records as plain datatypes.

Python's mutation of shared objects becomes value semantics. The
module-level outputs and the accumulators are explicit parameters, and an
exception is a `Result` failure naming its kind.

Behaviour worth knowing:

- `compare_files` is not symmetric. The rule (`.lnk`, `.pf` or default) is
  chosen from the first record's file name only. `Equivalence.CompareFilesAsymmetric`
  exhibits a pair matched in one direction only.
- `sort_profiles` reads a statistics attribute that does not exist. See
  Findings. The rest of the model uses the evidently intended sort key, the
  record total `cALL`.
- `normalize_basename` cannot decode a ROT-13 `P:` name. See Findings.
- `normalise_all` calls a target-side cell-path normaliser,
  `normalize_target_co`, that `CellPathNormalizer.py` does not define. It is
  a parameter of the pass (`PreProcess.Context.targetCo`).

## Model

| member | source | states |
|---|---|---|
| FilePathNormalizer.Normalize | FilePathNormalizer.py:65-124 | total on every string (no precondition), and the result never contains a backslash |
| FilePathNormalizer.NormalizeUnmatched | FilePathNormalizer.py:41-63 | a path whose slash-converted form starts with no table literal comes back with only the `C:\` strip and the slash conversion applied |
| FilePathNormalizer.NormalizeDrive | FilePathNormalizer.py:67-73 | a path rooted at `C:\` normalises exactly as its relative part with backslashes turned into slashes |
| FilePathNormalizer.NormalizeSlashed | FilePathNormalizer.py:68-73 | converting backslashes to slashes before the call changes nothing for a path without the `C:\` root |
| FilePathNormalizer.ProgramFilesX86 | FilePathNormalizer.py:42-43 | `Program Files (x86)/x` becomes `%PROGRAMFILES% (x86)/...`, because the shorter literal is tried first and replaces every occurrence |
| FilePathNormalizer.WindowsSystem32 | FilePathNormalizer.py:58-61 | a later rule sees an earlier rule's output: `Windows/System32/x` becomes `%SYSTEMROOT%/` followed by the rest, with both rewrites applied to every occurrence |
| FilePathNormalizer.WindowsSystem32Plain | FilePathNormalizer.py:90-97 | `Windows/System32/x` becomes `%SYSTEMROOT%/x` when x holds neither `W` nor `%` |
| FilePathNormalizer.PrefetchCutSafe | FilePathNormalizer.py:99-106 | after a prefetch literal fires and the path ends with `.pf`, the first `.pf` exists and the cut index is at least 1, so it never counts from the end |
| FilePathNormalizer.PrefetchName | FilePathNormalizer.py:92-106 | for a name z without a backslash and without a further `Windows` or `%WINDIR%/Prefetch`, `Windows/Prefetch/z` becomes `%PREFETCH%/z` cut 9 characters before z's first `.pf`, then `.pf`; when that `.pf` lies 9 or more characters in, z loses exactly those 9 characters, and otherwise the cut reaches into the placeholder |
| FilePathNormalizer.PrefetchErased | FilePathNormalizer.py:92-106 | two prefetch names `n-h.pf` that differ only in the 8-character hash h normalise equal, to `%PREFETCH%/n.pf`; n may hold anything but a backslash, `.pf`, `Windows` or `%WINDIR%/Prefetch`, and h holds no backslash, `.`, `W` or `%` |
| FilePathNormalizer.UsersProfile | FilePathNormalizer.py:107-115 | for a user name u that holds no `/` and no `\` and does not begin with `Public`: `Users/u/r` becomes what the rules after the user-profile rule make of `%USERPROFILE%/` plus r, with r's backslashes turned into slashes and every further `Users` in it replaced; segment 1, the user name, is deleted |
| FilePathNormalizer.UsersErased | FilePathNormalizer.py:44-48 | `Users/u1/r` and `Users/u2/r` normalise equal when neither user name holds a `/` or a `\` or begins with `Public` |
| FilePathNormalizer.DocumentsProfile | FilePathNormalizer.py:107-115 | for a user name u that holds no `/` and no `\` and does not begin with `All Users`: `Documents and Settings/u/r` becomes what the rules after the user-profile rule make of `%USERPROFILE%/` plus r, with r's backslashes turned into slashes and every further `Documents and Settings` in it replaced; the user name is deleted |
| FilePathNormalizer.DocumentsErased | FilePathNormalizer.py:44-48 | `Documents and Settings/u1/r` and `.../u2/r` normalise equal when neither user name holds a `/` or a `\` or begins with `All Users` |
| CellPathNormalizer.NormalizeProfileCo | CellPathNormalizer.py:53-65 | a path without the `HKLM\` or `HKU\` prefix is unchanged; an `HKU\` path comes out under `NTUSER.DAT\` |
| CellPathNormalizer.ProfileHklm | CellPathNormalizer.py:57-58 | `HKLM\` + r becomes r when r does not itself begin with `HKU\` (the second test would then rewrite it too) |
| CellPathNormalizer.ProfileHku | CellPathNormalizer.py:59-64 | `HKU\sid\r` becomes `NTUSER.DAT\r`: the SID segment is discarded and the rest is kept |
| CellPathNormalizer.ProfileHkuBare | CellPathNormalizer.py:59-64 | `HKU\sid` with nothing after it becomes `NTUSER.DAT\` |
| CellPathNormalizer.NormalizeRootkey | CellPathNormalizer.py:74-80 | an empty path is returned as it is |
| CellPathNormalizer.RootkeySegments | CellPathNormalizer.py:74-78 | for a non-empty path, the segment count is kept, segment 0 becomes the root key, and every other segment is unchanged |
| CellPathNormalizer.RootkeyOwnSegment | CellPathNormalizer.py:74-78 | putting back the path's own first segment gives the path back |
| CellPathNormalizer.CollapseControlSet | CellPathNormalizer.py:92-103 | only segment 1 can change; it changes iff the root key is `system` and the segment is one of the five aliases, and then it becomes `%controlset%` |
| CellPathNormalizer.NormalizeCellpath | CellPathNormalizer.py:86-89 | an empty path is returned as it is |
| CellPathNormalizer.CellpathSegments | CellPathNormalizer.py:86-107 | the segments of the result are the input's segments after the control-set collapse |
| CellPathNormalizer.CellpathOtherHive | CellPathNormalizer.py:86-107 | any root key other than exactly `system` leaves the path unchanged |
| CellPathNormalizer.CellpathSystem | CellPathNormalizer.py:92-103 | with `system`, the path changes iff segment 1 is exactly one of the lower-case aliases; it then changes only at segment 1, to `%controlset%` |
| CellPathNormalizer.CellpathCaseSensitive | CellPathNormalizer.py:93-102 | `ControlSet001` is not an alias: the comparison is case-sensitive |
| CellPathNormalizer.CellpathIdempotent | CellPathNormalizer.py:93-103 | normalising twice is normalising once |
| CellPathNormalizer.CellpathAliases | CellPathNormalizer.py:93-103 | two `system` paths that differ only in which alias stands at segment 1 normalise equal |
| CellPathNormalizer.CleanPath | CellPathNormalizer.py:126-134 | the cleaned-up name never contains a backslash |
| CellPathNormalizer.NormalizeBasename | CellPathNormalizer.py:109-136 | a `P:` name raises NameError, and only such a name does; any other name's result has no backslash |
| CellPathNormalizer.BasenameUserAssist | CellPathNormalizer.py:119-121 | the 12-character `HRZR_EHACNGU` prefix is dropped once, and the rest is handled like a name without it |
| CellPathNormalizer.BasenameUserAssistHidesP | CellPathNormalizer.py:115-121 | a `P:` name behind the UserAssist prefix is cleaned up, while the same name alone raises |
| CellPathNormalizer.BasenameDrive | CellPathNormalizer.py:126-134 | `C:` and the one character after it are dropped; the rest, with its backslashes made slashes, goes to the file-path normalizer |
| CellPathNormalizer.BasenameIsFilePath | CellPathNormalizer.py:126-134 | for a `C:\` name, the clean-up equals the file-path normalizer on the whole name |
| CellPathNormalizer.BasenamePlain | CellPathNormalizer.py:123-134 | a name with none of the three prefixes goes to the file-path normalizer as it is |
| CellPathNormalizer.Rot13Involution | CellPathNormalizer.py:115-117 | ROT-13 undoes itself |
| CellPathNormalizer.NormalizeBasenameIntended | CellPathNormalizer.py:115-136 | the evidently intended method: a `P:` name is ROT-13 decoded before the clean-up; the result has no backslash |
| CellPathNormalizer.BasenameIntendedAgrees | CellPathNormalizer.py:115-136 | the written and the intended method agree on every name the written one accepts, and the written one fails exactly on `P:` names |
| CellPathNormalizer.BasenameRot13Path | CellPathNormalizer.py:115-117 | a ROT-13 encoded `C:\` path is cleaned up by the intended method like the plain path, and raises NameError in the written one |
| PreProcess.LowerHash | APXMLPreProcess.py:110-112 | a hash stays present or absent as it was and keeps its length; each upper-case letter becomes its own lower-case letter, every other character is kept, and no upper-case letter remains |
| PreProcess.LowerHashIdempotent | APXMLPreProcess.py:110-112 | lowering a hash twice is lowering it once |
| PreProcess.NormaliseFile | APXMLPreProcess.py:99-121 | covers every field the file branch touches or leaves alone (see the list after this table) |
| PreProcess.NormaliseFileIdempotent | APXMLPreProcess.py:99-118 | running the file step twice equals running it once, provided the allocation test does not read the orphan name the step sets |
| PreProcess.BasenameNorm | APXMLPreProcess.py:131-134 | the normalised cell basename is the file-normalised name with every `/` turned into `\`, character by character, so it holds no `/` |
| PreProcess.NormaliseCell | APXMLPreProcess.py:123-136 | `basename_norm` is set iff the raw basename starts with `C:`, and then has no `/`; otherwise `cellpath_norm` is the target normaliser applied to the profile-normalised path and its first segment; with a `C:` basename, every occurrence of the raw basename in that path is replaced by `basename_norm`; raw fields are unchanged |
| PreProcess.CellBasenameAbsent | APXMLPreProcess.py:135 | a cell path that does not contain the raw basename is left as the normalisers gave it |
| PreProcess.CellBasenameFirst | APXMLPreProcess.py:135 | in a cell path `a + b + d` whose first occurrence of the `C:` basename b is at the end of a, the result is a, then the normalised basename, then d with every b replaced |
| PreProcess.CellBasenameAtEnd | APXMLPreProcess.py:135 | a cell path whose only occurrence of its `C:` basename is at the end ends in the normalised basename instead, the text before it kept |
| PreProcess.NormaliseCellIdempotent | APXMLPreProcess.py:123-136 | running the cell step twice equals running it once |
| PreProcess.NormaliseAll | APXMLPreProcess.py:96-136 | the file output grows by the number of file records and the cell output by the number of cell records |
| PreProcess.NormaliseAllInOrder | APXMLPreProcess.py:97-136 | the outputs keep what they held, then hold each record of their class exactly once, normalised, in iteration order |
| PreProcess.NormaliseProfile | APXMLPreProcess.py:96-136 | from empty outputs, the file output is the profile's files normalised position by position, and the same for cells |
| Equivalence.SplitExt | APXMLIntersection.py:125-128 | `os.path.splitext`: root and extension concatenate back to the path, and the extension is empty or one dot followed by no dot or slash |
| Equivalence.SplitExtOf | APXMLIntersection.py:125-128 | `a.e` splits into `a` and `.e` |
| Equivalence.PrefetchKey | APXMLIntersection.py:125-128 | the prefetch key has no `-` and is the whole root or the root's text before its first `-` |
| Equivalence.PrefetchKeyOf | APXMLIntersection.py:121-128 | the key of `n-h.e` is `n` |
| Equivalence.CompareFiles | APXMLIntersection.py:109-143 | the `.lnk`, `.pf` and default rules, each as an if-and-only-if over the compared fields, chosen by the first record's name |
| Equivalence.CompareFilesReflexive | APXMLIntersection.py:109-143 | every file record matches itself |
| Equivalence.CompareFilesSameFields | APXMLIntersection.py:109-143 | records equal in name, hash and the other compared fields match both ways |
| Equivalence.CompareFilesSymmetric | APXMLIntersection.py:111-119 | outside the `.pf` rule the file match is symmetric |
| Equivalence.FileHashIgnoredIff | APXMLIntersection.py:111-134 | a record still matches itself with a different hash iff its name ends with `.lnk` or `.pf` |
| Equivalence.ShortcutHashIgnored | APXMLIntersection.py:111-119 | under the `.lnk` rule the second record's hash does not matter |
| Equivalence.PrefetchHashSuffix | APXMLIntersection.py:121-134 | prefetch names that differ only after the first `-` match |
| Equivalence.CompareFilesAsymmetric | APXMLIntersection.py:111-143 | `n-h1.pf` matches `n-h2.e` but not the other way round |
| Equivalence.CompareCells | APXMLIntersection.py:145-160 | `data` is ignored when the first cell path contains `UserAssist`; otherwise all seven fields must be equal |
| Equivalence.CompareCellsReflexive | APXMLIntersection.py:145-160 | every cell record matches itself |
| Equivalence.CompareCellsSymmetric | APXMLIntersection.py:145-160 | the cell match is symmetric, because equal cell paths select the same rule |
| Equivalence.CompareCellsTransitive | APXMLIntersection.py:145-160 | the cell match is transitive |
| Equivalence.CellDataIgnoredIff | APXMLIntersection.py:147-160 | a cell still matches itself with different data iff its path contains `UserAssist` |
| Equivalence.UserAssistDataIgnored | APXMLIntersection.py:147-153 | under the UserAssist rule the second cell's data does not matter |
| ProfileOrder.Insert | APXMLIntersection.py:51-53 | insertion into a sorted list keeps it sorted and adds exactly the new profile |
| ProfileOrder.Sort | APXMLIntersection.py:51-53 | the result is sorted by total and is a permutation of the input |
| ProfileOrder.KeyFilterMembers | APXMLIntersection.py:51-53 | the profiles of one total are exactly the members with that total |
| ProfileOrder.InsertStable | APXMLIntersection.py:51-53 | insertion puts the new profile after every profile of equal total |
| ProfileOrder.SortStable | APXMLIntersection.py:51-53 | the sort is stable: profiles of equal total keep their relative order |
| ProfileOrder.SortedUnique | APXMLIntersection.py:51-53 | a sorted list is determined by its profiles of each total in order, so any stable sort gives this result |
| ProfileOrder.SortAfterSort | APXMLIntersection.py:55-59 | sorting an already sorted list again gives the same result as sorting once |
| ProfileOrder.Interleave | APXMLIntersection.py:63-66 | zipping gives twice the shorter length, alternating high and low |
| ProfileOrder.Stacked | APXMLIntersection.py:54-66 | the `stacked` order has length 2·min(n,10); position 2i holds the i-th highest and 2i+1 the i-th lowest |
| ProfileOrder.SortProfiles | APXMLIntersection.py:46-66 | None or an unknown method keeps the order; `highest`/`lowest` sort by total; `stacked` gives length 2·min(n,10) |
| ProfileOrder.SortProfilesStable | APXMLIntersection.py:50-53 | `highest` and `lowest` keep the relative order of profiles with equal totals |
| ProfileOrder.StackedEnds | APXMLIntersection.py:54-66 | the stacked order starts with a profile of the highest total, then one of the lowest |
| ProfileOrder.SortProfilesAsWritten | APXMLIntersection.py:46-59 | as written, a recognised method on a non-empty list raises AttributeError; otherwise the list is unchanged |
| ProfileOrder.AsWrittenAgrees | APXMLIntersection.py:46-59 | when the written method succeeds it agrees with the intended one |
| ProfileOrder.AsWrittenRaises | APXMLIntersection.py:50-51 | on a one-profile list `highest` raises as written and keeps the list as intended |
| Intersection.Bump | APXMLIntersection.py:84-91 | the inner loop adds one to every matching entry, with no early exit, and reports whether any matched |
| Intersection.Meet | APXMLIntersection.py:82-94 | entries only grow; a record is appended with count 1 iff no entry matches it |
| Intersection.SamePassMatch | APXMLIntersection.py:84-94 | two equivalent new records in one pass give one entry counted twice |
| Intersection.EnterAll | APXMLIntersection.py:71-77 | the seed loop appends the records' files and cells, in order, each with count 1 |
| Intersection.FirstPass | APXMLIntersection.py:68-77 | the first profile joins the order and its files and cells enter with count 1; no profile raises IndexError |
| Intersection.Pass | APXMLIntersection.py:81-106 | over a pass, entries are never removed or changed, counts never fall, and counted entries stay counted |
| Intersection.PassCounts | APXMLIntersection.py:81-106 | an existing entry gains exactly the number of the profile's records it matches |
| Intersection.NextPass | APXMLIntersection.py:79-106 | the profile joins the order and the accumulators grow; an index past the end raises IndexError |
| Intersection.KnownRecordCounted | APXMLIntersection.py:84-91 | a record already in the accumulator matches its own entry, which gains one, and is not appended again |
| Intersection.SelectedMembers | APXMLIntersection.py:165-166 | a record is selected iff some entry holds it with the given count |
| Intersection.SelectedConcat | APXMLIntersection.py:165-166 | selection keeps the order of the entries |
| Intersection.FileTypesDisjoint | APXMLIntersection.py:170-171 | files plus directories are at most the selected file entries |
| Intersection.CellTypesDisjoint | APXMLIntersection.py:172-173 | keys plus values are at most the selected cell entries |
| Intersection.Stats | APXMLIntersection.py:162-173 | for `count == c+1`: all equals the selected files plus cells; dirs plus files is at most the selected files; keys plus values is at most the selected cells |
| Intersection.Output | APXMLIntersection.py:213-227 | the first profile's records are replaced by exactly the entries counted k times; no profile raises IndexError |
| Intersection.OutputMatchesStats | APXMLIntersection.py:162-227 | the output for `count + 1` holds as many records as `stats(count)` counts in all |
| Apxml.QSplit | apxml.py:90-97 | an empty tag raises IndexError; a tag not starting with `{` gives no namespace and the tag itself |
| Apxml.QSplitQName | apxml.py:90-97 | `{ns}local` splits back into ns and local iff local holds no `}` |
| Apxml.QSplitUnclosed | apxml.py:93-95 | a `{` tag with no `}` keeps the whole tag as its local name |
| Apxml.QSplitSelfTests | apxml.py:709-710 | the module's two `_qsplit` self-tests hold |
| Apxml.DecimalValue | apxml.py:120-125 | a decimal numeral reads back as its value |
| Apxml.IntCast | apxml.py:113-125 | None, a float and values of other types give None, an int gives itself, a bool gives 1 or 0 as it is True or False, a digit string gives the value of its digits and `-` plus digits the negated value, and the empty string raises IndexError |
| Apxml.IntCastDecimal | apxml.py:119-125 | the numeral `str(n)` writes reads back as n, with a leading `-` for a negative n |
| Apxml.DigitsLeadingZero | apxml.py:119-125 | a leading `0` does not change the value a digit string reads as |
| Apxml.PaddedDigits | apxml.py:119-125 | `str(n)` padded with any number of zeros is still a digit string and still reads as n |
| Apxml.IntCastPadded | apxml.py:119-125 | `str(n)` padded with zeros casts to n, and `-` before it casts to -n, so `-0` gives 0 |
| Apxml.IntCastRejects | apxml.py:119-125 | a non-empty string gives None iff it is neither digits nor `-` plus digits |
| Apxml.IntCastSelfTests | apxml.py:705-706 | the module's two `_intcast` self-tests hold, and `"007"` gives 7 and `"-0"` gives 0 as `int()` does |
| Apxml.BoolCast | apxml.py:127-134 | exactly the values equal to True (True, 1, 1.0, `"True"`, `"true"`) give True, likewise for False (False, 0, 0.0, `"False"`, `"false"`); everything else gives None |
| Apxml.BoolCastRoundTrip | apxml.py:127-134 | a boolean and its name both cast back to it |
| Apxml.Append | apxml.py:181-187 | a file or cell is added to the container's records; anything else raises TypeError |
| Apxml.AppendItems | apxml.py:181-185 | a file goes to the files and a cell to the cells, adding exactly that record |
| Apxml.AppendAllItems | apxml.py:181-187 | appending a sequence adds its files in order to the files, its cells in order to the cells, and nothing else |
| Apxml.IterFilesThenCells | apxml.py:165-170 | iteration yields all files in insertion order, then all cells |
| Apxml.ItemsSplit | apxml.py:165-170 | the files and cells of the iteration are the container's files and cells |
| Apxml.Tally | apxml.py:584-613 | one record adds one to the count, its phase to the states and its annotations to the deltas; annotations in an undeclared phase raise KeyError |
| Apxml.CountRecord | apxml.py:579-613 | each record adds one to cALL and one to cFS or cREG; failures are KeyError |
| Apxml.StatsOf | apxml.py:576-613 | cALL = cFS + cREG = the number of records; files + dirs <= cFS; keys + values <= cREG |
| Apxml.GenerateStats | apxml.py:568-613 | from fresh statistics the records are kept, cALL = cFS + cREG = the number of records, files + dirs <= cFS and keys + values <= cREG |
| Apxml.StatsOfCounters | apxml.py:542-613 | succeeds iff every annotated counted record's phase is declared; each category then holds exactly its records' count, states, deltas and per-phase deltas |
| Apxml.SumPhasesBump | apxml.py:586-589 | adding deltas under one phase adds them once to the sum over distinct phases |
| Apxml.AnnosByPhase | apxml.py:542-565 | when every annotated phase is declared, the deltas are the sum of the per-phase deltas |
| Apxml.GenerateStatsPhases | apxml.py:542-613 | per category, with repeated phases allowed: the state counter sums to the count, the per-phase lists cover exactly the declared phases, and summed over `OrderedKeys(phases)`, each declared phase once, they give the delta counter |
| Apxml.GenerateStatsPhasesAnyOrder | apxml.py:542-613 | the same sum over the per-phase lists equals the delta counter whichever duplicate-free list of the declared phases it runs over |
| Apxml.OrderedKeys | apxml.py:544-546 | the keys of the dictionary filled from the phase list name each declared phase once and nothing else |
| Apxml.GenerateStatsKeyError | apxml.py:542-613 | KeyError is raised iff some annotated file, directory, key or value has an undeclared phase |

`PreProcess.NormaliseFile` states all of the following:

- the basename holds no backslash and is the name's text after its last
  backslash;
- `filename_norm` is the normalised name;
- `basename_norm` is its last `/`-segment and holds no slash;
- `sha1` is the hash lower-cased, and stays absent when absent;
- `app_name` is copied;
- `orphan_name` is `$OrphanFiles/` plus the basename iff the file has
  type 1 and is unallocated, asked of the record after the fields above
  are set, as the branch asks it;
- the raw fields are unchanged.

## Left out

- XML reading and writing (`iterparse`, `populate_from_Element`, `to_Element`, `to_apxml`, UTF-16 files), because it is ElementTree and I/O.
- `_datecast`, `_strcast` and the start and end dates, because they are datetime parsing and formatting.
- The output writers: `Intersection.csv_output`, the file writing of `Intersection.apxml_output`, `APXMLPreProcess.apxml_output` and APXML2CSV.py. Only the `count == k` filter of `apxml_output` is modelled.
- The `print` of `Intersection.stats`. The counts it prints are modelled and the formatting is not.
- APXMLPrintStats.py, because it is floating-point size formatting and report printing.
- The runtime scaffolding: `Intersection.__init__`, which parses files and takes names from paths, the `__main__` blocks, the argument parsing, and the main loop that drives the passes.
- The object library (`Objects.py`): `FileObject` and `CellObject` are plain datatypes with the fields the core reads. The allocation test is a parameter (`PreProcess.Context.isAllocated`), and so is the application name from the metadata.
- `normalize_target_co`, called by `normalise_all`, is not part of this model. It is not defined in `CellPathNormalizer.py`, so it is the parameter `PreProcess.Context.targetCo`.
- The module-level mutable state (`_all_phases`, the `dfxml` and `regxml` outputs of the pre-processing pass). It is passed explicitly: `phases` is a parameter and `PreProcess.Output` is the accumulator.
- Intersection.NextPass: the branch for an accumulator entry whose count is None is not modelled. Every entry is given a count before it is appended, so that branch cannot run.
- Intersection.NextPass: the position is a `nat`. A negative index, which Python would count from the end, is not modelled, because the passes are driven with positions from 1 up.
- A `None` file name in `normalise_all` is not modelled. Every file record carries a name.
- Equivalence.SplitExt: `os.path.splitext` follows POSIX (separator `/`), the platform the tool runs on with Windows paths as data.
- PreProcess.LowerHash: `str.lower` is modelled on ASCII letters only, which is what SHA-1 hex digests contain.
- Apxml.IntCast: `str.isdigit` is modelled on ASCII digits only. Other Unicode digits are treated as non-digits.
- Apxml.BoolCast: numbers of classes other than `bool`, `int` and `float` that equal 1 or 0 (`Decimal`, `Fraction`, `complex`) are not modelled. They also compare equal to `True` or `False`, so `_boolcast` maps them to True or False.
- Apxml.IntCast: a `bool` argument comes back as the `bool` itself in Python; the model returns the integer it equals (1 or 0), because its result type holds integers only.
- Apxml.StatsOfCounters: annotation sets are iterated in an unspecified order, so the delta lists per phase are modelled as multisets.
- The idempotence of `FilePathNormalizer.normalize`. The code does not promise it, and replace-all rewriting makes it a different question from the one the rule table answers.

## Findings

| source | as written | input that shows it | evidently intended | confidence | as-written member | corrected member |
|---|---|---|---|---|---|---|
| APXMLIntersection.py:51-59 | the sort key reads `x.stats.all`, but the statistics object defines `cALL` and no `all` (apxml.py:534), so `highest`, `lowest` and `stacked` raise AttributeError on any non-empty list | one profile, method `highest` | sort by the record total `cALL` | high, not executed | ProfileOrder.SortProfilesAsWritten | ProfileOrder.SortProfiles |
| CellPathNormalizer.py:116-117 | the `P:` branch decodes `obj.basename`, and `obj` is not defined in `normalize_basename`, so every `P:` name raises NameError | ROT-13 of `C:\x`, which is `P:\k` | decode the `basename` parameter from ROT-13 | high, not executed | CellPathNormalizer.NormalizeBasename | CellPathNormalizer.NormalizeBasenameIntended |

=== FILE: apxml.dfy ===
/** The application-profile container and its helpers: the cast and
    tag-splitting helpers used while reading a profile, the container that
    keeps file records before cell records, and the statistics pass over
    a profile.
 */
module Apxml {
  import opened Wrappers
  import opened Strings
  import opened Objects

  /* ---------------------------------------------------------------------- */
  /* Python values handed to the cast helpers                               */
  /* ---------------------------------------------------------------------- */

  /** The Python values the helpers distinguish. A `float` is held as the
      real number it denotes. `PyOther` is a value of any other class that
      compares equal to no `bool`, `int`, `float` or string. */
  datatype PyValue =
    | PyNone
    | PyBool(b: bool)
    | PyInt(i: int)
    | PyFloat(x: real)
    | PyStr(s: string)
    | PyOther

  /* ---------------------------------------------------------------------- */
  /* _qsplit                                                                */
  /* ---------------------------------------------------------------------- */

  /** `_qsplit`: a tag in Clark notation `{ns}local` is split into the
      namespace and the local name; any other tag has no namespace. The
      first character is read unguarded, so the empty tag raises. */
  function QSplit(tagname: string): (r: Result<(Option<string>, string)>)
    ensures r.Failure? <==> |tagname| == 0
    ensures r.Failure? ==> r.error == IndexError
    ensures r.Success? ==> (r.value.0.None? <==> tagname[0] != '{')
    ensures r.Success? && r.value.0.None? ==> r.value.1 == tagname
    ensures r.Success? && r.value.0.Some? ==> '}' !in r.value.1 || '}' !in tagname
  {
    if |tagname| == 0 then Failure(IndexError)
    else if tagname[0] == '{' then
      var i := RFindChar(tagname, '}');
      Success((Some(PySlice(tagname, 1, i)), PySliceFrom(tagname, i + 1)))
    else Success((None, tagname))
  }

  /** Clark notation, as the XML library spells a qualified tag. */
  function QName(ns: string, local: string): string {
    "{" + ns + "}" + local
  }

  /** Splitting a qualified tag gives back its namespace and local name
      exactly when the local name holds no `}`. */
  lemma QSplitQName(ns: string, local: string)
    ensures QSplit(QName(ns, local)) == Success((Some(ns), local)) <==> '}' !in local
  {
    var t := QName(ns, local);
    var i := RFindChar(t, '}');
    assert t[0] == '{' && t[|ns| + 1] == '}';
    assert t[|ns| + 2..] == local;
    assert t[1..|ns| + 1] == ns;
    if '}' !in local {
      assert i == |ns| + 1;
    } else {
      assert i > |ns| + 1 by {
        var j :| 0 <= j < |local| && local[j] == '}';
        assert t[|ns| + 2 + j] == '}';
      }
      assert |PySlice(t, 1, i)| != |ns|;
    }
  }

  /** An opening `{` without a closing `}`: `rfind` gives -1, so the
      "namespace" is the tag without its two ends and the local name is the
      whole tag. */
  lemma QSplitUnclosed(tag: string)
    requires |tag| >= 2 && tag[0] == '{' && '}' !in tag
    ensures QSplit(tag) == Success((Some(tag[1..|tag| - 1]), tag))
  {
  }

  /** The two checks the module runs on itself. */
  lemma QSplitSelfTests()
    ensures QSplit(QName("http://www.w3.org/2001/XMLSchema", "all")) == Success((Some("http://www.w3.org/2001/XMLSchema"), "all"))
    ensures QSplit("http://www.w3.org/2001/XMLSchema}all") == Success((None, "http://www.w3.org/2001/XMLSchema}all"))
  {
    QSplitQName("http://www.w3.org/2001/XMLSchema", "all");
  }

  /* ---------------------------------------------------------------------- */
  /* _intcast                                                               */
  /* ---------------------------------------------------------------------- */

  predicate IsDigit(c: char) {
    '0' <= c <= '9'
  }

  /** `str.isdigit` on ASCII text: non-empty and all decimal digits. */
  predicate IsDigits(s: string) {
    |s| > 0 && forall i :: 0 <= i < |s| ==> IsDigit(s[i])
  }

  /** The value of a run of decimal digits, most significant first. */
  function DigitsValue(s: string): nat
    requires forall i :: 0 <= i < |s| ==> IsDigit(s[i])
    decreases |s|
  {
    if |s| == 0 then 0
    else
      assert IsDigit(s[|s| - 1]);
      DigitsValue(s[..|s| - 1]) * 10 + (s[|s| - 1] as int - '0' as int)
  }

  /** `str(n)` for a natural number. */
  function Decimal(n: nat): (r: string)
    ensures IsDigits(r)
    decreases n
  {
    var d := ['0' + (n % 10) as char];
    if n < 10 then d else Decimal(n / 10) + d
  }

  /** `int` reads back what `str` wrote. */
  lemma {:induction false} DecimalValue(n: nat)
    ensures DigitsValue(Decimal(n)) == n
    decreases n
  {
    if n >= 10 {
      DecimalValue(n / 10);
      var r := Decimal(n);
      assert r[..|r| - 1] == Decimal(n / 10);
    }
  }

  /** `_intcast`. `None` stays `None`; an `int` is returned as it is; a
      `bool` passes the `int` test and is returned as it is too, which the
      model, holding integers only, writes as the integer it equals
      (`True == 1`, `False == 0`); a string of digits, optionally after one
      `-`, is converted; every other string and every other value gives
      `None`. The first character of a string is read unguarded, so the
      empty string raises. */
  function IntCast(val: PyValue): (r: Result<Option<int>>)
    ensures r.Failure? <==> val == PyStr("")
    ensures r.Failure? ==> r.error == IndexError
    ensures val.PyNone? || val.PyFloat? || val.PyOther? ==> r == Success(None)
    ensures val.PyInt? ==> r == Success(Some(val.i))
    ensures val.PyBool? ==> r.Success? && r.value.Some? && 0 <= r.value.value <= 1 && (r.value.value == 1 <==> val.b)
    ensures r.Success? && r.value.Some? && val.PyStr? ==>
              (IsDigits(val.s) && r.value.value >= 0) || (val.s[0] == '-' && IsDigits(val.s[1..]) && r.value.value <= 0)
    ensures val.PyStr? && IsDigits(val.s) ==> r == Success(Some(DigitsValue(val.s)))
    ensures val.PyStr? && |val.s| > 0 && val.s[0] == '-' && IsDigits(val.s[1..]) ==>
              r == Success(Some(-(DigitsValue(val.s[1..]) as int)))
  {
    match val
    case PyNone => Success(None)
    case PyBool(b) => Success(Some(if b then 1 else 0))
    case PyInt(i) => Success(Some(i))
    case PyFloat(_) => Success(None)
    case PyStr(s) =>
      if |s| == 0 then Failure(IndexError)
      else if s[0] == '-' then
        (if IsDigits(s[1..]) then Success(Some(0 - DigitsValue(s[1..]) as int)) else Success(None))
      else if IsDigits(s) then Success(Some(DigitsValue(s)))
      else Success(None)
    case PyOther => Success(None)
  }

  /** Every integer survives a trip through its decimal string. */
  lemma IntCastDecimal(n: int)
    ensures n >= 0 ==> IntCast(PyStr(Decimal(n))) == Success(Some(n))
    ensures n < 0 ==> IntCast(PyStr("-" + Decimal(-n))) == Success(Some(n))
  {
    if n >= 0 {
      DecimalValue(n);
      assert Decimal(n)[0] != '-';
    } else {
      DecimalValue(-n);
      assert ("-" + Decimal(-n))[1..] == Decimal(-n);
    }
  }

  /** A leading zero does not change the value of a numeral. */
  lemma {:induction false} DigitsLeadingZero(s: string)
    requires forall i :: 0 <= i < |s| ==> IsDigit(s[i])
    ensures DigitsValue("0" + s) == DigitsValue(s)
    decreases |s|
  {
    if |s| > 0 {
      var z := "0" + s;
      assert z[..|z| - 1] == "0" + s[..|s| - 1];
      assert z[|z| - 1] == s[|s| - 1];
      DigitsLeadingZero(s[..|s| - 1]);
    } else {
      assert "0" + s == "0";
    }
  }

  /** Any number of leading zeros, and a sign on zero, read as `int()` reads
      them: the numeral `str(n)` writes, padded with zeros, gives back `n`. */
  lemma {:induction false} IntCastPadded(zeros: nat, n: nat)
    ensures IntCast(PyStr(Zeros(zeros) + Decimal(n))) == Success(Some(n))
    ensures IntCast(PyStr("-" + Zeros(zeros) + Decimal(n))) == Success(Some(-(n as int)))
  {
    var s := Zeros(zeros) + Decimal(n);
    PaddedDigits(zeros, n);
    assert ("-" + Zeros(zeros) + Decimal(n))[1..] == s;
  }

  /** `zeros` copies of the digit `0`. */
  function Zeros(zeros: nat): (r: string)
    ensures |r| == zeros && forall i :: 0 <= i < zeros ==> r[i] == '0'
    decreases zeros
  {
    if zeros == 0 then "" else "0" + Zeros(zeros - 1)
  }

  /** A zero-padded numeral is digits and keeps the value `n`. */
  lemma {:induction false} PaddedDigits(zeros: nat, n: nat)
    ensures IsDigits(Zeros(zeros) + Decimal(n))
    ensures DigitsValue(Zeros(zeros) + Decimal(n)) == n
    decreases zeros
  {
    var d := Decimal(n);
    assert forall i :: 0 <= i < |Zeros(zeros) + d| ==> IsDigit((Zeros(zeros) + d)[i]);
    if zeros == 0 {
      assert Zeros(zeros) + d == d;
      DecimalValue(n);
    } else {
      PaddedDigits(zeros - 1, n);
      var t := Zeros(zeros - 1) + d;
      assert Zeros(zeros) + d == "0" + t;
      DigitsLeadingZero(t);
    }
  }

  /** The strings `_intcast` turns into `None` rather than a number. */
  lemma IntCastRejects(s: string)
    requires |s| > 0
    ensures IntCast(PyStr(s)).value.None? <==>
              (s[0] == '-' && !IsDigits(s[1..])) || (s[0] != '-' && !IsDigits(s))
  {
  }

  /** The two checks the module runs on itself. */
  lemma IntCastSelfTests()
    ensures IntCast(PyInt(-1)) == Success(Some(-1))
    ensures IntCast(PyStr("-1")) == Success(Some(-1))
    ensures IntCast(PyStr("007")) == Success(Some(7))
    ensures IntCast(PyStr("-0")) == Success(Some(0))
  {
    IntCastPadded(2, 7);
    IntCastPadded(0, 0);
    assert Zeros(2) + Decimal(7) == "007";
    assert "-" + Zeros(0) + Decimal(0) == "-0";
    IntCastDecimal(-1);
    assert Decimal(1) == "1";
    assert "-" + "1" == "-1";
  }

  /* ---------------------------------------------------------------------- */
  /* _boolcast                                                              */
  /* ---------------------------------------------------------------------- */

  /** `_boolcast`: membership in `[True, "True", "true"]` and in
      `[False, "False", "false"]` is tested with `==`, under which the
      integers 1 and 0 and the floats 1.0 and 0.0 equal `True` and `False`.
      Anything else gives `None`. */
  function BoolCast(val: PyValue): (r: Option<bool>)
    ensures r == Some(true) <==> val in {PyBool(true), PyStr("True"), PyStr("true"), PyInt(1), PyFloat(1.0)}
    ensures r == Some(false) <==> val in {PyBool(false), PyStr("False"), PyStr("false"), PyInt(0), PyFloat(0.0)}
  {
    match val
    case PyNone => None
    case PyBool(b) => Some(b)
    case PyInt(i) => if i == 1 then Some(true) else if i == 0 then Some(false) else None
    case PyFloat(x) => if x == 1.0 then Some(true) else if x == 0.0 then Some(false) else None
    case PyStr(s) =>
      if s == "True" || s == "true" then Some(true)
      else if s == "False" || s == "false" then Some(false)
      else None
    case PyOther => None
  }

  /** `str(b)`. */
  function BoolName(b: bool): string {
    if b then "True" else "False"
  }

  /** A boolean, as a value or as its printed name, casts back to itself. */
  lemma BoolCastRoundTrip(b: bool)
    ensures BoolCast(PyBool(b)) == Some(b)
    ensures BoolCast(PyStr(BoolName(b))) == Some(b)
  {
  }

  /* ---------------------------------------------------------------------- */
  /* APXMLObject: files first, then cells                                   */
  /* ---------------------------------------------------------------------- */

  /** A value handed to `append`: a record, or any other Python value. */
  datatype Value = Record(artifact: Artifact) | Foreign

  /** One application profile: its file records, its cell records and the
      statistics last computed over them. */
  datatype ApxmlObject = ApxmlObject(files: seq<FileObject>, cells: seq<CellObject>, stats: Statistics)

  /** `APXMLObject.__iter__`: every file record in insertion order, then
      every cell record in insertion order. */
  function Items(obj: ApxmlObject): (r: seq<Artifact>)
    ensures |r| == |obj.files| + |obj.cells|
  {
    AsFiles(obj.files) + AsCells(obj.cells)
  }

  /** `APXMLObject.append`: a file record goes to the end of the files, a
      cell record to the end of the cells, and anything else raises. */
  function Append(obj: ApxmlObject, value: Value): (r: Result<ApxmlObject>)
    ensures r.Failure? <==> value.Foreign?
    ensures r.Failure? ==> r.error == TypeError
    ensures r.Success? ==> multiset(Items(r.value)) == multiset(Items(obj)) + multiset{value.artifact}
    ensures r.Success? ==> r.value.stats == obj.stats
  {
    match value
    case Foreign => Failure(TypeError)
    case Record(a) =>
      var next := match a
        case File(f) => obj.(files := obj.files + [f])
        case Cell(c) => obj.(cells := obj.cells + [c]);
      AppendItems(obj, a);
      Success(next)
  }

  /** The file records of a sequence of records, in order. */
  function FilesOf(s: seq<Artifact>): seq<FileObject>
    decreases |s|
  {
    if |s| == 0 then []
    else FilesOf(s[..|s| - 1]) + (if s[|s| - 1].File? then [s[|s| - 1].file] else [])
  }

  /** The cell records of a sequence of records, in order. */
  function CellsOf(s: seq<Artifact>): seq<CellObject>
    decreases |s|
  {
    if |s| == 0 then []
    else CellsOf(s[..|s| - 1]) + (if s[|s| - 1].Cell? then [s[|s| - 1].cell] else [])
  }

  function AsFiles(fs: seq<FileObject>): (r: seq<Artifact>)
    ensures |r| == |fs|
  {
    seq(|fs|, i requires 0 <= i < |fs| => File(fs[i]))
  }

  function AsCells(cs: seq<CellObject>): (r: seq<Artifact>)
    ensures |r| == |cs|
  {
    seq(|cs|, i requires 0 <= i < |cs| => Cell(cs[i]))
  }

  lemma AppendItems(obj: ApxmlObject, a: Artifact)
    ensures a.File? ==> multiset(Items(obj.(files := obj.files + [a.file]))) == multiset(Items(obj)) + multiset{a}
    ensures a.Cell? ==> multiset(Items(obj.(cells := obj.cells + [a.cell]))) == multiset(Items(obj)) + multiset{a}
  {
    if a.File? {
      var o2 := obj.(files := obj.files + [a.file]);
      assert Items(o2) == AsFiles(obj.files) + [a] + AsCells(obj.cells);
      assert Items(obj) == AsFiles(obj.files) + AsCells(obj.cells);
    } else {
      var o2 := obj.(cells := obj.cells + [a.cell]);
      assert Items(o2) == AsFiles(obj.files) + AsCells(obj.cells) + [a];
      assert Items(obj) == AsFiles(obj.files) + AsCells(obj.cells);
    }
  }

  /** Appending the records of `s` one by one, in order. */
  function AppendAll(obj: ApxmlObject, s: seq<Artifact>): (r: Result<ApxmlObject>)
    decreases |s|
  {
    if |s| == 0 then Success(obj)
    else
      var prev :- AppendAll(obj, s[..|s| - 1]);
      Append(prev, Record(s[|s| - 1]))
  }

  /** Appending records never fails; iterating afterwards yields the file
      records of `s` in their order, then the cell records of `s` in theirs,
      and so every record exactly once. */
  lemma {:induction false} AppendAllItems(obj: ApxmlObject, s: seq<Artifact>)
    ensures AppendAll(obj, s).Success?
    ensures AppendAll(obj, s).value.files == obj.files + FilesOf(s)
    ensures AppendAll(obj, s).value.cells == obj.cells + CellsOf(s)
    ensures multiset(Items(AppendAll(obj, s).value)) == multiset(Items(obj)) + multiset(s)
    decreases |s|
  {
    if |s| > 0 {
      var init, a := s[..|s| - 1], s[|s| - 1];
      AppendAllItems(obj, init);
      var prev := AppendAll(obj, init).value;
      assert AppendAll(obj, s) == Append(prev, Record(a));
      assert s == init + [a];
      AppendOne(obj, prev, init, a);
    }
  }

  /** One more record on top of the records `init` already appended. */
  lemma AppendOne(obj: ApxmlObject, prev: ApxmlObject, init: seq<Artifact>, a: Artifact)
    requires prev.files == obj.files + FilesOf(init) && prev.cells == obj.cells + CellsOf(init)
    requires multiset(Items(prev)) == multiset(Items(obj)) + multiset(init)
    ensures Append(prev, Record(a)).Success?
    ensures Append(prev, Record(a)).value.files == obj.files + FilesOf(init + [a])
    ensures Append(prev, Record(a)).value.cells == obj.cells + CellsOf(init + [a])
    ensures multiset(Items(Append(prev, Record(a)).value)) == multiset(Items(obj)) + multiset(init + [a])
  {
    AppendOneLists(obj, prev, init, a);
    AppendOneCount(obj, prev, init, a);
  }

  lemma AppendOneLists(obj: ApxmlObject, prev: ApxmlObject, init: seq<Artifact>, a: Artifact)
    requires prev.files == obj.files + FilesOf(init) && prev.cells == obj.cells + CellsOf(init)
    ensures Append(prev, Record(a)).Success?
    ensures Append(prev, Record(a)).value.files == obj.files + FilesOf(init + [a])
    ensures Append(prev, Record(a)).value.cells == obj.cells + CellsOf(init + [a])
  {
    FilesOfSnoc(init, a);
    if a.File? {
      assert Append(prev, Record(a)).value == prev.(files := prev.files + [a.file]);
    } else {
      assert Append(prev, Record(a)).value == prev.(cells := prev.cells + [a.cell]);
    }
  }

  lemma AppendOneCount(obj: ApxmlObject, prev: ApxmlObject, init: seq<Artifact>, a: Artifact)
    requires multiset(Items(prev)) == multiset(Items(obj)) + multiset(init)
    ensures Append(prev, Record(a)).Success?
    ensures multiset(Items(Append(prev, Record(a)).value)) == multiset(Items(obj)) + multiset(init + [a])
  {
    var r := Append(prev, Record(a));
    assert multiset(Items(r.value)) == multiset(Items(prev)) + multiset{a};
    assert multiset(init + [a]) == multiset(init) + multiset{a};
    MultisetAssoc(multiset(Items(obj)), multiset(init), multiset{a});
  }

  lemma MultisetAssoc<T>(x: multiset<T>, y: multiset<T>, z: multiset<T>)
    ensures x + y + z == x + (y + z)
  {
  }

  lemma FilesOfSnoc(init: seq<Artifact>, a: Artifact)
    ensures FilesOf(init + [a]) == FilesOf(init) + (if a.File? then [a.file] else [])
    ensures CellsOf(init + [a]) == CellsOf(init) + (if a.Cell? then [a.cell] else [])
  {
    assert (init + [a])[..|init|] == init;
  }

  /** Iterating a container built from `s` gives the files of `s`, then the
      cells of `s`. */
  lemma IterFilesThenCells(s: seq<Artifact>, stats: Statistics)
    ensures AppendAll(ApxmlObject([], [], stats), s).Success?
    ensures Items(AppendAll(ApxmlObject([], [], stats), s).value) == AsFiles(FilesOf(s)) + AsCells(CellsOf(s))
  {
    var empty := ApxmlObject([], [], stats);
    AppendAllItems(empty, s);
    assert [] + FilesOf(s) == FilesOf(s) && [] + CellsOf(s) == CellsOf(s);
  }
  /** File records of `a + b` are those of `a`, then those of `b`. */
  lemma {:induction false} FilesOfConcat(a: seq<Artifact>, b: seq<Artifact>)
    ensures FilesOf(a + b) == FilesOf(a) + FilesOf(b)
    ensures CellsOf(a + b) == CellsOf(a) + CellsOf(b)
    decreases |b|
  {
    if |b| == 0 {
      assert a + b == a;
    } else {
      var b0 := b[..|b| - 1];
      FilesOfConcat(a, b0);
      assert (a + b)[..|a + b| - 1] == a + b0;
      assert (a + b)[|a + b| - 1] == b[|b| - 1];
    }
  }

  lemma {:induction false} FilesOfAsFiles(fs: seq<FileObject>)
    ensures FilesOf(AsFiles(fs)) == fs && CellsOf(AsFiles(fs)) == []
    decreases |fs|
  {
    if |fs| > 0 {
      var init := fs[..|fs| - 1];
      FilesOfAsFiles(init);
      assert AsFiles(fs)[..|fs| - 1] == AsFiles(init);
      assert fs == init + [fs[|fs| - 1]];
    }
  }

  lemma {:induction false} CellsOfAsCells(cs: seq<CellObject>)
    ensures FilesOf(AsCells(cs)) == [] && CellsOf(AsCells(cs)) == cs
    decreases |cs|
  {
    if |cs| > 0 {
      var init := cs[..|cs| - 1];
      CellsOfAsCells(init);
      assert AsCells(cs)[..|cs| - 1] == AsCells(init);
      assert cs == init + [cs[|cs| - 1]];
    }
  }

  /** Iteration yields exactly the container's files and cells. */
  lemma ItemsSplit(obj: ApxmlObject)
    ensures FilesOf(Items(obj)) == obj.files && CellsOf(Items(obj)) == obj.cells
  {
    FilesOfConcat(AsFiles(obj.files), AsCells(obj.cells));
    FilesOfAsFiles(obj.files);
    CellsOfAsCells(obj.cells);
  }

  /* ---------------------------------------------------------------------- */
  /* generate_stats                                                         */
  /* ---------------------------------------------------------------------- */

  /** The four kinds of record that have their own counters. Every other
      record is counted only in the totals. */
  datatype Kind = FsFile | FsDir | RegKey | RegValue | Uncounted

  function KindOf(a: Artifact): Kind {
    match a
    case File(f) => if f.meta_type == Some(1) then FsFile else if f.meta_type == Some(2) then FsDir else Uncounted
    case Cell(c) => if c.name_type == Some("k") then RegKey else if c.name_type == Some("v") then RegValue else Uncounted
  }

  function StateOf(a: Artifact): string {
    match a
    case File(f) => f.app_state
    case Cell(c) => c.app_state
  }

  function AnnosOf(a: Artifact): set<string> {
    match a
    case File(f) => f.annos
    case Cell(c) => c.annos
  }

  /** The counters of one kind: how many records it has; how many of them
      each phase holds; how many of them carry each delta marker; and, for
      every phase the profile declares, the markers met in that phase.
      Python's default-zero counters and lists whose order nobody reads
      are multisets here. */
  datatype Category = Category(count: nat, state: multiset<string>, delta: multiset<string>,
                               stateDelta: map<string, multiset<string>>)

  /** `StatisticsObject`. */
  datatype Statistics = Statistics(cALL: nat, cFS: nat, cREG: nat,
                                   fsFiles: Category, fsDirs: Category,
                                   regKeys: Category, regValues: Category)

  /** A fresh category: no counts, and an empty marker list for each
      declared phase. */
  function FreshCategory(phases: seq<string>): Category {
    Category(0, multiset{}, multiset{}, map p | p in phases :: multiset{})
  }

  function FreshStatistics(phases: seq<string>): Statistics {
    var c := FreshCategory(phases);
    Statistics(0, 0, 0, c, c, c, c)
  }

  function CategoryOf(s: Statistics, k: Kind): Category
    requires k != Uncounted
  {
    match k
    case FsFile => s.fsFiles
    case FsDir => s.fsDirs
    case RegKey => s.regKeys
    case RegValue => s.regValues
  }

  function WithCategory(s: Statistics, k: Kind, c: Category): (r: Statistics)
    requires k != Uncounted
    ensures CategoryOf(r, k) == c
    ensures forall k' :: k' != Uncounted && k' != k ==> CategoryOf(r, k') == CategoryOf(s, k')
    ensures r.cALL == s.cALL && r.cFS == s.cFS && r.cREG == s.cREG
  {
    match k
    case FsFile => s.(fsFiles := c)
    case FsDir => s.(fsDirs := c)
    case RegKey => s.(regKeys := c)
    case RegValue => s.(regValues := c)
  }

  /** The counters of one record of a kind: the count and the phase counter
      go up; then each marker is counted and appended to its phase's list,
      and the first append to a phase the profile never declared raises. */
  function Tally(c: Category, state: string, annos: set<string>): (r: Result<Category>)
    ensures r.Failure? <==> annos != {} && state !in c.stateDelta
    ensures r.Failure? ==> r.error == KeyError
    ensures r.Success? ==> r.value.count == c.count + 1 && r.value.state == c.state + multiset{state}
    ensures r.Success? ==> r.value.delta == c.delta + multiset(annos)
    ensures r.Success? ==> r.value.stateDelta.Keys == c.stateDelta.Keys
  {
    if annos == {} then
      assert multiset(annos) == multiset{};
      Success(c.(count := c.count + 1, state := c.state + multiset{state}))
    else if state !in c.stateDelta then Failure(KeyError)
    else Success(Category(c.count + 1, c.state + multiset{state}, c.delta + multiset(annos),
                          c.stateDelta[state := c.stateDelta[state] + multiset(annos)]))
  }

  /** The counters of `s` after the two totals of `a`'s class went up. */
  function Bumped(s: Statistics, a: Artifact): (r: Statistics)
    ensures forall k :: k != Uncounted ==> CategoryOf(r, k) == CategoryOf(s, k)
    ensures r.cALL == s.cALL + 1
    ensures r.cFS == s.cFS + (if a.File? then 1 else 0) && r.cREG == s.cREG + (if a.Cell? then 1 else 0)
  {
    if a.File? then s.(cALL := s.cALL + 1, cFS := s.cFS + 1)
    else s.(cALL := s.cALL + 1, cREG := s.cREG + 1)
  }

  /** One iteration of the loop of `generate_stats`. */
  function CountRecord(s: Statistics, a: Artifact): (r: Result<Statistics>)
    ensures r.Failure? ==> r.error == KeyError
    ensures r.Success? ==> r.value.cALL == s.cALL + 1
    ensures r.Success? ==> r.value.cFS == s.cFS + (if a.File? then 1 else 0)
    ensures r.Success? ==> r.value.cREG == s.cREG + (if a.Cell? then 1 else 0)
  {
    var base := Bumped(s, a);
    var k := KindOf(a);
    if k == Uncounted then Success(base)
    else
      var c :- Tally(CategoryOf(base, k), StateOf(a), AnnosOf(a));
      Success(WithCategory(base, k, c))
  }

  /** The loop of `generate_stats` over the records `items`, starting from
      fresh counters. Every record is counted once in `cALL` and once in the
      total of its class, and the per-kind counts never exceed those
      totals. */
  function StatsOf(items: seq<Artifact>, phases: seq<string>): (r: Result<Statistics>)
    ensures r.Failure? ==> r.error == KeyError
    ensures r.Success? ==> r.value.cALL == |items| == r.value.cFS + r.value.cREG
    ensures r.Success? ==> r.value.cFS == |FilesOf(items)| && r.value.cREG == |CellsOf(items)|
    ensures r.Success? ==> r.value.fsFiles.count + r.value.fsDirs.count <= r.value.cFS
    ensures r.Success? ==> r.value.regKeys.count + r.value.regValues.count <= r.value.cREG
    decreases |items|
  {
    if |items| == 0 then Success(FreshStatistics(phases))
    else
      var prev :- StatsOf(items[..|items| - 1], phases);
      CountRecord(prev, items[|items| - 1])
  }

  /** `generate_stats`: the statistics are recomputed from fresh counters
      over every record of the profile; the records themselves are left
      alone. */
  function GenerateStats(obj: ApxmlObject, phases: seq<string>): (r: Result<ApxmlObject>)
    ensures r.Success? ==> r.value.files == obj.files && r.value.cells == obj.cells
    ensures r.Success? ==> r.value.stats.cALL == |obj.files| + |obj.cells| == r.value.stats.cFS + r.value.stats.cREG
    ensures r.Success? ==> r.value.stats.cFS == |obj.files| && r.value.stats.cREG == |obj.cells|
    ensures r.Success? ==> r.value.stats.fsFiles.count + r.value.stats.fsDirs.count <= r.value.stats.cFS
    ensures r.Success? ==> r.value.stats.regKeys.count + r.value.stats.regValues.count <= r.value.stats.cREG
  {
    ItemsSplit(obj);
    var stats :- StatsOf(Items(obj), phases);
    Success(obj.(stats := stats))
  }

  /* ---------------------------------------------------------------------- */
  /* What the counters hold                                                 */
  /* ---------------------------------------------------------------------- */

  /** The records of kind `k`, in order. */
  function Members(items: seq<Artifact>, k: Kind): seq<Artifact>
    decreases |items|
  {
    if |items| == 0 then []
    else Members(items[..|items| - 1], k) + (if KindOf(items[|items| - 1]) == k then [items[|items| - 1]] else [])
  }

  /** The phase of each record. */
  function States(rs: seq<Artifact>): (m: multiset<string>)
    ensures |m| == |rs|
    decreases |rs|
  {
    if |rs| == 0 then multiset{}
    else States(rs[..|rs| - 1]) + multiset{StateOf(rs[|rs| - 1])}
  }

  /** The markers of all records, one per record that carries each. */
  function Annos(rs: seq<Artifact>): multiset<string>
    decreases |rs|
  {
    if |rs| == 0 then multiset{}
    else Annos(rs[..|rs| - 1]) + multiset(AnnosOf(rs[|rs| - 1]))
  }

  /** The markers of the records of phase `p`. */
  function AnnosInPhase(rs: seq<Artifact>, p: string): multiset<string>
    decreases |rs|
  {
    if |rs| == 0 then multiset{}
    else AnnosInPhase(rs[..|rs| - 1], p) + (if StateOf(rs[|rs| - 1]) == p then multiset(AnnosOf(rs[|rs| - 1])) else multiset{})
  }

  function PhaseMap(rs: seq<Artifact>, phases: seq<string>): map<string, multiset<string>> {
    map p | p in phases :: AnnosInPhase(rs, p)
  }

  /** The counters of a run of records computed directly from them. */
  function CountersOf(rs: seq<Artifact>, phases: seq<string>): Category {
    Category(|rs|, States(rs), Annos(rs), PhaseMap(rs, phases))
  }

  /** The counters of kind `k` computed directly from its records. */
  function Expected(items: seq<Artifact>, k: Kind, phases: seq<string>): Category {
    CountersOf(Members(items, k), phases)
  }

  /** Every record with its own counters and with markers names a phase
      the profile declared. */
  predicate PhasesDeclared(items: seq<Artifact>, phases: seq<string>) {
    forall a :: a in items && KindOf(a) != Uncounted && AnnosOf(a) != {} ==> StateOf(a) in phases
  }

  lemma MembersSnoc(init: seq<Artifact>, a: Artifact, k: Kind)
    ensures Members(init + [a], k) == Members(init, k) + (if KindOf(a) == k then [a] else [])
  {
    assert (init + [a])[..|init|] == init;
  }

  lemma SnocCounters(rs: seq<Artifact>, a: Artifact)
    ensures States(rs + [a]) == States(rs) + multiset{StateOf(a)}
    ensures Annos(rs + [a]) == Annos(rs) + multiset(AnnosOf(a))
  {
    assert (rs + [a])[..|rs|] == rs;
  }

  lemma AnnosInPhaseSnoc(rs: seq<Artifact>, a: Artifact, p: string)
    ensures AnnosInPhase(rs + [a], p)
         == AnnosInPhase(rs, p) + (if StateOf(a) == p then multiset(AnnosOf(a)) else multiset{})
  {
    assert (rs + [a])[..|rs|] == rs;
  }

  /** A record without markers leaves every phase's list as it was. */
  lemma PhaseMapSnocBare(rs: seq<Artifact>, a: Artifact, phases: seq<string>)
    requires AnnosOf(a) == {}
    ensures PhaseMap(rs + [a], phases) == PhaseMap(rs, phases)
  {
    var m0, m1 := PhaseMap(rs, phases), PhaseMap(rs + [a], phases);
    assert multiset(AnnosOf(a)) == multiset{};
    forall p | p in phases ensures m1[p] == m0[p] {
      AnnosInPhaseSnoc(rs, a, p);
    }
    assert m1.Keys == m0.Keys;
  }

  /** A record with markers appends them to its own phase's list only. */
  lemma PhaseMapSnocMarked(rs: seq<Artifact>, a: Artifact, phases: seq<string>)
    requires StateOf(a) in phases
    ensures PhaseMap(rs + [a], phases)
         == PhaseMap(rs, phases)[StateOf(a) := PhaseMap(rs, phases)[StateOf(a)] + multiset(AnnosOf(a))]
  {
    var m0, m1 := PhaseMap(rs, phases), PhaseMap(rs + [a], phases);
    var m2 := m0[StateOf(a) := m0[StateOf(a)] + multiset(AnnosOf(a))];
    forall p | p in phases ensures m1[p] == m2[p] {
      AnnosInPhaseSnoc(rs, a, p);
    }
    assert m1.Keys == m2.Keys;
  }

  lemma CountersSnoc(rs: seq<Artifact>, a: Artifact, phases: seq<string>)
    ensures Tally(CountersOf(rs, phases), StateOf(a), AnnosOf(a)).Success?
            <==> (AnnosOf(a) != {} ==> StateOf(a) in phases)
    ensures Tally(CountersOf(rs, phases), StateOf(a), AnnosOf(a)).Success? ==>
              Tally(CountersOf(rs, phases), StateOf(a), AnnosOf(a)).value == CountersOf(rs + [a], phases)
  {
    SnocCounters(rs, a);
    if AnnosOf(a) == {} {
      PhaseMapSnocBare(rs, a, phases);
    } else if StateOf(a) in phases {
      PhaseMapSnocMarked(rs, a, phases);
    }
  }

  lemma TallyExpected(init: seq<Artifact>, a: Artifact, phases: seq<string>)
    requires KindOf(a) != Uncounted
    ensures Tally(Expected(init, KindOf(a), phases), StateOf(a), AnnosOf(a)).Success?
            <==> (AnnosOf(a) != {} ==> StateOf(a) in phases)
    ensures Tally(Expected(init, KindOf(a), phases), StateOf(a), AnnosOf(a)).Success? ==>
              Tally(Expected(init, KindOf(a), phases), StateOf(a), AnnosOf(a)).value == Expected(init + [a], KindOf(a), phases)
  {
    MembersSnoc(init, a, KindOf(a));
    CountersSnoc(Members(init, KindOf(a)), a, phases);
  }

  /** A record of another kind leaves the counters of kind `k` alone. */
  lemma ExpectedOtherKind(init: seq<Artifact>, a: Artifact, k: Kind, phases: seq<string>)
    requires KindOf(a) != k
    ensures Expected(init + [a], k, phases) == Expected(init, k, phases)
  {
    MembersSnoc(init, a, k);
    assert Members(init + [a], k) == Members(init, k) + [] == Members(init, k);
  }

  lemma CountRecordCounted(prev: Statistics, init: seq<Artifact>, a: Artifact, phases: seq<string>)
    requires KindOf(a) != Uncounted
    requires forall k :: k != Uncounted ==> CategoryOf(prev, k) == Expected(init, k, phases)
    ensures CountRecord(prev, a).Success? <==> (AnnosOf(a) != {} ==> StateOf(a) in phases)
    ensures CountRecord(prev, a).Success? ==>
              forall k :: k != Uncounted ==> CategoryOf(CountRecord(prev, a).value, k) == Expected(init + [a], k, phases)
  {
    var base := Bumped(prev, a);
    var kind := KindOf(a);
    TallyExpected(init, a, phases);
    var t := Tally(CategoryOf(base, kind), StateOf(a), AnnosOf(a));
    if t.Success? {
      var r := WithCategory(base, kind, t.value);
      assert CountRecord(prev, a) == Success(r);
      forall k | k != Uncounted
        ensures CategoryOf(r, k) == Expected(init + [a], k, phases)
      {
        if k != kind {
          ExpectedOtherKind(init, a, k, phases);
        }
      }
    }
  }

  lemma CountRecordUncounted(prev: Statistics, init: seq<Artifact>, a: Artifact, phases: seq<string>)
    requires KindOf(a) == Uncounted
    requires forall k :: k != Uncounted ==> CategoryOf(prev, k) == Expected(init, k, phases)
    ensures CountRecord(prev, a).Success?
    ensures forall k :: k != Uncounted ==> CategoryOf(CountRecord(prev, a).value, k) == Expected(init + [a], k, phases)
  {
    assert CountRecord(prev, a) == Success(Bumped(prev, a));
    forall k | k != Uncounted
      ensures Expected(init + [a], k, phases) == Expected(init, k, phases)
    {
      ExpectedOtherKind(init, a, k, phases);
    }
  }

  lemma PhasesDeclaredSnoc(init: seq<Artifact>, a: Artifact, phases: seq<string>)
    ensures PhasesDeclared(init + [a], phases) <==>
              PhasesDeclared(init, phases) && (KindOf(a) != Uncounted && AnnosOf(a) != {} ==> StateOf(a) in phases)
  {
    assert forall x :: x in init + [a] <==> x in init || x == a;
  }

  lemma FreshExpected(phases: seq<string>)
    ensures forall k :: k != Uncounted ==> CategoryOf(FreshStatistics(phases), k) == Expected([], k, phases)
  {
    assert PhaseMap([], phases) == FreshCategory(phases).stateDelta;
  }

  /** The counters `generate_stats` builds are the ones computed directly
      from the records, and the loop fails exactly when some record with
      its own counters carries markers under an undeclared phase. */
  lemma {:induction false} StatsOfCounters(items: seq<Artifact>, phases: seq<string>)
    ensures StatsOf(items, phases).Success? <==> PhasesDeclared(items, phases)
    ensures StatsOf(items, phases).Success? ==>
              forall k :: k != Uncounted ==> CategoryOf(StatsOf(items, phases).value, k) == Expected(items, k, phases)
    decreases |items|
  {
    if |items| == 0 {
      FreshExpected(phases);
    } else {
      var init, a := items[..|items| - 1], items[|items| - 1];
      assert items == init + [a];
      StatsOfCounters(init, phases);
      PhasesDeclaredSnoc(init, a, phases);
      if StatsOf(init, phases).Success? {
        if KindOf(a) == Uncounted {
          CountRecordUncounted(StatsOf(init, phases).value, init, a, phases);
        } else {
          CountRecordCounted(StatsOf(init, phases).value, init, a, phases);
        }
      }
    }
  }

  /* ---------------------------------------------------------------------- */
  /* Per-phase counters add up to their totals                              */
  /* ---------------------------------------------------------------------- */

  predicate Distinct(ps: seq<string>) {
    forall i, j :: 0 <= i < j < |ps| ==> ps[i] != ps[j]
  }

  /** Two lists that name the same phases, repeats aside. */
  ghost predicate SamePhases(ps: seq<string>, qs: seq<string>) {
    forall p :: p in ps <==> p in qs
  }

  /** The keys of an `OrderedDict` filled from `phases`: each phase once,
      in the order of its first appearance. */
  function OrderedKeys(phases: seq<string>): (r: seq<string>)
    ensures Distinct(r) && SamePhases(r, phases)
    decreases |phases|
  {
    if |phases| == 0 then []
    else
      var init, p := phases[..|phases| - 1], phases[|phases| - 1];
      var prev := OrderedKeys(init);
      assert phases == init + [p];
      if p in prev then prev else prev + [p]
  }

  /** The per-phase lists depend on the declared phases only as a set. */
  lemma PhaseMapSamePhases(rs: seq<Artifact>, phases: seq<string>, ps: seq<string>)
    requires SamePhases(ps, phases)
    ensures PhaseMap(rs, phases) == PhaseMap(rs, ps)
  {
  }

  /** The marker lists of the phases `ps`, put together. */
  function SumPhases(ps: seq<string>, m: map<string, multiset<string>>): multiset<string>
    requires forall i :: 0 <= i < |ps| ==> ps[i] in m
    decreases |ps|
  {
    if |ps| == 0 then multiset{} else m[ps[0]] + SumPhases(ps[1..], m)
  }

  lemma {:induction false} SumPhasesEmpty(ps: seq<string>, m: map<string, multiset<string>>)
    requires forall i :: 0 <= i < |ps| ==> ps[i] in m && m[ps[i]] == multiset{}
    ensures SumPhases(ps, m) == multiset{}
    decreases |ps|
  {
    if |ps| > 0 {
      SumPhasesEmpty(ps[1..], m);
    }
  }

  /** Adding `A` to the list of phase `s` adds `A` to the sum once, since
      the phases are distinct. */
  lemma {:induction false} SumPhasesBump(ps: seq<string>, m1: map<string, multiset<string>>,
                                         m2: map<string, multiset<string>>, s: string, A: multiset<string>)
    requires Distinct(ps)
    requires forall i :: 0 <= i < |ps| ==> ps[i] in m1 && ps[i] in m2
    requires forall i :: 0 <= i < |ps| ==> m2[ps[i]] == m1[ps[i]] + (if ps[i] == s then A else multiset{})
    ensures SumPhases(ps, m2) == SumPhases(ps, m1) + (if s in ps then A else multiset{})
    decreases |ps|
  {
    if |ps| > 0 {
      var tail := ps[1..];
      assert forall i :: 0 <= i < |tail| ==> tail[i] == ps[i + 1];
      SumPhasesBump(tail, m1, m2, s, A);
      assert ps == [ps[0]] + tail;
      assert forall i :: 0 <= i < |tail| ==> tail[i] != ps[0];
      assert s in ps <==> s == ps[0] || s in tail;
    }
  }

  /** One more record changes each declared phase's list by its own
      markers if it is of that phase, and leaves it otherwise. */
  lemma PhaseMapStep(init: seq<Artifact>, a: Artifact, phases: seq<string>)
    ensures forall i :: 0 <= i < |phases| ==>
              phases[i] in PhaseMap(init, phases) && phases[i] in PhaseMap(init + [a], phases)
              && PhaseMap(init + [a], phases)[phases[i]]
                 == PhaseMap(init, phases)[phases[i]] + (if phases[i] == StateOf(a) then multiset(AnnosOf(a)) else multiset{})
  {
    forall i | 0 <= i < |phases|
      ensures PhaseMap(init + [a], phases)[phases[i]]
              == PhaseMap(init, phases)[phases[i]] + (if phases[i] == StateOf(a) then multiset(AnnosOf(a)) else multiset{})
    {
      AnnosInPhaseSnoc(init, a, phases[i]);
    }
  }

  /** The markers of a run of records, split by phase, add up to all their
      markers when every record with markers names a declared phase. */
  lemma {:induction false} AnnosByPhase(rs: seq<Artifact>, phases: seq<string>)
    requires Distinct(phases)
    requires forall a :: a in rs && AnnosOf(a) != {} ==> StateOf(a) in phases
    ensures Annos(rs) == SumPhases(phases, PhaseMap(rs, phases))
    decreases |rs|
  {
    if |rs| == 0 {
      SumPhasesEmpty(phases, PhaseMap(rs, phases));
    } else {
      var init, a := rs[..|rs| - 1], rs[|rs| - 1];
      assert rs == init + [a];
      assert forall x :: x in init ==> x in rs;
      AnnosByPhase(init, phases);
      SnocCounters(init, a);
      PhaseMapStep(init, a, phases);
      SumPhasesBump(phases, PhaseMap(init, phases), PhaseMap(rs, phases), StateOf(a), multiset(AnnosOf(a)));
      if AnnosOf(a) == {} {
        assert multiset(AnnosOf(a)) == multiset{};
      }
    }
  }

  /** Members of a kind are records of that kind from the list. */
  lemma {:induction false} MembersIn(items: seq<Artifact>, k: Kind)
    ensures forall a :: a in Members(items, k) ==> a in items && KindOf(a) == k
    decreases |items|
  {
    if |items| > 0 {
      MembersIn(items[..|items| - 1], k);
    }
  }

  /** After `generate_stats`, in each kind the phase counter adds up to the
      kind's count, the marker lists exist for exactly the declared phases,
      and together, summed over the dictionary's keys in order, they hold
      exactly the markers the marker counter counted. Repeats in `phases`
      are allowed. */
  lemma GenerateStatsPhases(obj: ApxmlObject, phases: seq<string>, k: Kind)
    requires k != Uncounted && GenerateStats(obj, phases).Success?
    ensures |CategoryOf(GenerateStats(obj, phases).value.stats, k).state| == CategoryOf(GenerateStats(obj, phases).value.stats, k).count
    ensures CategoryOf(GenerateStats(obj, phases).value.stats, k).stateDelta.Keys == set p | p in phases
    ensures CategoryOf(GenerateStats(obj, phases).value.stats, k).delta
         == SumPhases(OrderedKeys(phases), CategoryOf(GenerateStats(obj, phases).value.stats, k).stateDelta)
  {
    var items := Items(obj);
    StatsOfCounters(items, phases);
    MembersIn(items, k);
    AnnosByPhaseAnyOrder(Members(items, k), phases, OrderedKeys(phases));
  }

  /** The markers of a run of records, split by the declared phases, add
      up to all their markers, whichever duplicate-free list of those
      phases the sum runs over. */
  lemma AnnosByPhaseAnyOrder(rs: seq<Artifact>, phases: seq<string>, ps: seq<string>)
    requires Distinct(ps) && SamePhases(ps, phases)
    requires forall a :: a in rs && AnnosOf(a) != {} ==> StateOf(a) in phases
    ensures forall i :: 0 <= i < |ps| ==> ps[i] in PhaseMap(rs, phases)
    ensures Annos(rs) == SumPhases(ps, PhaseMap(rs, phases))
  {
    PhaseMapSamePhases(rs, phases, ps);
    AnnosByPhase(rs, ps);
  }

  /** The sum of `GenerateStatsPhases` over any duplicate-free list of the
      declared phases, since `_all_phases` may name a phase many times. */
  lemma GenerateStatsPhasesAnyOrder(obj: ApxmlObject, phases: seq<string>, k: Kind, ps: seq<string>)
    requires Distinct(ps) && SamePhases(ps, phases)
    requires k != Uncounted && GenerateStats(obj, phases).Success?
    ensures forall i :: 0 <= i < |ps| ==> ps[i] in CategoryOf(GenerateStats(obj, phases).value.stats, k).stateDelta
    ensures CategoryOf(GenerateStats(obj, phases).value.stats, k).delta
         == SumPhases(ps, CategoryOf(GenerateStats(obj, phases).value.stats, k).stateDelta)
  {
    var items := Items(obj);
    StatsOfCounters(items, phases);
    MembersIn(items, k);
    AnnosByPhaseAnyOrder(Members(items, k), phases, ps);
  }

  /** `generate_stats` raises exactly when a file of type 1 or 2, or a key
      or value cell, carries markers under a phase the profile did not
      declare, and what it raises is a missing-key error. */
  lemma GenerateStatsKeyError(obj: ApxmlObject, phases: seq<string>)
    ensures GenerateStats(obj, phases).Failure? <==>
              exists a :: a in Items(obj) && KindOf(a) != Uncounted && AnnosOf(a) != {} && StateOf(a) !in phases
    ensures GenerateStats(obj, phases).Failure? ==> GenerateStats(obj, phases).error == KeyError
  {
    StatsOfCounters(Items(obj), phases);
  }
}

=== FILE: cell_path_normalizer.dfy ===
/** The registry cell-path normalizer: four segment-based rewrites of a
    Windows Registry path whose segments are separated by backslashes.

    - `NormalizeProfileCo` drops the `HKLM\` hive prefix, and turns
      `HKU\<sid>\...` into `NTUSER.DAT\...`;
    - `NormalizeRootkey` puts a given root key in place of segment 0;
    - `NormalizeCellpath` collapses the control-set names of the SYSTEM hive
      at segment 1 into `%controlset%`;
    - `NormalizeBasename` cleans up a file path stored in a cell's name and
      hands it to the file-path normalizer.
 */
module CellPathNormalizer {
  import opened Wrappers
  import opened Strings
  import FilePathNormalizer

  /** The separator of registry paths. */
  const Sep: char := '\\'

  /** The aliases of the current control set, compared case-sensitively. */
  const ControlNames: seq<string> := ["controlset001", "controlset002", "controlset003", "currentcontrolset", "clone"]

  /** What every alias is collapsed into. */
  const ControlSetToken: string := "%controlset%"

  /** The user-hive file that replaces `HKU\<sid>`. */
  const UserHive: string := "NTUSER.DAT"

  /* ---------------------------------------------------------------------- */
  /* normalize_profile_co                                                   */
  /* ---------------------------------------------------------------------- */

  /** The first step: the five characters of a leading `HKLM\` go. */
  function StripHklm(cellpath: string): (r: string)
    ensures StartsWith(cellpath, "HKLM\\") ==> cellpath == "HKLM\\" + r
    ensures !StartsWith(cellpath, "HKLM\\") ==> r == cellpath
  {
    if StartsWith(cellpath, "HKLM\\") then
      assert cellpath == cellpath[..5] + cellpath[5..];
      cellpath[5..]
    else cellpath
  }

  /** The second step, applied to the output of the first: `HKU\` goes, then
      the first remaining segment (the SID), and `NTUSER.DAT\` is put in
      front. */
  function StripHku(path: string): string {
    if StartsWith(path, "HKU\\") then
      var parts := Split(path[4..], Sep);
      UserHive + [Sep] + Join(parts[1..], Sep)
    else path
  }

  /** `normalize_profile_co`. */
  function NormalizeProfileCo(cellpath: string): (r: string)
    ensures !StartsWith(cellpath, "HKLM\\") && !StartsWith(cellpath, "HKU\\") ==> r == cellpath
    ensures StartsWith(cellpath, "HKU\\") ==> StartsWith(r, UserHive + [Sep])
  {
    var r := StripHku(StripHklm(cellpath));
    if StartsWith(cellpath, "HKU\\") then
      MismatchAt(cellpath, "HKLM\\", 2);
      assert StartsWith(r, UserHive + [Sep]);
      r
    else r
  }

  /** `HKLM\` + r becomes r, unless r itself begins with `HKU\`, in which
      case the second step goes on to rewrite it. */
  lemma ProfileHklm(r: string)
    requires !StartsWith(r, "HKU\\")
    ensures NormalizeProfileCo("HKLM\\" + r) == r
  {
    var p := "HKLM\\" + r;
    assert p[..5] == "HKLM\\";
    assert p[5..] == r;
  }

  /** `HKU\<sid>\r` becomes `NTUSER.DAT\r`: the SID segment is discarded
      and the rest of the path is kept as it was. */
  lemma ProfileHku(sid: string, r: string)
    requires Sep !in sid
    ensures NormalizeProfileCo("HKU\\" + sid + [Sep] + r) == UserHive + [Sep] + r
  {
    var p := "HKU\\" + sid + [Sep] + r;
    MismatchAt(p, "HKLM\\", 2);
    assert p[..4] == "HKU\\";
    assert p[4..] == sid + [Sep] + r;
    SplitConcat(sid, r, Sep);
    SplitNoSep(sid, Sep);
    assert Split(p[4..], Sep)[1..] == Split(r, Sep);
    JoinSplit(r, Sep);
  }

  /** `HKU\<sid>` with nothing after the SID becomes `NTUSER.DAT\`. */
  lemma ProfileHkuBare(sid: string)
    requires Sep !in sid
    ensures NormalizeProfileCo("HKU\\" + sid) == UserHive + [Sep]
  {
    var p := "HKU\\" + sid;
    MismatchAt(p, "HKLM\\", 2);
    assert p[..4] == "HKU\\";
    assert p[4..] == sid;
    SplitNoSep(sid, Sep);
  }

  /* ---------------------------------------------------------------------- */
  /* normalize_rootkey                                                      */
  /* ---------------------------------------------------------------------- */

  /** `normalize_rootkey`: segment 0 of a non-empty path becomes `rootkey`;
      an empty path is returned as it is. */
  function NormalizeRootkey(cellpath: string, rootkey: string): (r: string)
    ensures |cellpath| == 0 ==> r == cellpath
  {
    if |cellpath| == 0 then cellpath
    else
      var parts := Split(cellpath, Sep);
      Join([rootkey] + parts[1..], Sep)
  }

  /** For a non-empty path and a root key without a backslash, the segment
      count is kept, segment 0 is the root key and every other segment is
      the one that was there. */
  lemma RootkeySegments(cellpath: string, rootkey: string)
    requires |cellpath| > 0 && Sep !in rootkey
    ensures |Split(NormalizeRootkey(cellpath, rootkey), Sep)| == |Split(cellpath, Sep)|
    ensures Split(NormalizeRootkey(cellpath, rootkey), Sep)[0] == rootkey
    ensures forall k :: 1 <= k < |Split(cellpath, Sep)| ==>
              Split(NormalizeRootkey(cellpath, rootkey), Sep)[k] == Split(cellpath, Sep)[k]
  {
    var parts := Split(cellpath, Sep);
    var q := [rootkey] + parts[1..];
    SplitPiecesSepFree(cellpath, Sep);
    assert forall k :: 0 <= k < |q| ==> Sep !in q[k] by {
      forall k | 0 <= k < |q| ensures Sep !in q[k] {
        if k > 0 { assert q[k] == parts[k]; }
      }
    }
    SplitJoin(q, Sep);
  }

  /** Putting back the segment that is already there changes nothing. */
  lemma RootkeyOwnSegment(cellpath: string)
    ensures NormalizeRootkey(cellpath, Split(cellpath, Sep)[0]) == cellpath
  {
    var parts := Split(cellpath, Sep);
    assert [parts[0]] + parts[1..] == parts;
    JoinSplit(cellpath, Sep);
  }

  /* ---------------------------------------------------------------------- */
  /* normalize_cellpath                                                     */
  /* ---------------------------------------------------------------------- */

  /** The segments after the control-set step: segment 1 is collapsed when
      the hive is `system` and it is one of the aliases. */
  function CollapseControlSet(parts: seq<string>, rootkey: string): (q: seq<string>)
    ensures |q| == |parts|
    ensures forall k :: 0 <= k < |parts| && k != 1 ==> q[k] == parts[k]
    ensures |parts| >= 2 ==> (q[1] != parts[1] <==> rootkey == "system" && parts[1] in ControlNames)
    ensures |parts| >= 2 && q[1] != parts[1] ==> q[1] == ControlSetToken
  {
    if rootkey == "system" && |parts| >= 2 && parts[1] in ControlNames then
      assert ControlSetToken !in ControlNames;
      parts[1 := ControlSetToken]
    else parts
  }

  /** `normalize_cellpath`. */
  function NormalizeCellpath(cellpath: string, rootkey: string): (r: string)
    ensures |cellpath| == 0 ==> r == cellpath
  {
    if |cellpath| == 0 then cellpath
    else Join(CollapseControlSet(Split(cellpath, Sep), rootkey), Sep)
  }

  lemma TokenSepFree()
    ensures Sep !in ControlSetToken
  {
    assert forall k :: 0 <= k < |ControlSetToken| ==> ControlSetToken[k] != Sep;
  }

  /** Putting the token at segment 1 keeps the segments free of the
      separator, so splitting the join gives them back. */
  lemma SplitJoinCollapsed(parts: seq<string>)
    requires |parts| >= 2
    requires forall k :: 0 <= k < |parts| ==> Sep !in parts[k]
    ensures Split(Join(parts[1 := ControlSetToken], Sep), Sep) == parts[1 := ControlSetToken]
  {
    TokenSepFree();
    SplitJoin(parts[1 := ControlSetToken], Sep);
  }

  /** The segments of the result, which is what the contract of
      `CollapseControlSet` then describes. */
  lemma CellpathSegments(cellpath: string, rootkey: string)
    requires |cellpath| > 0
    ensures Split(NormalizeCellpath(cellpath, rootkey), Sep) == CollapseControlSet(Split(cellpath, Sep), rootkey)
  {
    var parts := Split(cellpath, Sep);
    if rootkey == "system" && |parts| >= 2 && parts[1] in ControlNames {
      SplitPiecesSepFree(cellpath, Sep);
      SplitJoinCollapsed(parts);
    } else {
      JoinSplit(cellpath, Sep);
    }
  }

  /** Any hive other than the exact string `system` leaves the path as it
      was: split and join undo each other. */
  lemma CellpathOtherHive(cellpath: string, rootkey: string)
    requires rootkey != "system"
    ensures NormalizeCellpath(cellpath, rootkey) == cellpath
  {
    JoinSplit(cellpath, Sep);
  }

  /** In the `system` hive the path changes iff segment 1 is exactly one of
      the lower-case aliases (so `ControlSet001` is left alone); when it
      changes, only segment 1 changes and it becomes `%controlset%`. */
  lemma CellpathSystem(cellpath: string)
    requires |cellpath| > 0
    ensures var parts := Split(cellpath, Sep);
            NormalizeCellpath(cellpath, "system") != cellpath <==> |parts| >= 2 && parts[1] in ControlNames
    ensures var parts := Split(cellpath, Sep);
            |parts| >= 2 && parts[1] in ControlNames ==>
              Split(NormalizeCellpath(cellpath, "system"), Sep) == parts[1 := ControlSetToken]
  {
    var parts := Split(cellpath, Sep);
    CellpathSegments(cellpath, "system");
    JoinSplit(cellpath, Sep);
    if |parts| >= 2 && parts[1] in ControlNames {
      assert Split(NormalizeCellpath(cellpath, "system"), Sep)[1] != parts[1];
    }
  }

  /** `ControlSet001` is not an alias: the comparison is case-sensitive. */
  lemma CellpathCaseSensitive(hive: string, rest: string)
    requires Sep !in hive
    ensures NormalizeCellpath(hive + [Sep] + "ControlSet001" + [Sep] + rest, "system")
         == hive + [Sep] + "ControlSet001" + [Sep] + rest
  {
    CaseVariantUnknown();
    CellpathKeepsSegment(hive, "ControlSet001", rest);
  }

  lemma CaseVariantUnknown()
    ensures Sep !in "ControlSet001" && "ControlSet001" !in ControlNames
  {
  }

  /** A segment 1 that is not one of the aliases is kept, and so is the
      whole path. */
  lemma CellpathKeepsSegment(hive: string, seg: string, rest: string)
    requires Sep !in hive && Sep !in seg && seg !in ControlNames
    ensures NormalizeCellpath(hive + [Sep] + seg + [Sep] + rest, "system") == hive + [Sep] + seg + [Sep] + rest
  {
    var p := hive + [Sep] + seg + [Sep] + rest;
    assert p == hive + [Sep] + (seg + [Sep] + rest);
    SplitConcat(hive, seg + [Sep] + rest, Sep);
    SplitConcat(seg, rest, Sep);
    SplitNoSep(hive, Sep);
    SplitNoSep(seg, Sep);
    assert Split(p, Sep)[1] == seg;
    CellpathSystem(p);
  }

  /** Normalizing twice is normalizing once. */
  lemma CellpathIdempotent(cellpath: string, rootkey: string)
    ensures NormalizeCellpath(NormalizeCellpath(cellpath, rootkey), rootkey) == NormalizeCellpath(cellpath, rootkey)
  {
    var r := NormalizeCellpath(cellpath, rootkey);
    if |cellpath| > 0 {
      CellpathSegments(cellpath, rootkey);
      var q := Split(r, Sep);
      assert |r| > 0;
      assert CollapseControlSet(q, rootkey) == q;
      JoinSplit(r, Sep);
    }
  }

  /** Two paths of the `system` hive that differ only by which alias stands
      at segment 1 normalize equal. */
  lemma CellpathAliases(a: string, b: string)
    requires |a| > 0 && |b| > 0
    requires |Split(a, Sep)| == |Split(b, Sep)| >= 2
    requires Split(a, Sep)[1] in ControlNames && Split(b, Sep)[1] in ControlNames
    requires forall k :: 0 <= k < |Split(a, Sep)| && k != 1 ==> Split(a, Sep)[k] == Split(b, Sep)[k]
    ensures NormalizeCellpath(a, "system") == NormalizeCellpath(b, "system")
  {
    var qa := CollapseControlSet(Split(a, Sep), "system");
    var qb := CollapseControlSet(Split(b, Sep), "system");
    assert qa == qb;
  }

  /* ---------------------------------------------------------------------- */
  /* normalize_basename                                                     */
  /* ---------------------------------------------------------------------- */

  /** The prefix older UserAssist entries carry (ROT-13 of `UEME_RUNPATH`). */
  const UserAssistPrefix: string := "HRZR_EHACNGU"

  /** What `normalize_basename` does once the `P:` test and the UserAssist
      prefix are behind it: a `C:` drive and the character after it go,
      backslashes become slashes, and the file-path normalizer does the
      rest. */
  function CleanPath(b: string): (r: string)
    ensures Sep !in r
  {
    var c := if StartsWith(b, "C:") then PySliceFrom(b, 3) else b;
    FilePathNormalizer.Normalize(ReplaceAll(c, [Sep], "/"))
  }

  /** `normalize_basename`. A name that begins with `P:` (ROT-13 of `C:`)
      reaches a reference to a name the method never defines and raises;
      otherwise the UserAssist prefix goes and `CleanPath` does the rest. */
  function NormalizeBasename(basename: string): (r: Result<string>)
    ensures r.Failure? <==> StartsWith(basename, "P:")
    ensures r.Failure? ==> r.error == NameError
    ensures r.Success? ==> Sep !in r.value
  {
    if StartsWith(basename, "P:") then Failure(NameError)
    else if StartsWith(basename, UserAssistPrefix) then Success(CleanPath(basename[12..]))
    else Success(CleanPath(basename))
  }

  /** ROT-13 of one character: ASCII letters rotate by thirteen places,
      everything else is kept. */
  function Rot13Char(c: char): (d: char)
    ensures ('a' <= c <= 'z') <==> ('a' <= d <= 'z')
    ensures ('A' <= c <= 'Z') <==> ('A' <= d <= 'Z')
    ensures !('a' <= c <= 'z') && !('A' <= c <= 'Z') ==> d == c
  {
    if 'a' <= c <= 'z' then (((c as int - 'a' as int + 13) % 26) + 'a' as int) as char
    else if 'A' <= c <= 'Z' then (((c as int - 'A' as int + 13) % 26) + 'A' as int) as char
    else c
  }

  /** The `rot_13` text codec, character by character. */
  function Rot13(s: string): (r: string)
    ensures |r| == |s|
    ensures forall i :: 0 <= i < |s| ==> r[i] == Rot13Char(s[i])
  {
    seq(|s|, i requires 0 <= i < |s| => Rot13Char(s[i]))
  }

  /** Rotating a position in the alphabet twice brings it back. */
  lemma RotateTwice(x: int)
    requires 0 <= x < 26
    ensures ((x + 13) % 26 + 13) % 26 == x
  {
    if x < 13 {
      assert (x + 13) % 26 == x + 13;
    } else {
      assert (x + 13) % 26 == x - 13;
    }
  }

  lemma Rot13CharTwice(c: char)
    ensures Rot13Char(Rot13Char(c)) == c
  {
    if 'a' <= c <= 'z' {
      RotateTwice(c as int - 'a' as int);
    } else if 'A' <= c <= 'Z' {
      RotateTwice(c as int - 'A' as int);
    }
  }

  /** ROT-13 is its own inverse. */
  lemma Rot13Involution(s: string)
    ensures Rot13(Rot13(s)) == s
  {
    forall i | 0 <= i < |s| ensures Rot13(Rot13(s))[i] == s[i] {
      Rot13CharTwice(s[i]);
    }
  }

  /** `normalize_basename` as evidently intended: a `P:` name is decoded
      from ROT-13, which turns its `P:` into `C:`, before the clean-up. */
  function NormalizeBasenameIntended(basename: string): (r: string)
    ensures Sep !in r
  {
    if StartsWith(basename, "P:") then CleanPath(Rot13(basename))
    else if StartsWith(basename, UserAssistPrefix) then CleanPath(basename[12..])
    else CleanPath(basename)
  }

  /** The intended method and the written one agree on every name the
      written one accepts; they differ exactly on the `P:` names. */
  lemma BasenameIntendedAgrees(basename: string)
    ensures NormalizeBasename(basename).Success? ==> NormalizeBasename(basename).value == NormalizeBasenameIntended(basename)
    ensures NormalizeBasename(basename).Failure? <==> StartsWith(basename, "P:")
  {
  }

  /** A UserAssist name, a `C:` path stored in ROT-13, is cleaned up as the
      plain path would be by the intended method, while the written method
      raises on it. */
  lemma {:induction false} BasenameRot13Path(rest: string)
    ensures NormalizeBasenameIntended(Rot13("C:\\" + rest)) == CleanPath("C:\\" + rest)
    ensures NormalizeBasename(Rot13("C:\\" + rest)) == Failure(NameError)
  {
    var p := Rot13("C:\\" + rest);
    assert p[0] == 'P' && p[1] == ':';
    assert p[..2] == "P:";
    Rot13Involution("C:\\" + rest);
  }

  /** The UserAssist prefix is dropped, once, before anything else happens;
      only the `P:` test comes before it, so a name behind the prefix is
      never tested for `P:`. */
  lemma BasenameUserAssist(x: string)
    requires !StartsWith(x, "P:") && !StartsWith(x, UserAssistPrefix)
    ensures NormalizeBasename(UserAssistPrefix + x) == NormalizeBasename(x)
  {
    var p := UserAssistPrefix + x;
    MismatchAt(p, "P:", 0);
    assert StartsWith(p, UserAssistPrefix);
    assert p[12..] == x;
    assert NormalizeBasename(p) == Success(CleanPath(x));
  }

  /** A name behind the prefix that begins with `P:` is cleaned up rather
      than rejected. */
  lemma BasenameUserAssistHidesP(x: string)
    requires StartsWith(x, "P:")
    ensures NormalizeBasename(UserAssistPrefix + x) == Success(CleanPath(x))
    ensures NormalizeBasename(x).Failure?
  {
    var p := UserAssistPrefix + x;
    MismatchAt(p, "P:", 0);
    assert StartsWith(p, UserAssistPrefix);
    assert p[12..] == x;
  }

  /** `C:` and the one character after it go; the rest is normalized as a
      path relative to the drive root. */
  lemma BasenameDrive(c: char, rest: string)
    ensures NormalizeBasename("C:" + [c] + rest) == Success(FilePathNormalizer.Normalize(Translate(rest, Sep, '/')))
  {
    var p := "C:" + [c] + rest;
    MismatchAt(p, "P:", 0);
    MismatchAt(p, UserAssistPrefix, 0);
    assert p[..2] == "C:";
    assert p[3..] == rest;
    ReplaceCharIsTranslate(rest, Sep, '/');
  }

  /** For a name with a `C:\` root, the clean-up agrees with calling the
      file-path normalizer on the whole name. */
  lemma BasenameIsFilePath(rest: string)
    ensures NormalizeBasename("C:\\" + rest) == Success(FilePathNormalizer.Normalize("C:\\" + rest))
  {
    DriveSpelled(rest);
    BasenameDrive(Sep, rest);
    FilePathNormalizer.NormalizeDrive(rest);
  }

  lemma DriveSpelled(rest: string)
    ensures "C:\\" + rest == "C:" + [Sep] + rest
  {
  }

  /** A name with none of the three prefixes is handed to the file-path
      normalizer as it is. */
  lemma BasenamePlain(x: string)
    requires !StartsWith(x, "P:") && !StartsWith(x, UserAssistPrefix) && !StartsWith(x, "C:")
    ensures NormalizeBasename(x) == Success(FilePathNormalizer.Normalize(x))
  {
    ReplaceCharIsTranslate(x, Sep, '/');
    StartsWithShorter(x, "C:", "\\");
    FilePathNormalizer.NormalizeSlashed(x);
  }
}

=== FILE: equivalence.dfy ===
/** When two records count as the same artifact across profiles. Files are
    compared field by field, except that shortcut files ignore their hash
    and prefetch files also ignore the hash suffix of their name; cells
    under `UserAssist` ignore their data. The rule is picked from the first
    record alone.
 */
module Equivalence {
  import opened Wrappers
  import opened Strings
  import opened Objects

  /* ---------------------------------------------------------------------- */
  /* os.path.splitext                                                       */
  /* ---------------------------------------------------------------------- */

  /** Whether `p[lo..hi]` holds a character other than a dot. */
  predicate HasNonDot(p: string, lo: int, hi: int)
    requires 0 <= lo && hi <= |p|
  {
    exists k :: lo <= k < hi && p[k] != '.'
  }

  /** `os.path.splitext` with the POSIX separator `/`: the extension starts
      at the last dot after the last separator, unless only dots precede
      that dot in the last component. */
  function SplitExt(p: string): (r: (string, string))
    ensures r.0 + r.1 == p
    ensures r.1 == "" || (r.1[0] == '.' && '.' !in r.1[1..] && '/' !in r.1)
  {
    var sepIndex := RFindChar(p, '/');
    var dotIndex := RFindChar(p, '.');
    if dotIndex > sepIndex && HasNonDot(p, sepIndex + 1, dotIndex) then
      assert p[..dotIndex] + p[dotIndex..] == p;
      assert p[dotIndex..][1..] == p[dotIndex + 1..];
      assert forall i :: 0 <= i < |p[dotIndex..]| ==> p[dotIndex..][i] == p[dotIndex + i];
      (p[..dotIndex], p[dotIndex..])
    else
      (p, "")
  }

  /** A name `a.e` whose extension `e` has no dot or separator, and whose
      stem has no separator and does not start with a dot, splits into
      `a` and `.e`. */
  lemma SplitExtOf(a: string, e: string)
    requires |a| > 0 && a[0] != '.' && '/' !in a
    requires '.' !in e && '/' !in e
    ensures SplitExt(a + "." + e) == (a, "." + e)
  {
    var p := a + "." + e;
    DotJoin(a, e);
    RFindCharAt(p, '.', |a|);
    assert HasNonDot(p, 0, |a|) by {
      assert p[0] == a[0];
    }
  }

  /** The shape of `a.e` when neither part holds a separator and `e` holds
      no dot. */
  lemma DotJoin(a: string, e: string)
    requires '/' !in a && '.' !in e && '/' !in e
    ensures var p := a + "." + e;
            |p| == |a| + 1 + |e| && p[|a|] == '.' && p[..|a|] == a && p[|a|..] == "." + e && '/' !in p
    ensures var p := a + "." + e;
            forall i :: |a| < i < |p| ==> p[i] != '.'
  {
    var p := a + "." + e;
    forall i | 0 <= i < |p|
      ensures p[i] != '/' && (i > |a| ==> p[i] != '.')
    {
      if i < |a| {
        assert p[i] == a[i];
      } else if i > |a| {
        assert p[i] == e[i - |a| - 1];
      }
    }
    assert p[..|a|] == a;
    assert p[|a|..] == "." + e;
  }

  /** A file name without its extension. */
  function Root(p: string): string {
    SplitExt(p).0
  }

  /** The prefetch comparison key: the name without its extension, cut at
      the first hyphen, which drops the path hash Windows appends. */
  function PrefetchKey(p: string): (r: string)
    ensures '-' !in r
    ensures r == Root(p) || StartsWith(Root(p), r + "-")
  {
    FirstSegment(Root(p), '-')
  }

  /** The key of a name `n-h.e` is `n`: the extension goes, then
      everything from the first hyphen. */
  lemma PrefetchKeyOf(n: string, h: string, e: string)
    requires |n| > 0 && n[0] != '.' && '/' !in n && '-' !in n && '/' !in h
    requires '.' !in e && '/' !in e
    ensures PrefetchKey(n + "-" + h + "." + e) == n
  {
    var a := n + "-" + h;
    assert a[0] == n[0];
    assert '/' !in a by {
      assert forall i :: 0 <= i < |a| ==> a[i] == (if i < |n| then n[i] else if i == |n| then '-' else h[i - |n| - 1]);
    }
    SplitExtOf(a, e);
    assert a == n + ['-'] + h;
    FirstSegmentAt(n, h, '-');
  }

  /** The first segment of `n + [c] + h` is `n` when `c` is not in `n`. */
  lemma FirstSegmentAt(n: string, h: string, c: char)
    requires c !in n
    ensures FirstSegment(n + [c] + h, c) == n
  {
    SplitConcat(n, h, c);
    SplitNoSep(n, c);
  }

  /* ---------------------------------------------------------------------- */
  /* compare_files                                                          */
  /* ---------------------------------------------------------------------- */

  /** The fields every file rule compares besides the name and the hash. */
  predicate SameFileState(f1: FileObject, f2: FileObject) {
    f1.meta_type == f2.meta_type && f1.alloc_inode == f2.alloc_inode
    && f1.alloc_name == f2.alloc_name && f1.annos == f2.annos && f1.app_state == f2.app_state
  }

  predicate IsShortcut(f: FileObject) {
    EndsWith(f.filename, ".lnk")
  }

  predicate IsPrefetch(f: FileObject) {
    EndsWith(f.filename, ".pf")
  }

  /** `Intersection.compare_files`. */
  function CompareFiles(f1: FileObject, f2: FileObject): (r: bool)
    ensures r ==> SameFileState(f1, f2)
    ensures IsShortcut(f1) ==> (r <==> f1.filename == f2.filename && SameFileState(f1, f2))
    ensures !IsShortcut(f1) && IsPrefetch(f1) ==>
              (r <==> PrefetchKey(f1.filename) == PrefetchKey(f2.filename) && SameFileState(f1, f2))
    ensures !IsShortcut(f1) && !IsPrefetch(f1) ==>
              (r <==> f1.filename == f2.filename && f1.sha1 == f2.sha1 && SameFileState(f1, f2))
  {
    if IsShortcut(f1) then
      f1.filename == f2.filename && f1.meta_type == f2.meta_type && f1.alloc_inode == f2.alloc_inode
      && f1.alloc_name == f2.alloc_name && f1.annos == f2.annos && f1.app_state == f2.app_state
    else if IsPrefetch(f1) then
      PrefetchKey(f1.filename) == PrefetchKey(f2.filename) && f1.meta_type == f2.meta_type
      && f1.alloc_inode == f2.alloc_inode && f1.alloc_name == f2.alloc_name
      && f1.annos == f2.annos && f1.app_state == f2.app_state
    else
      f1.filename == f2.filename && f1.meta_type == f2.meta_type && f1.sha1 == f2.sha1
      && f1.alloc_inode == f2.alloc_inode && f1.alloc_name == f2.alloc_name
      && f1.annos == f2.annos && f1.app_state == f2.app_state
  }

  /** Every file matches itself, so a record met again is counted again. */
  lemma CompareFilesReflexive(f: FileObject)
    ensures CompareFiles(f, f)
  {
  }

  /** Records that agree on everything the rules read match in both
      directions. */
  lemma CompareFilesSameFields(f1: FileObject, f2: FileObject)
    requires f1.filename == f2.filename && f1.sha1 == f2.sha1 && SameFileState(f1, f2)
    ensures CompareFiles(f1, f2) && CompareFiles(f2, f1)
  {
  }

  /** Outside the prefetch rule the comparison is symmetric. */
  lemma CompareFilesSymmetric(f1: FileObject, f2: FileObject)
    requires !IsPrefetch(f1) || IsShortcut(f1)
    requires CompareFiles(f1, f2)
    ensures CompareFiles(f2, f1)
  {
  }

  /** An optional string that differs from the given one; used below to
      show which fields a comparison ignores. */
  function Other(h: Option<string>): (r: Option<string>)
    ensures r != h
  {
    if h.None? then Some("") else None
  }

  /** The hash is ignored exactly for shortcut and prefetch files. */
  lemma FileHashIgnoredIff(f: FileObject)
    ensures IsShortcut(f) || IsPrefetch(f) <==> CompareFiles(f, f.(sha1 := Other(f.sha1)))
  {
  }

  /** A shortcut's hash never matters. */
  lemma ShortcutHashIgnored(f1: FileObject, f2: FileObject, h: Option<string>)
    requires IsShortcut(f1)
    ensures CompareFiles(f1, f2) == CompareFiles(f1, f2.(sha1 := h))
  {
  }

  /** Two prefetch files of the same executable whose names differ only in
      the hash suffix match, whatever their content hashes. */
  lemma PrefetchHashSuffix(f1: FileObject, f2: FileObject, n: string, h1: string, h2: string)
    requires |n| > 0 && n[0] != '.' && '/' !in n && '-' !in n && '/' !in h1 && '/' !in h2
    requires f1.filename == n + "-" + h1 + ".pf" && f2.filename == n + "-" + h2 + ".pf"
    requires SameFileState(f1, f2)
    ensures CompareFiles(f1, f2)
  {
    PfKeyOf(n, h1);
    PfKeyOf(n, h2);
    PrefetchNotShortcut(n + "-" + h1);
  }

  /** The key of a prefetch name `n-h.pf` is `n`. */
  lemma PfKeyOf(n: string, h: string)
    requires |n| > 0 && n[0] != '.' && '/' !in n && '-' !in n && '/' !in h
    ensures PrefetchKey(n + "-" + h + ".pf") == n
  {
    PfExtension();
    PrefetchKeyOf(n, h, "pf");
    DotPf(n + "-" + h);
  }

  lemma PfExtension()
    ensures '.' !in "pf" && '/' !in "pf"
  {
  }

  lemma DotPf(m: string)
    ensures m + "." + "pf" == m + ".pf"
  {
  }

  /** A `.pf` name is never a `.lnk` name. */
  lemma PrefetchNotShortcut(y: string)
    ensures EndsWith(y + ".pf", ".pf") && !EndsWith(y + ".pf", ".lnk")
  {
    var s := y + ".pf";
    assert s[|s| - 3..] == ".pf";
    assert s[|s| - 1] == 'f';
    if |s| >= 4 {
      assert s[|s| - 4..][3] == s[|s| - 1];
    }
  }

  /** The rule is taken from the first record only, so the comparison is
      not symmetric: a prefetch record `n-h1.pf` matches a record
      `n-h2.e` of another kind in one direction and not in the other. */
  lemma CompareFilesAsymmetric(f: FileObject, n: string, h1: string, h2: string, e: string)
    requires |n| > 0 && n[0] != '.' && '/' !in n && '-' !in n && '/' !in h1
    requires '/' !in h2 && '.' !in e && '/' !in e
    requires !EndsWith(n + "-" + h2 + "." + e, ".pf") && !EndsWith(n + "-" + h2 + "." + e, ".lnk")
    ensures CompareFiles(f.(filename := n + "-" + h1 + ".pf"), f.(filename := n + "-" + h2 + "." + e))
    ensures !CompareFiles(f.(filename := n + "-" + h2 + "." + e), f.(filename := n + "-" + h1 + ".pf"))
  {
    PfKeyOf(n, h1);
    PrefetchKeyOf(n, h2, e);
    PrefetchNotShortcut(n + "-" + h1);
  }

  /* ---------------------------------------------------------------------- */
  /* compare_cells                                                          */
  /* ---------------------------------------------------------------------- */

  const UserAssist: string := "UserAssist"

  /** The fields every cell rule compares besides the data. */
  predicate SameCellState(c1: CellObject, c2: CellObject) {
    c1.cellpath == c2.cellpath && c1.name_type == c2.name_type && c1.alloc == c2.alloc
    && c1.data_type == c2.data_type && c1.annos == c2.annos && c1.app_state == c2.app_state
  }

  /** `Intersection.compare_cells`. */
  function CompareCells(c1: CellObject, c2: CellObject): (r: bool)
    ensures r ==> SameCellState(c1, c2)
    ensures Contains(c1.cellpath, UserAssist) ==> (r <==> SameCellState(c1, c2))
    ensures !Contains(c1.cellpath, UserAssist) ==> (r <==> SameCellState(c1, c2) && c1.data == c2.data)
  {
    if Contains(c1.cellpath, UserAssist) then
      c1.cellpath == c2.cellpath && c1.name_type == c2.name_type && c1.alloc == c2.alloc
      && c1.data_type == c2.data_type && c1.annos == c2.annos && c1.app_state == c2.app_state
    else
      c1.cellpath == c2.cellpath && c1.name_type == c2.name_type && c1.alloc == c2.alloc
      && c1.data_type == c2.data_type && c1.data == c2.data
      && c1.annos == c2.annos && c1.app_state == c2.app_state
  }

  /** Every cell matches itself. */
  lemma CompareCellsReflexive(c: CellObject)
    ensures CompareCells(c, c)
  {
  }

  /** Matching cells share their path, so both pick the same rule and the
      cell comparison is symmetric and transitive. */
  lemma CompareCellsSymmetric(c1: CellObject, c2: CellObject)
    requires CompareCells(c1, c2)
    ensures CompareCells(c2, c1)
  {
  }

  lemma CompareCellsTransitive(c1: CellObject, c2: CellObject, c3: CellObject)
    requires CompareCells(c1, c2) && CompareCells(c2, c3)
    ensures CompareCells(c1, c3)
  {
  }

  /** The data is ignored exactly when the first cell's path mentions
      `UserAssist`. */
  lemma CellDataIgnoredIff(c: CellObject)
    ensures Contains(c.cellpath, UserAssist) <==> CompareCells(c, c.(data := Other(c.data)))
  {
  }

  lemma UserAssistDataIgnored(c1: CellObject, c2: CellObject, d: Option<string>)
    requires Contains(c1.cellpath, UserAssist)
    ensures CompareCells(c1, c2) == CompareCells(c1, c2.(data := d))
  {
  }
}

=== FILE: file_path_normalizer.dfy ===
/** The file-system path normalizer: strips the `C:\` root, turns
    backslashes into slashes and then rewrites well-known Windows
    directories into placeholders (`%PROGRAMFILES%`, `%USERPROFILE%`, ...)
    by walking an ordered table of rules.

    Each rule fires when the path STARTS WITH one of its literals and then
    replaces EVERY occurrence of that literal (Python's `str.replace`).
    Rules run in table order and every later rule sees the output of the
    earlier ones, which is how `%USERPROFILE%/AppData/Local` can become
    `%LOCALAPPDATA%`.
 */
module FilePathNormalizer {
  import opened Wrappers
  import opened Strings

  /** The keys of the rule table, one per placeholder. */
  datatype Variable =
    | ProgramFiles
    | AllUsersProfile
    | UserProfile
    | LocalAppData
    | AppData
    | StartMenu
    | WinDir
    | SystemRoot
    | Prefetch

  /** The placeholder text a rule writes in place of its literal. */
  function Token(key: Variable): (r: string)
    ensures |r| > 2 && r[0] == '%' && r[|r| - 1] == '%'
  {
    match key
    case ProgramFiles => "%PROGRAMFILES%"
    case AllUsersProfile => "%ALLUSERSPROFILE%"
    case UserProfile => "%USERPROFILE%"
    case LocalAppData => "%LOCALAPPDATA%"
    case AppData => "%APPDATA%"
    case StartMenu => "%STARTMENU%"
    case WinDir => "%WINDIR%"
    case SystemRoot => "%SYSTEMROOT%"
    case Prefetch => "%PREFETCH%"
  }

  /** One entry of the ordered table: a key and its literals, tried in order. */
  datatype Rule = Rule(key: Variable, names: seq<Literal>)

  /** A table literal; all of them are non-empty, which keeps
      `str.replace` away from its empty-pattern case. */
  type Literal = s: string | |s| > 0 witness "."

  /** The literals of each key, in the order the constructor lists them.
      A literal that begins with a placeholder is written as that
      placeholder followed by the rest of its text; the strings are the
      same. */
  function Literals(key: Variable): seq<Literal> {
    match key
    case ProgramFiles => ["Program Files", "Program Files (x86)"]
    case AllUsersProfile => ["Documents and Settings/All Users", "ProgramData", "Users/Public"]
    case UserProfile => ["Users", "Documents and Settings"]
    case LocalAppData => [Token(UserProfile) + "/Local Settings/Application Data", Token(UserProfile) + "/AppData/Local"]
    case AppData => [Token(UserProfile) + "/Application Data", Token(UserProfile) + "/AppData/Roaming"]
    case StartMenu => StartMenuLiterals()
    case WinDir => ["Windows", "WINDOWS"]
    case SystemRoot => [Token(WinDir) + "/system32", Token(WinDir) + "/System32"]
    case Prefetch => [Token(WinDir) + "/prefetch", Token(WinDir) + "/Prefetch"]
  }

  /** The five start-menu literals, the longest list of the table. */
  function StartMenuLiterals(): seq<Literal> {
    [ Token(AllUsersProfile) + "/Start Menu",
      Token(AllUsersProfile) + "/Microsoft/Windows/Start Menu",
      Token(AppData) + "/Microsoft/Windows/Start Menu",
      Token(UserProfile) + "/Start Menu",
      Token(UserProfile) + "/" + Token(AppData) + "/Microsoft/Windows/Start Menu" ]
  }

  /** The table built by the constructor, in insertion order. */
  function VariablePaths(): seq<Rule> {
    [ Rule(ProgramFiles, Literals(ProgramFiles)),
      Rule(AllUsersProfile, Literals(AllUsersProfile)),
      Rule(UserProfile, Literals(UserProfile)),
      Rule(LocalAppData, Literals(LocalAppData)),
      Rule(AppData, Literals(AppData)),
      Rule(StartMenu, Literals(StartMenu)),
      Rule(WinDir, Literals(WinDir)),
      Rule(SystemRoot, Literals(SystemRoot)),
      Rule(Prefetch, Literals(Prefetch)) ]
  }

  /** No literal of the table is a prefix of `path`. */
  predicate NoLiteralPrefix(path: string, table: seq<Rule>) {
    forall i, j :: 0 <= i < |table| && 0 <= j < |table[i].names| ==> !StartsWith(path, table[i].names[j])
  }

  /* ---------------------------------------------------------------------- */
  /* The steps of `normalize`                                               */
  /* ---------------------------------------------------------------------- */

  /** Drops a leading `C:\`. */
  function StripRoot(fullpath: string): (r: string)
    ensures StartsWith(fullpath, "C:\\") ==> fullpath == "C:\\" + r
    ensures !StartsWith(fullpath, "C:\\") ==> r == fullpath
  {
    if StartsWith(fullpath, "C:\\") then
      assert fullpath == fullpath[..3] + fullpath[3..];
      fullpath[3..]
    else fullpath
  }

  /** `"/".join(fullpath.split("\\"))`: every backslash becomes a slash and
      nothing else changes. */
  function ToSlashes(path: string): (r: string)
    ensures r == Translate(path, '\\', '/')
    ensures '\\' !in r && |r| == |path|
  {
    JoinSplitIsTranslate(path, '\\', '/');
    Join(Split(path, '\\'), '/')
  }

  /** The user-profile rule's second step: splits on `/`, deletes segment 1
      (the user name) when there is one, and joins again. */
  function DropUsername(path: string): string {
    var parts := Split(path, '/');
    Join(if |parts| > 1 then parts[..1] + parts[2..] else parts, '/')
  }

  /** The prefetch rule's second step: `fullpath.index(".pf") - 9` as the cut
      and `fullpath[0:index] + ".pf"` as the result. The path ends with
      `.pf`, so the lookup cannot fail. */
  function CutPrefetchSuffix(path: string): string
    requires EndsWith(path, ".pf")
  {
    assert OccursAt(path, ".pf", |path| - 3);
    var index := Find(path, ".pf").value - 9;
    PySlice(path, 0, index) + ".pf"
  }

  /** One step of the inner loop: what `normalize` does to `path` for the
      literal `name` of the rule `key`. */
  function Rewrite(key: Variable, path: string, name: string): string
    requires |name| > 0
  {
    if !StartsWith(path, name) then path
    else
      var replaced := ReplaceAll(path, name, Token(key));
      match key
      case UserProfile => DropUsername(replaced)
      case Prefetch => if EndsWith(replaced, ".pf") then CutPrefetchSuffix(replaced) else replaced
      case _ => replaced
  }

  /** The inner loop: the literals of one rule, in order. */
  function RewriteNames(path: string, key: Variable, names: seq<Literal>): string
    decreases |names|
  {
    if |names| == 0 then path
    else RewriteNames(Rewrite(key, path, names[0]), key, names[1..])
  }

  /** The outer loop: the rules of the table from position `i` on, in order. */
  function RewriteTable(path: string, table: seq<Rule>, i: nat): string
    decreases |table| - i
  {
    if i >= |table| then path
    else RewriteTable(RewriteNames(path, table[i].key, table[i].names), table, i + 1)
  }

  /** `FilePathNormalizer.normalize`. It has no precondition: it never
      raises on any string, and its result never holds a backslash. */
  function Normalize(fullpath: string): (r: string)
    ensures '\\' !in r
  {
    var slashed := ToSlashes(StripRoot(fullpath));
    TokensWithout('\\');
    RewriteTableChars(slashed, VariablePaths(), 0, '\\');
    RewriteTable(slashed, VariablePaths(), 0)
  }

  /* ---------------------------------------------------------------------- */
  /* No backslash survives                                                  */
  /* ---------------------------------------------------------------------- */

  predicate TableFreeOf(table: seq<Rule>, c: char) {
    forall i :: 0 <= i < |table| ==> c !in Token(table[i].key)
  }

  lemma PySliceChars(s: string, i: int, j: int, c: char)
    requires c in PySlice(s, i, j)
    ensures c in s
  {
    var a := SliceBound(i, |s|);
    var b := SliceBound(j, |s|);
    var k :| 0 <= k < |s[a..b]| && s[a..b][k] == c;
    assert s[a + k] == c;
  }

  lemma DropUsernameChars(path: string, c: char)
    requires c != '/' && c !in path
    ensures c !in DropUsername(path)
  {
    var parts := Split(path, '/');
    var kept := if |parts| > 1 then parts[..1] + parts[2..] else parts;
    forall k | 0 <= k < |kept|
      ensures c !in kept[k]
    {
      var src := if |parts| > 1 && k >= 1 then k + 1 else k;
      assert kept[k] == parts[src];
      if c in parts[src] {
        SplitChars(path, '/', src, c);
      }
    }
    JoinChars(kept, '/', c);
  }

  /** A rule step never introduces a character that neither the path nor
      the placeholder holds (other than the `.pf` and `/` it writes). */
  lemma RewriteChars(key: Variable, path: string, name: string, c: char)
    requires |name| > 0
    requires c !in path && c !in Token(key) && c != '/' && c !in ".pf"
    ensures c !in Rewrite(key, path, name)
  {
    if StartsWith(path, name) {
      var replaced := ReplaceAll(path, name, Token(key));
      if c in replaced {
        ReplaceAllChars(path, name, Token(key), c);
      }
      if key == UserProfile {
        DropUsernameChars(replaced, c);
      } else if key == Prefetch && EndsWith(replaced, ".pf") {
        assert OccursAt(replaced, ".pf", |replaced| - 3);
        var index := Find(replaced, ".pf").value - 9;
        if c in PySlice(replaced, 0, index) {
          PySliceChars(replaced, 0, index, c);
        }
      }
    }
  }

  lemma {:induction false} RewriteNamesChars(path: string, key: Variable, names: seq<Literal>, c: char)
    requires c !in path && c !in Token(key) && c != '/' && c !in ".pf"
    ensures c !in RewriteNames(path, key, names)
    decreases |names|
  {
    if |names| > 0 {
      RewriteChars(key, path, names[0], c);
      RewriteNamesChars(Rewrite(key, path, names[0]), key, names[1..], c);
    }
  }

  lemma {:induction false} RewriteTableChars(path: string, table: seq<Rule>, i: nat, c: char)
    requires TableFreeOf(table, c)
    requires c !in path && c != '/' && c !in ".pf"
    ensures c !in RewriteTable(path, table, i)
    decreases |table| - i
  {
    if i < |table| {
      RewriteNamesChars(path, table[i].key, table[i].names, c);
      RewriteTableChars(RewriteNames(path, table[i].key, table[i].names), table, i + 1, c);
    }
  }

  /** Placeholders are written with `%` and capital letters only. */
  predicate PlaceholderChar(c: char) {
    c == '%' || 'A' <= c <= 'Z'
  }

  lemma TokensWithout(c: char)
    requires !PlaceholderChar(c)
    ensures forall key: Variable :: c !in Token(key)
  {
    forall key: Variable
      ensures c !in Token(key)
    {
      var tok := Token(key);
      forall k | 0 <= k < |tok|
        ensures PlaceholderChar(tok[k])
      {
      }
    }
  }

  /* ---------------------------------------------------------------------- */
  /* Properties of the rule table                                           */
  /* ---------------------------------------------------------------------- */

  /** A path that starts with none of the literals passes the table
      unchanged. */
  lemma {:induction false} RewriteTableIdle(path: string, table: seq<Rule>, i: nat)
    requires NoLiteralPrefix(path, table)
    ensures RewriteTable(path, table, i) == path
    decreases |table| - i
  {
    if i < |table| {
      RewriteNamesIdle(path, table[i].key, table[i].names);
      RewriteTableIdle(path, table, i + 1);
    }
  }

  lemma {:induction false} RewriteNamesIdle(path: string, key: Variable, names: seq<Literal>)
    requires forall j :: 0 <= j < |names| ==> !StartsWith(path, names[j])
    ensures RewriteNames(path, key, names) == path
    decreases |names|
  {
    if |names| > 0 {
      RewriteNamesIdle(path, key, names[1..]);
    }
  }

  /** `normalize` on a path none of whose literals match: only the root
      strip and the slash conversion apply. */
  lemma NormalizeUnmatched(fullpath: string)
    requires NoLiteralPrefix(ToSlashes(StripRoot(fullpath)), VariablePaths())
    ensures Normalize(fullpath) == ToSlashes(StripRoot(fullpath))
  {
    RewriteTableIdle(ToSlashes(StripRoot(fullpath)), VariablePaths(), 0);
  }

  /** A drive-rooted path normalizes as its relative part with slashes. */
  lemma NormalizeDrive(rest: string)
    ensures Normalize("C:\\" + rest) == Normalize(Translate(rest, '\\', '/'))
  {
    StripDrive(rest);
    SlashedIdle(Translate(rest, '\\', '/'));
  }

  lemma StripDrive(rest: string)
    ensures StripRoot("C:\\" + rest) == rest
  {
    var p := "C:\\" + rest;
    assert p[..3] == "C:\\";
    assert p[3..] == rest;
  }

  /** A path without backslashes reaches the table unchanged. */
  lemma SlashedIdle(t: string)
    requires '\\' !in t
    ensures ToSlashes(StripRoot(t)) == t
  {
    if |t| >= 3 {
      MismatchAt(t, "C:\\", 2);
    }
    TranslateAbsent(t, '\\', '/');
  }

  /** Turning backslashes into slashes before the call changes nothing for
      a path without the `C:\\` root: `normalize` does the same itself. */
  lemma NormalizeSlashed(path: string)
    requires !StartsWith(path, "C:\\")
    ensures Normalize(Translate(path, '\\', '/')) == Normalize(path)
  {
    var t := Translate(path, '\\', '/');
    if |t| >= 3 {
      MismatchAt(t, "C:\\", 2);
    }
    TranslateAbsent(t, '\\', '/');
  }

  /* ---------------------------------------------------------------------- */
  /* Consequences of the table order                                        */
  /* ---------------------------------------------------------------------- */

  /** The first two characters of each literal, in table order. */
  function Heads(key: Variable): seq<(char, char)> {
    match key
    case ProgramFiles => [('P', 'r'), ('P', 'r')]
    case AllUsersProfile => [('D', 'o'), ('P', 'r'), ('U', 's')]
    case UserProfile => [('U', 's'), ('D', 'o')]
    case LocalAppData => [('%', 'U'), ('%', 'U')]
    case AppData => [('%', 'U'), ('%', 'U')]
    case StartMenu => [('%', 'A'), ('%', 'A'), ('%', 'A'), ('%', 'U'), ('%', 'U')]
    case WinDir => [('W', 'i'), ('W', 'I')]
    case SystemRoot => [('%', 'W'), ('%', 'W')]
    case Prefetch => [('%', 'W'), ('%', 'W')]
  }

  /** `heads` lists the first two characters of each of `names`. */
  predicate HeadsAgree(names: seq<Literal>, heads: seq<(char, char)>) {
    |names| == |heads| &&
    forall j :: 0 <= j < |names| ==> |names[j]| >= 2 && names[j][0] == heads[j].0 && names[j][1] == heads[j].1
  }

  /** `Heads` is right about every key: one small proof per key. */
  lemma HeadsOfLiterals(key: Variable)
    ensures HeadsAgree(Literals(key), Heads(key))
  {
    match key
    case ProgramFiles => HeadsOfProgramFiles();
    case AllUsersProfile => HeadsOfAllUsersProfile();
    case UserProfile => HeadsOfUserProfile();
    case LocalAppData => HeadsOfLocalAppData();
    case AppData => HeadsOfAppData();
    case StartMenu => HeadsOfStartMenu();
    case WinDir => HeadsOfWinDir();
    case SystemRoot => HeadsOfSystemRoot();
    case Prefetch => HeadsOfPrefetch();
  }

  lemma HeadsOfProgramFiles()
    ensures HeadsAgree(Literals(ProgramFiles), Heads(ProgramFiles))
  {
  }

  lemma HeadsOfAllUsersProfile()
    ensures HeadsAgree(Literals(AllUsersProfile), Heads(AllUsersProfile))
  {
  }

  lemma HeadsOfUserProfile()
    ensures HeadsAgree(Literals(UserProfile), Heads(UserProfile))
  {
  }

  lemma HeadsOfLocalAppData()
    ensures HeadsAgree(Literals(LocalAppData), Heads(LocalAppData))
  {
  }

  lemma HeadsOfAppData()
    ensures HeadsAgree(Literals(AppData), Heads(AppData))
  {
  }

  lemma HeadsOfStartMenu()
    ensures HeadsAgree(Literals(StartMenu), Heads(StartMenu))
  {
  }

  lemma HeadsOfWinDir()
    ensures HeadsAgree(Literals(WinDir), Heads(WinDir))
  {
  }

  lemma HeadsOfSystemRoot()
    ensures HeadsAgree(Literals(SystemRoot), Heads(SystemRoot))
  {
  }

  lemma HeadsOfPrefetch()
    ensures HeadsAgree(Literals(Prefetch), Heads(Prefetch))
  {
  }

  /** A path whose first two characters are none of `heads` starts with
      none of the literals those heads belong to. */
  lemma MissByHeads(path: string, names: seq<Literal>, heads: seq<(char, char)>)
    requires |path| >= 2 && HeadsAgree(names, heads) && (path[0], path[1]) !in heads
    ensures forall j :: 0 <= j < |names| ==> !StartsWith(path, names[j])
  {
    forall j | 0 <= j < |names|
      ensures !StartsWith(path, names[j])
    {
      assert heads[j] in heads;
      if path[0] != names[j][0] {
        MismatchAt(path, names[j], 0);
      } else {
        MismatchAt(path, names[j], 1);
      }
    }
  }

  /** A rule whose literals all begin differently from `path` leaves it
      alone. */
  lemma RewriteNamesSkip(path: string, key: Variable)
    requires |path| >= 2 && (path[0], path[1]) !in Heads(key)
    ensures RewriteNames(path, key, Literals(key)) == path
  {
    HeadsOfLiterals(key);
    MissByHeads(path, Literals(key), Heads(key));
    RewriteNamesIdle(path, key, Literals(key));
  }

  /** Every entry of the table carries its key's literals. */
  lemma TableEntries(i: nat)
    requires i < |VariablePaths()|
    ensures VariablePaths()[i].names == Literals(VariablePaths()[i].key)
  {
  }

  /** Rule `i` leaves alone a path whose first two characters begin none
      of its literals. */
  lemma SkipRule(path: string, i: nat)
    requires i < |VariablePaths()| && |path| >= 2
    requires (path[0], path[1]) !in Heads(VariablePaths()[i].key)
    ensures RewriteTable(path, VariablePaths(), i) == RewriteTable(path, VariablePaths(), i + 1)
  {
    TableEntries(i);
    RewriteNamesSkip(path, VariablePaths()[i].key);
  }

  /** No literal of the rules `i` up to (not including) `j` begins with
      `c0 c1`. */
  predicate HeadsFree(c0: char, c1: char, i: nat, j: nat)
    requires j <= |VariablePaths()|
    decreases j - i
  {
    i >= j || ((c0, c1) !in Heads(VariablePaths()[i].key) && HeadsFree(c0, c1, i + 1, j))
  }

  /** Rules `i` up to `j` leave alone a path that begins with `c0 c1` when
      none of their literals begins that way. */
  lemma {:induction false} IdleBetween(path: string, c0: char, c1: char, i: nat, j: nat)
    requires j <= |VariablePaths()|
    requires |path| >= 2 && path[0] == c0 && path[1] == c1 && HeadsFree(c0, c1, i, j)
    ensures i <= j ==> RewriteTable(path, VariablePaths(), i) == RewriteTable(path, VariablePaths(), j)
    decreases j - i
  {
    if i < j {
      SkipRule(path, i);
      IdleBetween(path, c0, c1, i + 1, j);
    }
  }

  /** One rule step of the table, with the rule's literals spelled out. */
  lemma RuleAt(path: string, i: nat)
    requires i < |VariablePaths()|
    ensures RewriteTable(path, VariablePaths(), i)
         == RewriteTable(RewriteNames(path, VariablePaths()[i].key, Literals(VariablePaths()[i].key)), VariablePaths(), i + 1)
  {
    TableEntries(i);
  }

  lemma HeadsFreeProgramFiles()
    ensures HeadsFree('%', 'P', 1, 9)
  {
  }

  /** Once the path begins with `%PROGRAMFILES%`, no rule after the first
      can fire. */
  lemma IdleAfterProgramFiles(tail: string)
    ensures RewriteTable("%PROGRAMFILES% (x86)/" + tail, VariablePaths(), 1) == "%PROGRAMFILES% (x86)/" + tail
  {
    var p := "%PROGRAMFILES% (x86)/" + tail;
    assert p[0] == '%' && p[1] == 'P';
    HeadsFreeProgramFiles();
    IdleBetween(p, '%', 'P', 1, 9);
  }

  /** A relative path that begins with a backslash-free literal reaches the
      table with that literal intact. */
  lemma LeadingLiteral(lit: string, rest: string)
    requires |lit| > 0 && lit[0] != 'C' && '\\' !in lit
    ensures ToSlashes(StripRoot(lit + rest)) == lit + ToSlashes(rest)
  {
    MismatchAt(lit + rest, "C:\\", 0);
    TranslateConcat(lit, rest, '\\', '/');
    TranslateAbsent(lit, '\\', '/');
  }

  /** A rule with two literals tries the first one, then the second. */
  lemma RewriteNamesTwo(path: string, key: Variable, names: seq<Literal>)
    requires |names| == 2
    ensures RewriteNames(path, key, names) == Rewrite(key, Rewrite(key, path, names[0]), names[1])
  {
    var r1 := Rewrite(key, path, names[0]);
    var r2 := Rewrite(key, r1, names[1]);
    assert names[1..][0] == names[1];
    assert RewriteNames(r2, key, names[1..][1..]) == r2;
    assert RewriteNames(r1, key, names[1..]) == r2;
  }

  lemma ProgramFilesFirstLiteral(y: string)
    ensures Rewrite(ProgramFiles, "Program Files" + (" (x86)/" + y), "Program Files")
         == "%PROGRAMFILES%" + (" (x86)/" + ReplaceAll(y, "Program Files", "%PROGRAMFILES%"))
  {
    ReplaceAllPrefix("Program Files", " (x86)/" + y, "%PROGRAMFILES%");
    ReplaceAllSkipPrefix(" (x86)/", y, "Program Files", "%PROGRAMFILES%");
  }

  lemma ProgramFilesStep(y: string)
    ensures RewriteNames("Program Files (x86)/" + y, ProgramFiles, Literals(ProgramFiles))
         == "%PROGRAMFILES% (x86)/" + ReplaceAll(y, "Program Files", "%PROGRAMFILES%")
  {
    var tail := ReplaceAll(y, "Program Files", "%PROGRAMFILES%");
    assert "Program Files (x86)/" + y == "Program Files" + (" (x86)/" + y);
    assert "%PROGRAMFILES% (x86)/" + tail == "%PROGRAMFILES%" + (" (x86)/" + tail);
    RewriteNamesTwo("Program Files (x86)/" + y, ProgramFiles, Literals(ProgramFiles));
    ProgramFilesFirstLiteral(y);
    MismatchAt("%PROGRAMFILES% (x86)/" + tail, "Program Files (x86)", 0);
  }

  /** `Program Files (x86)/X` keeps its ` (x86)` suffix: the shorter literal
      `Program Files` is tried first, and once the path begins with
      `%PROGRAMFILES%` no later literal can match. */
  lemma ProgramFilesX86(rest: string)
    ensures Normalize("Program Files (x86)/" + rest)
         == "%PROGRAMFILES% (x86)/" + ReplaceAll(ToSlashes(rest), "Program Files", "%PROGRAMFILES%")
  {
    var y := ToSlashes(rest);
    var tail := ReplaceAll(y, "Program Files", "%PROGRAMFILES%");
    var start := "Program Files (x86)/" + y;
    ProgramFilesLeading(rest);
    RuleAt(start, 0);
    ProgramFilesStep(y);
    IdleAfterProgramFiles(tail);
  }

  lemma ProgramFilesLeading(rest: string)
    ensures ToSlashes(StripRoot("Program Files (x86)/" + rest)) == "Program Files (x86)/" + ToSlashes(rest)
  {
    var lit := "Program Files (x86)/";
    assert lit[0] != 'C' && '\\' !in lit;
    LeadingLiteral(lit, rest);
  }

  /** A literal at the very start of the path, for a rule with no second
      step: the literal becomes the placeholder and the rest of the path is
      rewritten the same way. */
  lemma RewriteLeading(key: Variable, lit: Literal, rest: string)
    requires key != UserProfile && key != Prefetch
    ensures Rewrite(key, lit + rest, lit) == Token(key) + ReplaceAll(rest, lit, Token(key))
  {
    assert StartsWith(lit + rest, lit);
    ReplaceAllPrefix(lit, rest, Token(key));
  }

  lemma HeadsFreeWindows()
    ensures HeadsFree('W', 'i', 0, 6)
  {
  }

  /** The first six rules leave `Windows/...` alone. */
  lemma IdleBeforeWinDir(rest: string)
    ensures RewriteTable("Windows/" + rest, VariablePaths(), 0) == RewriteTable("Windows/" + rest, VariablePaths(), 6)
  {
    var p := "Windows/" + rest;
    assert p[0] == 'W' && p[1] == 'i';
    HeadsFreeWindows();
    IdleBetween(p, 'W', 'i', 0, 6);
  }

  lemma HeadsFreeSystemRoot()
    ensures HeadsFree('%', 'S', 8, 9)
  {
  }

  /** The last rule leaves `%SYSTEMROOT%/...` alone. */
  lemma IdleAfterSystemRoot(rest: string)
    ensures RewriteTable(Token(SystemRoot) + "/" + rest, VariablePaths(), 8) == Token(SystemRoot) + "/" + rest
  {
    var p := Token(SystemRoot) + "/" + rest;
    assert p[0] == '%' && p[1] == 'S';
    HeadsFreeSystemRoot();
    IdleBetween(p, '%', 'S', 8, 9);
  }

  lemma WinDirStep(y: string)
    ensures RewriteNames("Windows" + "/System32" + "/" + y, WinDir, Literals(WinDir))
         == Token(WinDir) + "/System32" + "/" + ReplaceAll(y, "Windows", Token(WinDir))
  {
    var tail := ReplaceAll(y, "Windows", Token(WinDir));
    assert "Windows" + "/System32" + "/" + y == "Windows" + ("/System32/" + y);
    assert Token(WinDir) + "/System32" + "/" + tail == Token(WinDir) + ("/System32/" + tail);
    RewriteNamesTwo("Windows" + "/System32" + "/" + y, WinDir, Literals(WinDir));
    RewriteLeading(WinDir, "Windows", "/System32/" + y);
    ReplaceAllSkipPrefix("/System32/", y, "Windows", Token(WinDir));
    MismatchAt(Token(WinDir) + ("/System32/" + tail), "WINDOWS", 0);
  }

  lemma SystemRootStep(y: string)
    ensures RewriteNames(Token(WinDir) + "/System32" + "/" + y, SystemRoot, Literals(SystemRoot))
         == Token(SystemRoot) + "/" + ReplaceAll(y, Token(WinDir) + "/System32", Token(SystemRoot))
  {
    var lit := Token(WinDir) + "/System32";
    var tok := Token(SystemRoot);
    var names := Literals(SystemRoot);
    var p := lit + "/" + y;
    SystemRootLiteralsDiffer();
    SlashAfter(lit, y);
    StartsWithDiffer(p, names[1], names[0], 9);
    RewriteNamesTwo(p, SystemRoot, names);
    RewriteLeading(SystemRoot, lit, "/" + y);
    ReplaceAllSkipPrefix("/", y, lit, tok);
    SlashAfter(tok, ReplaceAll(y, lit, tok));
  }

  /** `a + "/" + y` regrouped, and it starts with `a`. */
  lemma SlashAfter(a: string, y: string)
    ensures a + "/" + y == a + ("/" + y) && StartsWith(a + "/" + y, a)
  {
    assert (a + "/" + y)[..|a|] == a;
  }

  /** The two system-root literals part at index 9 (`s` against `S`). */
  lemma SystemRootLiteralsDiffer()
    ensures |Literals(SystemRoot)| == 2 && Literals(SystemRoot)[1] == Token(WinDir) + "/System32"
    ensures |Literals(SystemRoot)[0]| > 9 && |Literals(SystemRoot)[1]| > 9
    ensures Literals(SystemRoot)[0][9] != Literals(SystemRoot)[1][9]
    ensures Literals(SystemRoot)[1][0] == '%' && Literals(SystemRoot)[1][0] !in "/"
  {
  }

  lemma WindowsSystem32Literal(y: string)
    ensures "Windows/System32/" + y == "Windows" + "/System32" + "/" + y
    ensures "Windows/System32/" + y == "Windows/" + ("System32/" + y)
  {
  }

  lemma WindowsSystem32Root()
    ensures |"Windows/System32/"| > 0 && "Windows/System32/"[0] != 'C' && '\\' !in "Windows/System32/"
  {
  }

  /** `Windows/System32/...` reaches the window rule unchanged. */
  lemma WindowsSystem32Entry(rest: string)
    ensures Normalize("Windows/System32/" + rest)
         == RewriteTable("Windows" + "/System32" + "/" + ToSlashes(rest), VariablePaths(), 6)
  {
    var y := ToSlashes(rest);
    WindowsSystem32Root();
    LeadingLiteral("Windows/System32/", rest);
    WindowsSystem32Literal(y);
    IdleBeforeWinDir("System32/" + y);
  }

  /** `Windows/System32/...` ends as `%SYSTEMROOT%/...`: the window rule
      fires first and the system-root rule then sees its output. */
  lemma WindowsSystem32(rest: string)
    ensures Normalize("Windows/System32/" + rest)
         == Token(SystemRoot) + "/"
            + ReplaceAll(ReplaceAll(ToSlashes(rest), "Windows", Token(WinDir)), Token(WinDir) + "/System32", Token(SystemRoot))
  {
    var y := ToSlashes(rest);
    var p0 := "Windows" + "/System32" + "/" + y;
    var y1 := ReplaceAll(y, "Windows", Token(WinDir));
    var p7 := Token(WinDir) + "/System32" + "/" + y1;
    var y2 := ReplaceAll(y1, Token(WinDir) + "/System32", Token(SystemRoot));
    WindowsSystem32Entry(rest);
    RuleAt(p0, 6);
    WinDirStep(y);
    RuleAt(p7, 7);
    SystemRootStep(y1);
    IdleAfterSystemRoot(y2);
  }

  lemma SystemRootSlash()
    ensures Token(SystemRoot) + "/" == "%SYSTEMROOT%/"
  {
  }

  /** `Windows/System32/x` becomes `%SYSTEMROOT%/x` for every tail `x` that
      holds neither `W` nor `%` (so no literal can occur inside it). */
  lemma WindowsSystem32Plain(x: string)
    requires 'W' !in x && '%' !in x
    ensures Normalize("Windows/System32/" + x) == "%SYSTEMROOT%/" + ToSlashes(x)
  {
    var y := ToSlashes(x);
    TranslateKeepsOut(x, '\\', '/', 'W');
    TranslateKeepsOut(x, '\\', '/', '%');
    WindowsSystem32(x);
    ReplaceAllHeadAbsent(y, "Windows", Token(WinDir));
    ReplaceAllHeadAbsent(y, Token(WinDir) + "/System32", Token(SystemRoot));
    SystemRootSlash();
  }

  /* ---------------------------------------------------------------------- */
  /* The prefetch rule cuts the hash                                        */
  /* ---------------------------------------------------------------------- */

  /** When a prefetch literal fires, the rewritten path begins with
      `%PREFETCH%`. */
  lemma PrefetchReplacedStart(path: string, name: Literal)
    requires name in Literals(Prefetch) && StartsWith(path, name)
    ensures StartsWith(ReplaceAll(path, name, Token(Prefetch)), Token(Prefetch))
  {
    var rest := path[|name|..];
    assert path == name + rest;
    ReplaceAllPrefix(name, rest, Token(Prefetch));
  }

  /** `%PREFETCH%` holds no `.`, so in a path that begins with it the first
      `.pf` lies after it and the cut index `index(".pf") - 9` is at least
      1: the cut never counts from the end of the path. */
  lemma PrefetchCutIndex(q: string)
    requires StartsWith(q, Token(Prefetch)) && EndsWith(q, ".pf")
    ensures Find(q, ".pf").Some? && Find(q, ".pf").value - 9 >= 1
  {
    assert OccursAt(q, ".pf", |q| - 3);
    var k := Find(q, ".pf").value;
    TokensWithout('.');
    var tok := Token(Prefetch);
    assert forall j :: 0 <= j < |tok| ==> q[j] == tok[j] && tok[j] != '.';
    assert q[k..k + 3][0] == q[k] == '.';
  }

  /** The prefetch rule as it acts inside `normalize`: whenever one of its
      literals fires on a path that then ends with `.pf`, the cut lands
      after the placeholder. */
  lemma PrefetchCutSafe(path: string, name: Literal)
    requires name in Literals(Prefetch) && StartsWith(path, name)
    requires EndsWith(ReplaceAll(path, name, Token(Prefetch)), ".pf")
    ensures Find(ReplaceAll(path, name, Token(Prefetch)), ".pf").Some?
    ensures Find(ReplaceAll(path, name, Token(Prefetch)), ".pf").value - 9 >= 1
  {
    PrefetchReplacedStart(path, name);
    PrefetchCutIndex(ReplaceAll(path, name, Token(Prefetch)));
  }

  /** The window rule on a path that begins with `Windows`. */
  lemma WinDirLeading(y: string)
    ensures RewriteNames("Windows" + y, WinDir, Literals(WinDir))
         == Token(WinDir) + ReplaceAll(y, "Windows", Token(WinDir))
  {
    RewriteNamesTwo("Windows" + y, WinDir, Literals(WinDir));
    RewriteLeading(WinDir, "Windows", y);
    MismatchAt(Token(WinDir) + ReplaceAll(y, "Windows", Token(WinDir)), "WINDOWS", 0);
  }

  /** No `Windows` inside `/Prefetch/z` when there is none inside `z`. */
  lemma PrefetchTailKeepsWindows(z: string)
    requires !Contains(z, "Windows")
    ensures ReplaceAll("/Prefetch/" + z, "Windows", Token(WinDir)) == "/Prefetch/" + z
  {
    ReplaceAllSkipPrefix("/Prefetch/", z, "Windows", Token(WinDir));
    ReplaceAllAbsent(z, "Windows", Token(WinDir));
  }

  lemma PrefetchWinDir(z: string)
    requires !Contains(z, "Windows")
    ensures RewriteNames("Windows" + "/Prefetch/" + z, WinDir, Literals(WinDir)) == Token(WinDir) + "/Prefetch/" + z
  {
    assert "Windows" + "/Prefetch/" + z == "Windows" + ("/Prefetch/" + z);
    WinDirLeading("/Prefetch/" + z);
    PrefetchTailKeepsWindows(z);
    assert Token(WinDir) + ("/Prefetch/" + z) == Token(WinDir) + "/Prefetch/" + z;
  }

  /** `%WINDIR%/Prefetch` is not `%WINDIR%/system32` nor `%WINDIR%/System32`. */
  lemma PrefetchSkipSystemRoot(z: string)
    ensures RewriteNames(Token(WinDir) + "/Prefetch/" + z, SystemRoot, Literals(SystemRoot)) == Token(WinDir) + "/Prefetch/" + z
  {
    var p := Token(WinDir) + "/Prefetch/" + z;
    RewriteNamesTwo(p, SystemRoot, Literals(SystemRoot));
    MismatchAt(p, Literals(SystemRoot)[0], 9);
    MismatchAt(p, Literals(SystemRoot)[1], 9);
  }

  /** The second prefetch literal, `%WINDIR%/Prefetch`, spelled out. */
  lemma PrefetchLiteralText()
    ensures Token(WinDir) + "/Prefetch" == "%WINDIR%/Prefetch"
  {
  }

  /** Replacing the second prefetch literal at the head of
      `%WINDIR%/Prefetch/z`, when `z` holds no further copy of it. */
  lemma PrefetchReplaceAll(z: string)
    requires !Contains(z, "%WINDIR%/Prefetch")
    ensures ReplaceAll(Token(WinDir) + "/Prefetch" + ("/" + z), Token(WinDir) + "/Prefetch", Token(Prefetch))
         == Token(Prefetch) + "/" + z
  {
    var lit := Token(WinDir) + "/Prefetch";
    var tok := Token(Prefetch);
    PrefetchLiteralText();
    ReplaceAllPrefix(lit, "/" + z, tok);
    SlashTailKept(z, lit, tok);
  }

  /** A tail `/z` holds a literal that begins with `%` only where `z` does. */
  lemma SlashTailKept(z: string, lit: string, tok: string)
    requires !Contains(z, lit) && |lit| > 0 && lit[0] == '%'
    ensures ReplaceAll("/" + z, lit, tok) == "/" + z
  {
    ReplaceAllSkipPrefix("/", z, lit, tok);
    ReplaceAllAbsent(z, lit, tok);
  }

  /** A path that begins with `%WINDIR%/Prefetch` misses the first prefetch
      literal, so only the second one acts. */
  lemma PrefetchSecondOnly(p: string)
    requires StartsWith(p, Token(WinDir) + "/Prefetch")
    ensures RewriteNames(p, Prefetch, Literals(Prefetch)) == Rewrite(Prefetch, p, Token(WinDir) + "/Prefetch")
  {
    var names := Literals(Prefetch);
    PrefetchLiteralsDiffer();
    StartsWithDiffer(p, names[1], names[0], 9);
    RewriteNamesTwo(p, Prefetch, names);
  }

  /** The two prefetch literals part at index 9 (`p` against `P`). */
  lemma PrefetchLiteralsDiffer()
    ensures |Literals(Prefetch)| == 2 && Literals(Prefetch)[1] == Token(WinDir) + "/Prefetch"
    ensures |Literals(Prefetch)[0]| > 9 && |Literals(Prefetch)[1]| > 9
    ensures Literals(Prefetch)[0][9] != Literals(Prefetch)[1][9]
  {
  }

  lemma PrefetchPathSplit(z: string)
    ensures Token(WinDir) + "/Prefetch/" + z == (Token(WinDir) + "/Prefetch") + ("/" + z)
    ensures StartsWith(Token(WinDir) + "/Prefetch/" + z, Token(WinDir) + "/Prefetch")
  {
  }

  lemma PrefetchEndsPf(z: string)
    requires EndsWith(z, ".pf")
    ensures EndsWith(Token(Prefetch) + "/" + z, ".pf")
  {
    var q := Token(Prefetch) + "/" + z;
    assert q[|q| - 3..] == z[|z| - 3..];
  }

  /** The second prefetch literal fires and the cut follows. */
  lemma PrefetchReplace(z: string)
    requires !Contains(z, "%WINDIR%/Prefetch") && EndsWith(z, ".pf")
    ensures EndsWith(Token(Prefetch) + "/" + z, ".pf")
    ensures RewriteNames(Token(WinDir) + "/Prefetch/" + z, Prefetch, Literals(Prefetch))
         == CutPrefetchSuffix(Token(Prefetch) + "/" + z)
  {
    var p := Token(WinDir) + "/Prefetch/" + z;
    PrefetchPathSplit(z);
    PrefetchEndsPf(z);
    PrefetchSecondOnly(p);
    PrefetchReplaceAll(z);
  }

  /** The cut on `%PREFETCH%/z`: everything from nine characters before
      the first `.pf` of `z` goes. When that `.pf` lies at least nine
      characters into `z`, the placeholder survives whole; otherwise the
      cut reaches into it. */
  lemma PrefetchCut(z: string, k: nat)
    requires EndsWith(z, ".pf") && Find(z, ".pf") == Some(k)
    ensures EndsWith(Token(Prefetch) + "/" + z, ".pf")
    ensures CutPrefetchSuffix(Token(Prefetch) + "/" + z) == (Token(Prefetch) + "/" + z)[..k + 2] + ".pf"
    ensures k >= 9 ==> (Token(Prefetch) + "/" + z)[..k + 2] == Token(Prefetch) + "/" + z[..k - 9]
  {
    var a := Token(Prefetch) + "/";
    TokensWithout('.');
    assert |a| == 11 && '.' !in a;
    CutAfterPrefix(a, z, k);
  }

  /** The cut arithmetic behind an eleven-character, dot-free head such as
      `%PREFETCH%/`: the first `.pf` moves right by eleven, and the slice up
      to nine before it keeps the head and all of `z` but its last nine
      characters before the `.pf`. */
  lemma CutAfterPrefix(a: string, z: string, k: nat)
    requires |a| == 11 && '.' !in a
    requires EndsWith(z, ".pf") && Find(z, ".pf") == Some(k)
    ensures EndsWith(a + z, ".pf")
    ensures Find(a + z, ".pf") == Some(k + 11)
    ensures k + 2 <= |a + z| && PySlice(a + z, 0, k + 2) == (a + z)[..k + 2]
    ensures k >= 9 ==> (a + z)[..k + 2] == a + z[..k - 9]
  {
    var q := a + z;
    assert q[|q| - 3..] == z[|z| - 3..];
    FindShift(a, z, ".pf", k);
    if k >= 9 {
      CutKeepsHead(a, z, k);
    }
  }

  lemma CutKeepsHead(a: string, z: string, k: nat)
    requires |a| == 11 && 9 <= k && k + 2 <= |a + z|
    ensures (a + z)[..k + 2] == a + z[..k - 9]
  {
  }

  lemma PrefetchLiteral(z: string)
    ensures "Windows/Prefetch/" + z == "Windows/" + ("Prefetch/" + z)
    ensures "Windows/Prefetch/" + z == "Windows" + "/Prefetch/" + z
  {
  }

  lemma PrefetchSlash()
    ensures Token(Prefetch) + "/" == "%PREFETCH%/"
  {
  }

  /** `Windows/Prefetch/z` becomes `%PREFETCH%/z` cut nine characters
      before its first `.pf`, with `.pf` put back: for a name whose `.pf`
      lies at least nine characters in, `z` loses exactly those nine
      characters; for a shorter one the cut eats into the placeholder. The
      name holds no backslash and no further copy of the literals the path
      meets, `Windows` and `%WINDIR%/Prefetch`. */
  lemma PrefetchName(z: string, k: nat)
    requires '\\' !in z && !Contains(z, "Windows") && !Contains(z, "%WINDIR%/Prefetch")
    requires EndsWith(z, ".pf") && Find(z, ".pf") == Some(k)
    ensures Normalize("Windows/Prefetch/" + z) == ("%PREFETCH%/" + z)[..k + 2] + ".pf"
    ensures k >= 9 ==> Normalize("Windows/Prefetch/" + z) == "%PREFETCH%/" + z[..k - 9] + ".pf"
  {
    PrefetchEntry(z);
    PrefetchExit(z, k);
  }

  /** `Windows/Prefetch/z` reaches the system-root rule as
      `%WINDIR%/Prefetch/z`. */
  lemma PrefetchEntry(z: string)
    requires '\\' !in z && !Contains(z, "Windows")
    ensures Normalize("Windows/Prefetch/" + z) == RewriteTable(Token(WinDir) + "/Prefetch/" + z, VariablePaths(), 7)
  {
    var p0 := "Windows/Prefetch/" + z;
    var p6 := Token(WinDir) + "/Prefetch/" + z;
    LeadingLiteral("Windows/Prefetch/", z);
    TranslateAbsent(z, '\\', '/');
    PrefetchLiteral(z);
    IdleBeforeWinDir("Prefetch/" + z);
    RuleAt(p0, 6);
    PrefetchWinDir(z);
  }

  /** From the system-root rule on, `%WINDIR%/Prefetch/z` loses the hash. */
  lemma PrefetchExit(z: string, k: nat)
    requires !Contains(z, "%WINDIR%/Prefetch") && EndsWith(z, ".pf") && Find(z, ".pf") == Some(k)
    ensures RewriteTable(Token(WinDir) + "/Prefetch/" + z, VariablePaths(), 7) == ("%PREFETCH%/" + z)[..k + 2] + ".pf"
    ensures k >= 9 ==> ("%PREFETCH%/" + z)[..k + 2] == "%PREFETCH%/" + z[..k - 9]
  {
    var p6 := Token(WinDir) + "/Prefetch/" + z;
    RuleAt(p6, 7);
    PrefetchSkipSystemRoot(z);
    RuleAt(p6, 8);
    PrefetchReplace(z);
    PrefetchCut(z, k);
    PrefetchSlash();
  }

  /** The stem `n-h` of a prefetch name, with its shape spelled out. */
  lemma PrefetchStem(n: string, h: string)
    requires |h| == 8 && '.' !in h
    ensures |n + "-" + h| == |n| + 9 && (n + "-" + h)[|n|] == '-'
    ensures (n + "-" + h)[..|n|] == n
    ensures forall j :: |n| < j < |n| + 9 ==> (n + "-" + h)[j] != '.'
  {
    var m := n + "-" + h;
    assert m == n + ("-" + h);
    assert m[..|n|] == n;
    assert m[|n|] == ("-" + h)[0] == '-';
    assert forall j :: |n| < j < |n| + 9 ==> m[j] == h[j - |n| - 1];
  }

  /** No `.pf` starts inside the stem `m` of `m.pf` when the stem's name
      part `m[..p]` holds none, `m[p]` is `-` and the rest of the stem has
      no `.`. */
  lemma NoEarlyPf(m: string, p: nat)
    requires p < |m| && m[p] == '-' && !Contains(m[..p], ".pf")
    requires forall j :: p < j < |m| ==> m[j] != '.'
    ensures forall j :: 0 <= j < |m| ==> !OccursAt(m + ".pf", ".pf", j)
  {
    var z := m + ".pf";
    forall j | 0 <= j < |m|
      ensures !OccursAt(z, ".pf", j)
    {
      if j + 3 <= p {
        assert m == m[..p] + m[p..];
        assert z == m[..p] + (m[p..] + ".pf");
        OccursInPrefix(m[..p], m[p..] + ".pf", ".pf", j);
      } else if j < p {
        assert z[p] == '-';
        if j + 1 == p { MissAt(z, ".pf", j, 1); } else { MissAt(z, ".pf", j, 2); }
      } else {
        assert z[j] == m[j];
        MissAt(z, ".pf", j, 0);
      }
    }
  }

  /** In `n-h.pf` with an eight-character hash `h` free of `.`, the first
      `.pf` is the final one whenever `n` holds none. */
  lemma PrefetchFirstDot(n: string, h: string)
    requires |h| == 8 && '.' !in h && !Contains(n, ".pf")
    ensures EndsWith(n + "-" + h + ".pf", ".pf")
    ensures Find(n + "-" + h + ".pf", ".pf") == Some(|n| + 9)
    ensures (n + "-" + h + ".pf")[..|n|] == n
  {
    var m := n + "-" + h;
    PrefetchStem(n, h);
    NoEarlyPf(m, |n|);
    PfSuffix(m, |n|);
    FindUnique(m + ".pf", ".pf", |m|);
  }

  /** `m.pf` ends with `.pf`, holds it at `|m|`, and begins as `m` does. */
  lemma PfSuffix(m: string, k: nat)
    requires k <= |m|
    ensures EndsWith(m + ".pf", ".pf") && OccursAt(m + ".pf", ".pf", |m|)
    ensures (m + ".pf")[..k] == m[..k]
  {
    var z := m + ".pf";
    assert z[|m|..] == ".pf";
    assert z[|z| - 3..] == ".pf";
  }

  /** Two prefetch names that differ only in their eight-character hash
      normalize equal: `Windows/Prefetch/APP.EXE-1A2B3C4D.pf` and
      `Windows/Prefetch/APP.EXE-FFEEDDCC.pf` both become
      `%PREFETCH%/APP.EXE.pf`. */
  lemma PrefetchErased(n: string, h1: string, h2: string)
    requires PrefetchStemName(n)
    requires PrefetchHash(h1)
    requires PrefetchHash(h2)
    ensures Normalize("Windows/Prefetch/" + (n + "-" + h1 + ".pf")) == "%PREFETCH%/" + n + ".pf"
    ensures Normalize("Windows/Prefetch/" + (n + "-" + h1 + ".pf"))
         == Normalize("Windows/Prefetch/" + (n + "-" + h2 + ".pf"))
  {
    PrefetchHashed(n, h1);
    PrefetchHashed(n, h2);
  }

  /** One prefetch file name `n-h.pf` with an eight-character hash `h`. */
  lemma PrefetchHashed(n: string, h: string)
    requires PrefetchStemName(n)
    requires PrefetchHash(h)
    ensures Normalize("Windows/Prefetch/" + (n + "-" + h + ".pf")) == "%PREFETCH%/" + n + ".pf"
  {
    var z := n + "-" + h + ".pf";
    PrefetchFileChars(n, h);
    PrefetchFirstDot(n, h);
    PrefetchName(z, |n| + 9);
    assert z[..|n| + 9 - 9] == n;
  }

  /** The name part `n` of a prefetch file `n-h.pf`: no backslash, no
      `.pf`, and no copy of the literals `Windows` and `%WINDIR%/Prefetch`
      that the path passes through. */
  predicate PrefetchStemName(n: string) {
    '\\' !in n && !Contains(n, ".pf") && !Contains(n, "Windows") && !Contains(n, "%WINDIR%/Prefetch")
  }

  /** The hash part `h` of a prefetch file `n-h.pf`: eight characters,
      none of them a backslash, `.`, or the first character of a literal
      the path passes through (`W`, `%`). Upper-case hexadecimal qualifies. */
  predicate PrefetchHash(h: string) {
    |h| == 8 && '\\' !in h && 'W' !in h && '%' !in h && '.' !in h
  }

  lemma PrefetchFileChars(n: string, h: string)
    requires PrefetchStemName(n) && PrefetchHash(h)
    ensures var z := n + "-" + h + ".pf"; '\\' !in z && !Contains(z, "Windows") && !Contains(z, "%WINDIR%/Prefetch")
  {
    var z := n + "-" + h + ".pf";
    forall i | 0 <= i < |z|
      ensures z[i] != '\\'
    {
      if i < |n| { assert z[i] == n[i]; }
      else if i == |n| { assert z[i] == '-'; }
      else if i < |n| + 1 + |h| { assert z[i] == h[i - |n| - 1]; }
      else { assert z[i] == ".pf"[i - |n| - 1 - |h|]; }
    }
    StemKeepsOut(n, h, "Windows");
    StemKeepsOut(n, h, "%WINDIR%/Prefetch");
  }

  /** A pattern without `-` whose first character is neither in the hash
      nor in `.pf` occurs in `n-h.pf` only where it occurs in `n`. */
  lemma StemKeepsOut(n: string, h: string, pat: string)
    requires |pat| > 0 && '-' !in pat && pat[0] !in h && pat[0] !in ".pf" && !Contains(n, pat)
    ensures !Contains(n + "-" + h + ".pf", pat)
  {
    var tail := "-" + h + ".pf";
    var z := n + tail;
    assert n + "-" + h + ".pf" == z;
    forall j: nat | j < |z|
      ensures !OccursAt(z, pat, j)
    {
      StemMiss(n, h, pat, j);
    }
  }

  lemma StemMiss(n: string, h: string, pat: string, j: nat)
    requires |pat| > 0 && '-' !in pat && pat[0] !in h && pat[0] !in ".pf" && !Contains(n, pat)
    ensures !OccursAt(n + ("-" + h + ".pf"), pat, j)
  {
    var tail := "-" + h + ".pf";
    var z := n + tail;
    if j + |pat| <= |n| {
      OccursInPrefix(n, tail, pat, j);
    } else if j <= |n| {
      if j + |pat| <= |z| {
        assert z[|n|] == '-';
        assert pat[|n| - j] in pat;
        MissAt(z, pat, j, |n| - j);
      }
    } else if j < |z| {
      var i := j - |n| - 1;
      if i < |h| {
        assert z[j] == h[i];
      } else {
        assert z[j] == ".pf"[i - |h|];
      }
      MissAt(z, pat, j, 0);
    }
  }

  /* ---------------------------------------------------------------------- */
  /* The user-profile rule erases the user name                             */
  /* ---------------------------------------------------------------------- */

  /** A rule with three literals tries them in order. */
  lemma RewriteNamesThree(path: string, key: Variable, names: seq<Literal>)
    requires |names| == 3
    ensures RewriteNames(path, key, names)
         == Rewrite(key, Rewrite(key, Rewrite(key, path, names[0]), names[1]), names[2])
  {
    RewriteNamesTwo(Rewrite(key, path, names[0]), key, names[1..]);
  }

  /** A literal that runs into a slash-free segment `w` can only match when
      the segment itself begins with `w`. */
  lemma SegmentPrefix(pre: string, u: string, rest: string, w: string)
    requires '/' !in u && '/' !in w
    requires StartsWith(pre + u + "/" + rest, pre + w)
    ensures StartsWith(u, w)
  {
    var s := pre + u + "/" + rest;
    assert s[|pre| + |u|] == '/';
    assert forall i :: 0 <= i < |w| ==> w[i] != '/';
    if |w| <= |u| {
      assert u[..|w|] == s[|pre|..|pre| + |w|] == w;
    }
  }

  /** Dropping segment 1 of `a/u/r`, when neither `a` nor `u` holds a
      slash, leaves `a/r`. */
  lemma DropUsernameShape(a: string, u: string, r: string)
    requires '/' !in a && '/' !in u
    ensures DropUsername(a + "/" + u + "/" + r) == a + "/" + r
  {
    var parts := Split(a + "/" + u + "/" + r, '/');
    assert parts == [a, u] + Split(r, '/') by {
      SplitConcat(a + "/" + u, r, '/');
      SplitConcat(a, u, '/');
      SplitNoSep(a, '/');
      SplitNoSep(u, '/');
    }
    assert parts[..1] + parts[2..] == [a] + Split(r, '/');
    JoinCons(a, Split(r, '/'), '/');
    JoinSplit(r, '/');
  }

  /** Replace-all over `lit/u/r` when `lit` holds no slash: the leading
      literal, the segment and the tail are rewritten separately. */
  lemma ReplaceProfile(lit: Literal, u: string, r: string, tok: string)
    requires '/' !in lit
    ensures ReplaceAll(lit + "/" + u + "/" + r, lit, tok)
         == tok + "/" + ReplaceAll(u, lit, tok) + "/" + ReplaceAll(r, lit, tok)
  {
    ReplaceAllAround(lit + "/" + u, '/', r, lit, tok);
    ReplaceAllAround(lit, '/', u, lit, tok);
    ReplaceAllPrefix(lit, [], tok);
    assert lit + [] == lit;
  }

  /** `Users/u/r` or `Documents and Settings/u/r`: replace-all turns the
      leading literal into `%USERPROFILE%`, and the second step drops the
      user-name segment (whatever replace-all made of it). */
  lemma ProfileRewrite(lit: Literal, u: string, r: string)
    requires '/' !in lit && '/' !in u
    ensures Rewrite(UserProfile, lit + "/" + u + "/" + r, lit)
         == Token(UserProfile) + "/" + ReplaceAll(r, lit, Token(UserProfile))
  {
    UserProfileNoSlash();
    ProfileRewriteWith(lit, u, r, Token(UserProfile));
  }

  lemma UserProfileNoSlash()
    ensures '/' !in Token(UserProfile)
  {
    TokensWithout('/');
  }

  /** The two steps of the user-profile rule with any slash-free
      placeholder `tok`. */
  lemma ProfileRewriteWith(lit: Literal, u: string, r: string, tok: string)
    requires '/' !in lit && '/' !in u && '/' !in tok
    ensures StartsWith(lit + "/" + u + "/" + r, lit)
    ensures DropUsername(ReplaceAll(lit + "/" + u + "/" + r, lit, tok)) == tok + "/" + ReplaceAll(r, lit, tok)
  {
    var path := lit + "/" + u + "/" + r;
    assert path == lit + ("/" + u + "/" + r);
    var u' := ReplaceAll(u, lit, tok);
    ReplaceProfile(lit, u, r, tok);
    ReplaceKeepsOut(u, lit, tok, '/');
    DropUsernameShape(tok, u', ReplaceAll(r, lit, tok));
  }

  lemma HeadsFreeUsers()
    ensures HeadsFree('U', 's', 0, 1)
  {
  }

  lemma HeadsFreeDocuments()
    ensures HeadsFree('D', 'o', 0, 1)
  {
  }

  /** The all-users rule leaves `Users/u/...` alone unless `u` begins with
      `Public`. */
  lemma UsersSkipAllUsers(u: string, y: string)
    requires '/' !in u && !StartsWith(u, "Public")
    ensures RewriteNames("Users/" + u + "/" + y, AllUsersProfile, Literals(AllUsersProfile)) == "Users/" + u + "/" + y
  {
    var p := "Users/" + u + "/" + y;
    var n := Literals(AllUsersProfile);
    RewriteNamesThree(p, AllUsersProfile, n);
    MismatchAt(p, n[0], 0);
    MismatchAt(p, n[1], 0);
    assert n[2] == "Users/" + "Public";
    if StartsWith(p, n[2]) {
      SegmentPrefix("Users/", u, y, "Public");
    }
  }

  /** The user-profile rule on `Users/u/...`. */
  lemma UsersRewrite(u: string, y: string)
    requires '/' !in u
    ensures RewriteNames("Users/" + u + "/" + y, UserProfile, Literals(UserProfile))
         == Token(UserProfile) + "/" + ReplaceAll(y, "Users", Token(UserProfile))
  {
    var p := "Users/" + u + "/" + y;
    var n := Literals(UserProfile);
    var q := Token(UserProfile) + "/" + ReplaceAll(y, "Users", Token(UserProfile));
    assert p == "Users" + "/" + u + "/" + y;
    RewriteNamesTwo(p, UserProfile, n);
    ProfileRewrite("Users", u, y);
    MismatchAt(q, n[1], 0);
  }

  /** `Users/u/r` reaches the rules after the user-profile rule as
      `%USERPROFILE%/r'`, where `r'` does not depend on `u`. */
  lemma UsersProfile(u: string, r: string)
    requires '/' !in u && '\\' !in u && !StartsWith(u, "Public")
    ensures Normalize("Users/" + u + "/" + r)
         == RewriteTable(Token(UserProfile) + "/" + ReplaceAll(ToSlashes(r), "Users", Token(UserProfile)), VariablePaths(), 3)
  {
    var y := ToSlashes(r);
    var p0 := "Users/" + u + "/" + y;
    ProfileRootUsers();
    ProfileLeading("Users/", u, r);
    UsersHead(u, y);
    RuleAt(p0, 1);
    UsersSkipAllUsers(u, y);
    RuleAt(p0, 2);
    UsersRewrite(u, y);
  }

  lemma ProfileRootUsers()
    ensures |"Users/"| > 0 && "Users/"[0] != 'C' && '\\' !in "Users/"
  {
  }

  /** The program-files rule leaves `Users/...` alone. */
  lemma UsersHead(u: string, y: string)
    ensures RewriteTable("Users/" + u + "/" + y, VariablePaths(), 0) == RewriteTable("Users/" + u + "/" + y, VariablePaths(), 1)
  {
    var p0 := "Users/" + u + "/" + y;
    assert p0[0] == 'U' && p0[1] == 's';
    HeadsFreeUsers();
    IdleBetween(p0, 'U', 's', 0, 1);
  }

  /** A profile path `root u/r` whose root and user name hold no backslash
      reaches the table with only its tail translated. */
  lemma ProfileLeading(root: string, u: string, r: string)
    requires |root| > 0 && root[0] != 'C' && '\\' !in root && '\\' !in u
    ensures ToSlashes(StripRoot(root + u + "/" + r)) == root + u + "/" + ToSlashes(r)
  {
    var lit := root + u + "/";
    forall i | 0 <= i < |lit|
      ensures lit[i] != '\\'
    {
      if i < |root| {
        assert lit[i] == root[i];
      } else if i < |root| + |u| {
        assert lit[i] == u[i - |root|];
      }
    }
    assert lit[0] == root[0];
    LeadingLiteral(lit, r);
  }

  /** Username erasure: two users' copies of the same path under `Users`
      normalize identically (the public profile is the all-users rule's). */
  lemma UsersErased(u1: string, u2: string, r: string)
    requires '/' !in u1 && '\\' !in u1 && !StartsWith(u1, "Public")
    requires '/' !in u2 && '\\' !in u2 && !StartsWith(u2, "Public")
    ensures Normalize("Users/" + u1 + "/" + r) == Normalize("Users/" + u2 + "/" + r)
  {
    UsersProfile(u1, r);
    UsersProfile(u2, r);
  }

  /** The all-users rule leaves `Documents and Settings/u/...` alone unless
      `u` begins with `All Users`. */
  lemma DocumentsSkipAllUsers(u: string, y: string)
    requires '/' !in u && !StartsWith(u, "All Users")
    ensures RewriteNames("Documents and Settings/" + u + "/" + y, AllUsersProfile, Literals(AllUsersProfile))
         == "Documents and Settings/" + u + "/" + y
  {
    var p := "Documents and Settings/" + u + "/" + y;
    var n := Literals(AllUsersProfile);
    RewriteNamesThree(p, AllUsersProfile, n);
    assert n[0] == "Documents and Settings/" + "All Users";
    if StartsWith(p, n[0]) {
      SegmentPrefix("Documents and Settings/", u, y, "All Users");
    }
    MismatchAt(p, n[1], 0);
    MismatchAt(p, n[2], 0);
  }

  /** The user-profile rule on `Documents and Settings/u/...`. */
  lemma DocumentsRewrite(u: string, y: string)
    requires '/' !in u
    ensures RewriteNames("Documents and Settings/" + u + "/" + y, UserProfile, Literals(UserProfile))
         == Token(UserProfile) + "/" + ReplaceAll(y, "Documents and Settings", Token(UserProfile))
  {
    var p := "Documents and Settings/" + u + "/" + y;
    var n := Literals(UserProfile);
    assert p == "Documents and Settings" + "/" + u + "/" + y;
    RewriteNamesTwo(p, UserProfile, n);
    MismatchAt(p, n[0], 0);
    ProfileRewrite("Documents and Settings", u, y);
  }

  /** `Documents and Settings/u/r` reaches the rules after the user-profile
      rule as `%USERPROFILE%/r'`, where `r'` does not depend on `u`. */
  lemma DocumentsProfile(u: string, r: string)
    requires '/' !in u && '\\' !in u && !StartsWith(u, "All Users")
    ensures Normalize("Documents and Settings/" + u + "/" + r)
         == RewriteTable(Token(UserProfile) + "/" + ReplaceAll(ToSlashes(r), "Documents and Settings", Token(UserProfile)),
                         VariablePaths(), 3)
  {
    var y := ToSlashes(r);
    var p0 := "Documents and Settings/" + u + "/" + y;
    ProfileRootDocuments();
    ProfileLeading("Documents and Settings/", u, r);
    DocumentsHead(u, y);
    RuleAt(p0, 1);
    DocumentsSkipAllUsers(u, y);
    RuleAt(p0, 2);
    DocumentsRewrite(u, y);
  }

  lemma ProfileRootDocuments()
    ensures |"Documents and Settings/"| > 0 && "Documents and Settings/"[0] != 'C' && '\\' !in "Documents and Settings/"
  {
  }

  /** The program-files rule leaves `Documents and Settings/...` alone. */
  lemma DocumentsHead(u: string, y: string)
    ensures RewriteTable("Documents and Settings/" + u + "/" + y, VariablePaths(), 0)
         == RewriteTable("Documents and Settings/" + u + "/" + y, VariablePaths(), 1)
  {
    var p0 := "Documents and Settings/" + u + "/" + y;
    assert p0[0] == 'D' && p0[1] == 'o';
    HeadsFreeDocuments();
    IdleBetween(p0, 'D', 'o', 0, 1);
  }

  /** Username erasure for the pre-Vista profile root. */
  lemma DocumentsErased(u1: string, u2: string, r: string)
    requires '/' !in u1 && '\\' !in u1 && !StartsWith(u1, "All Users")
    requires '/' !in u2 && '\\' !in u2 && !StartsWith(u2, "All Users")
    ensures Normalize("Documents and Settings/" + u1 + "/" + r) == Normalize("Documents and Settings/" + u2 + "/" + r)
  {
    DocumentsProfile(u1, r);
    DocumentsProfile(u2, r);
  }
}

=== FILE: intersection.dfy ===
/** Intersecting application profiles: the records of the first profile
    enter two accumulators, files and cells, each with a count of one; every
    later profile's records are matched against the accumulators, each
    matching entry gaining one and an unmatched record joining with a count
    of one. The entries whose count reaches the number of profiles are the
    artifacts every run of the application produced.
 */
module Intersection {
  import opened Wrappers
  import opened Objects
  import Apxml
  import Equivalence

  /** An accumulated record and the number of records matched to it. */
  datatype Entry<T> = Entry(obj: T, count: nat)

  /** The profiles processed so far and the two accumulators. */
  datatype State = State(order: seq<Apxml.ApxmlObject>,
                         files: seq<Entry<FileObject>>,
                         cells: seq<Entry<CellObject>>)

  /** `after` keeps every entry of `before`, with the same record and a
      count no lower, and may add entries at the end. */
  predicate Grows<T(==)>(before: seq<Entry<T>>, after: seq<Entry<T>>) {
    |before| <= |after|
    && forall i :: 0 <= i < |before| ==> after[i].obj == before[i].obj && after[i].count >= before[i].count
  }

  lemma GrowsTrans<T>(a: seq<Entry<T>>, b: seq<Entry<T>>, c: seq<Entry<T>>)
    requires Grows(a, b) && Grows(b, c)
    ensures Grows(a, c)
  {
  }

  /** Every entry has been counted at least once. */
  predicate Counted<T(==)>(entries: seq<Entry<T>>) {
    forall i :: 0 <= i < |entries| ==> entries[i].count >= 1
  }

  /* ---------------------------------------------------------------------- */
  /* One record against an accumulator                                      */
  /* ---------------------------------------------------------------------- */

  /** The inner loop of `next_pass`: it runs over every entry, without
      stopping at the first match, adds one to each entry the record
      matches, and notes whether any did. */
  function Bump<T(==)>(entries: seq<Entry<T>>, x: T, same: (T, T) -> bool): (r: (seq<Entry<T>>, bool))
    ensures |r.0| == |entries|
    ensures r.1 <==> exists i :: 0 <= i < |entries| && same(entries[i].obj, x)
    ensures forall i :: 0 <= i < |entries| ==>
              r.0[i].obj == entries[i].obj
              && r.0[i].count == entries[i].count + (if same(entries[i].obj, x) then 1 else 0)
    decreases |entries|
  {
    if |entries| == 0 then ([], false)
    else
      var init, e := entries[..|entries| - 1], entries[|entries| - 1];
      var (prev, matched) := Bump(init, x, same);
      if same(e.obj, x) then (prev + [e.(count := e.count + 1)], true)
      else (prev + [e], matched)
  }

  /** One record of a later profile: the matched entries gain one, and an
      unmatched record joins the accumulator with a count of one. */
  function Meet<T(==)>(entries: seq<Entry<T>>, x: T, same: (T, T) -> bool): (r: seq<Entry<T>>)
    ensures Grows(entries, r)
    ensures |r| == |entries| + 1 <==> forall i :: 0 <= i < |entries| ==> !same(entries[i].obj, x)
    ensures |r| == |entries| + 1 ==> r[|entries|] == Entry(x, 1)
    ensures |r| <= |entries| + 1
    ensures Counted(entries) ==> Counted(r)
  {
    var (bumped, matched) := Bump(entries, x, same);
    if matched then bumped else bumped + [Entry(x, 1)]
  }

  /** How many of the records `xs` the record `o` matches. */
  function Matches<T>(o: T, xs: seq<T>, same: (T, T) -> bool): (n: nat)
    ensures n <= |xs|
    decreases |xs|
  {
    if |xs| == 0 then 0
    else Matches(o, xs[..|xs| - 1], same) + (if same(o, xs[|xs| - 1]) then 1 else 0)
  }

  /** Two equivalent records met in the same pass, neither known before,
      give one entry counted twice: the second matches the entry the first
      just created. */
  lemma SamePassMatch<T>(entries: seq<Entry<T>>, x: T, y: T, same: (T, T) -> bool)
    requires forall i :: 0 <= i < |entries| ==> !same(entries[i].obj, x) && !same(entries[i].obj, y)
    requires same(x, y)
    ensures |Meet(Meet(entries, x, same), y, same)| == |entries| + 1
    ensures Meet(Meet(entries, x, same), y, same)[|entries|] == Entry(x, 2)
  {
    var once := Meet(entries, x, same);
    assert |once| == |entries| + 1;
    var (bumped, matched) := Bump(once, y, same);
    assert same(once[|entries|].obj, y);
  }

  /* ---------------------------------------------------------------------- */
  /* first_pass                                                             */
  /* ---------------------------------------------------------------------- */

  /** Each record with a count of one. */
  function Fresh<T(==)>(xs: seq<T>): (r: seq<Entry<T>>)
    ensures |r| == |xs|
    ensures forall i :: 0 <= i < |xs| ==> r[i] == Entry(xs[i], 1)
  {
    seq(|xs|, i requires 0 <= i < |xs| => Entry(xs[i], 1))
  }

  /** The loop of `first_pass`: each record enters its accumulator with a
      count of one. */
  function Enter(st: State, items: seq<Artifact>): (r: State)
    ensures r.order == st.order
    decreases |items|
  {
    if |items| == 0 then st
    else
      var prev := Enter(st, items[..|items| - 1]);
      match items[|items| - 1]
      case File(f) => prev.(files := prev.files + [Entry(f, 1)])
      case Cell(c) => prev.(cells := prev.cells + [Entry(c, 1)])
  }

  /** The loop of `first_pass` appends the files of the records, in order,
      and their cells, in order, each counted once. */
  lemma {:induction false} EnterAll(st: State, items: seq<Artifact>)
    ensures Enter(st, items).files == st.files + Fresh(Apxml.FilesOf(items))
    ensures Enter(st, items).cells == st.cells + Fresh(Apxml.CellsOf(items))
    decreases |items|
  {
    if |items| > 0 {
      var init := items[..|items| - 1];
      EnterAll(st, init);
      var fs, cs := Apxml.FilesOf(init), Apxml.CellsOf(init);
      match items[|items| - 1]
      case File(f) =>
        assert Fresh(fs + [f]) == Fresh(fs) + [Entry(f, 1)];
        assert Apxml.CellsOf(items) == cs + [];
      case Cell(c) =>
        assert Fresh(cs + [c]) == Fresh(cs) + [Entry(c, 1)];
        assert Apxml.FilesOf(items) == fs + [];
    }
  }

  /** `Intersection.first_pass`: the first profile is noted in the order,
      and its files, then its cells, enter the accumulators counted once.
      Without any profile the indexing raises. */
  function FirstPass(profiles: seq<Apxml.ApxmlObject>, st: State): (r: Result<State>)
    ensures r.Failure? <==> |profiles| == 0
    ensures r.Failure? ==> r.error == IndexError
    ensures r.Success? ==> r.value.order == st.order + [profiles[0]]
    ensures r.Success? ==> r.value.files == st.files + Fresh(profiles[0].files)
    ensures r.Success? ==> r.value.cells == st.cells + Fresh(profiles[0].cells)
  {
    if |profiles| == 0 then Failure(IndexError)
    else
      var p := profiles[0];
      Apxml.ItemsSplit(p);
      EnterAll(st.(order := st.order + [p]), Apxml.Items(p));
      Success(Enter(st.(order := st.order + [p]), Apxml.Items(p)))
  }

  /* ---------------------------------------------------------------------- */
  /* next_pass                                                              */
  /* ---------------------------------------------------------------------- */

  /** The loop of `next_pass` over a profile's records, a left fold of
      `Meet`. Entries are never removed, their records never change, their
      counts never fall, and the order of profiles is left alone. */
  function Pass(st: State, items: seq<Artifact>): (r: State)
    ensures r.order == st.order
    ensures Grows(st.files, r.files) && Grows(st.cells, r.cells)
    ensures Counted(st.files) ==> Counted(r.files)
    ensures Counted(st.cells) ==> Counted(r.cells)
    decreases |items|
  {
    if |items| == 0 then st
    else
      var prev := Pass(st, items[..|items| - 1]);
      match items[|items| - 1]
      case File(f) =>
        var files := Meet(prev.files, f, Equivalence.CompareFiles);
        GrowsTrans(st.files, prev.files, files);
        prev.(files := files)
      case Cell(c) =>
        var cells := Meet(prev.cells, c, Equivalence.CompareCells);
        GrowsTrans(st.cells, prev.cells, cells);
        prev.(cells := cells)
  }

  /** Over a pass, an entry that was there before gains exactly one for
      every file (or cell) of the profile it matches. */
  lemma {:induction false} PassCounts(st: State, items: seq<Artifact>)
    ensures forall i :: 0 <= i < |st.files| ==>
              Pass(st, items).files[i].count
              == st.files[i].count + Matches(st.files[i].obj, Apxml.FilesOf(items), Equivalence.CompareFiles)
    ensures forall i :: 0 <= i < |st.cells| ==>
              Pass(st, items).cells[i].count
              == st.cells[i].count + Matches(st.cells[i].obj, Apxml.CellsOf(items), Equivalence.CompareCells)
    decreases |items|
  {
    if |items| > 0 {
      var init := items[..|items| - 1];
      PassCounts(st, init);
      var fs, cs := Apxml.FilesOf(init), Apxml.CellsOf(init);
      var prev := Pass(st, init);
      match items[|items| - 1]
      case File(f) =>
        assert Apxml.FilesOf(items) == fs + [f];
        assert Apxml.CellsOf(items) == cs by { assert cs + [] == cs; }
        CountStep(st.files, prev.files, f, fs, Equivalence.CompareFiles);
      case Cell(c) =>
        assert Apxml.CellsOf(items) == cs + [c];
        assert Apxml.FilesOf(items) == fs by { assert fs + [] == fs; }
        CountStep(st.cells, prev.cells, c, cs, Equivalence.CompareCells);
    }
  }

  /** Meeting one more record `x` adds one to the count of every earlier
      entry that matches it, which keeps counts equal to match tallies. */
  lemma CountStep<T>(before: seq<Entry<T>>, prev: seq<Entry<T>>, x: T, xs: seq<T>, same: (T, T) -> bool)
    requires Grows(before, prev)
    requires forall i :: 0 <= i < |before| ==> prev[i].count == before[i].count + Matches(before[i].obj, xs, same)
    ensures forall i :: 0 <= i < |before| ==>
              Meet(prev, x, same)[i].count == before[i].count + Matches(before[i].obj, xs + [x], same)
  {
    var (bumped, _) := Bump(prev, x, same);
    forall i | 0 <= i < |before|
      ensures Meet(prev, x, same)[i].count == before[i].count + Matches(before[i].obj, xs + [x], same)
    {
      MatchesSnoc(before[i].obj, xs, x, same);
      assert Meet(prev, x, same)[i] == bumped[i];
    }
  }

  lemma MatchesSnoc<T>(o: T, xs: seq<T>, x: T, same: (T, T) -> bool)
    ensures Matches(o, xs + [x], same) == Matches(o, xs, same) + (if same(o, x) then 1 else 0)
  {
    assert (xs + [x])[..|xs|] == xs;
  }

  /** `Intersection.next_pass(count)`: profile `count` is noted in the
      order and its records are met against the accumulators. A position
      past the end raises. */
  function NextPass(profiles: seq<Apxml.ApxmlObject>, count: nat, st: State): (r: Result<State>)
    ensures r.Failure? <==> count >= |profiles|
    ensures r.Failure? ==> r.error == IndexError
    ensures r.Success? ==> r.value.order == st.order + [profiles[count]]
    ensures r.Success? ==> Grows(st.files, r.value.files) && Grows(st.cells, r.value.cells)
  {
    if count >= |profiles| then Failure(IndexError)
    else Success(Pass(st.(order := st.order + [profiles[count]]), Apxml.Items(profiles[count])))
  }

  /** A profile met a second time, as the stacked order can arrange, counts
      its own records again: every file is matched by itself, so no file
      already in the accumulator is added twice. */
  lemma KnownRecordCounted(entries: seq<Entry<FileObject>>, i: nat)
    requires i < |entries|
    ensures |Meet(entries, entries[i].obj, Equivalence.CompareFiles)| == |entries|
    ensures Meet(entries, entries[i].obj, Equivalence.CompareFiles)[i].count == entries[i].count + 1
  {
    Equivalence.CompareFilesReflexive(entries[i].obj);
  }

  /* ---------------------------------------------------------------------- */
  /* stats and apxml_output                                                 */
  /* ---------------------------------------------------------------------- */

  /** The records of the entries counted exactly `n` times, in order. */
  function Selected<T(==)>(entries: seq<Entry<T>>, n: nat): (r: seq<T>)
    ensures |r| <= |entries|
    decreases |entries|
  {
    if |entries| == 0 then []
    else
      var e := entries[|entries| - 1];
      Selected(entries[..|entries| - 1], n) + (if e.count == n then [e.obj] else [])
  }

  /** A record is selected exactly when some entry of count `n` holds it. */
  lemma {:induction false} SelectedMembers<T>(entries: seq<Entry<T>>, n: nat, x: T)
    ensures x in Selected(entries, n) <==> exists i :: 0 <= i < |entries| && entries[i] == Entry(x, n)
    decreases |entries|
  {
    if |entries| > 0 {
      var init := entries[..|entries| - 1];
      SelectedMembers(init, n, x);
      assert forall i :: 0 <= i < |init| ==> init[i] == entries[i];
    }
  }

  /** Selection keeps the order of the entries. */
  lemma {:induction false} SelectedConcat<T>(a: seq<Entry<T>>, b: seq<Entry<T>>, n: nat)
    ensures Selected(a + b, n) == Selected(a, n) + Selected(b, n)
    decreases |b|
  {
    if |b| == 0 {
      assert a + b == a;
    } else {
      var init := b[..|b| - 1];
      assert (a + b)[..|a + b| - 1] == a + init;
      SelectedConcat(a, init, n);
    }
  }

  /** How many of the files have the given type. */
  function FilesOfType(fs: seq<FileObject>, t: int): (n: nat)
    ensures n <= |fs|
    decreases |fs|
  {
    if |fs| == 0 then 0
    else FilesOfType(fs[..|fs| - 1], t) + (if fs[|fs| - 1].meta_type == Some(t) then 1 else 0)
  }

  /** How many of the cells have the given name type. */
  function CellsOfType(cs: seq<CellObject>, t: string): (n: nat)
    ensures n <= |cs|
    decreases |cs|
  {
    if |cs| == 0 then 0
    else CellsOfType(cs[..|cs| - 1], t) + (if cs[|cs| - 1].name_type == Some(t) then 1 else 0)
  }

  /** A file has one type, so files and directories together are at most
      all the files. */
  lemma {:induction false} FileTypesDisjoint(fs: seq<FileObject>)
    ensures FilesOfType(fs, 1) + FilesOfType(fs, 2) <= |fs|
    decreases |fs|
  {
    if |fs| > 0 {
      FileTypesDisjoint(fs[..|fs| - 1]);
    }
  }

  lemma {:induction false} CellTypesDisjoint(cs: seq<CellObject>)
    ensures CellsOfType(cs, "k") + CellsOfType(cs, "v") <= |cs|
    decreases |cs|
  {
    if |cs| > 0 {
      CellTypesDisjoint(cs[..|cs| - 1]);
    }
  }

  /** The counts `stats` prints for one pass. */
  datatype PassStats = PassStats(count: nat, all: nat, dirs: nat, files: nat, keys: nat, values: nat)

  /** `Intersection.stats(count)`: the entries counted `count + 1` times,
      split by kind. */
  function Stats(st: State, count: nat): (r: PassStats)
    ensures r.count == count + 1
    ensures r.all == |Selected(st.files, count + 1)| + |Selected(st.cells, count + 1)|
    ensures r.dirs + r.files <= |Selected(st.files, count + 1)|
    ensures r.keys + r.values <= |Selected(st.cells, count + 1)|
  {
    var fis := Selected(st.files, count + 1);
    var cos := Selected(st.cells, count + 1);
    FileTypesDisjoint(fis);
    CellTypesDisjoint(cos);
    PassStats(count + 1, |fis| + |cos|, FilesOfType(fis, 2), FilesOfType(fis, 1),
              CellsOfType(cos, "k"), CellsOfType(cos, "v"))
  }

  /** The pure part of `Intersection.apxml_output(count)`: the first
      profile emptied and refilled with the records of the entries counted
      exactly `count` times, files then cells. Without a profile the
      indexing raises. */
  function Output(profiles: seq<Apxml.ApxmlObject>, st: State, count: nat): (r: Result<Apxml.ApxmlObject>)
    ensures r.Failure? <==> |profiles| == 0
    ensures r.Failure? ==> r.error == IndexError
    ensures r.Success? ==> r.value.stats == profiles[0].stats
    ensures r.Success? ==> forall f :: f in r.value.files <==>
              exists i :: 0 <= i < |st.files| && st.files[i] == Entry(f, count)
    ensures r.Success? ==> forall c :: c in r.value.cells <==>
              exists i :: 0 <= i < |st.cells| && st.cells[i] == Entry(c, count)
  {
    if |profiles| == 0 then Failure(IndexError)
    else
      var fs, cs := Selected(st.files, count), Selected(st.cells, count);
      assert forall f :: f in fs <==> exists i :: 0 <= i < |st.files| && st.files[i] == Entry(f, count) by {
        forall f ensures f in fs <==> exists i :: 0 <= i < |st.files| && st.files[i] == Entry(f, count) {
          SelectedMembers(st.files, count, f);
        }
      }
      assert forall c :: c in cs <==> exists i :: 0 <= i < |st.cells| && st.cells[i] == Entry(c, count) by {
        forall c ensures c in cs <==> exists i :: 0 <= i < |st.cells| && st.cells[i] == Entry(c, count) {
          SelectedMembers(st.cells, count, c);
        }
      }
      Success(profiles[0].(files := fs, cells := cs))
  }

  /** The output and the printed statistics of the last pass agree: the
      output holds as many records as `stats` counts in all. */
  lemma OutputMatchesStats(profiles: seq<Apxml.ApxmlObject>, st: State, count: nat)
    requires |profiles| > 0
    ensures |Output(profiles, st, count + 1).value.files| + |Output(profiles, st, count + 1).value.cells|
         == Stats(st, count).all
  {
  }
}

=== FILE: objects.dfy ===
/** The records the application-profile tools work on. They stand in for
    the file and cell objects of the external DFXML/RegXML object library:
    only the fields the modelled code reads or writes are kept, and each is
    a plain value (`None` becomes `Option.None`).
 */
module Objects {
  import opened Wrappers

  /** A file-system entry. The first block of fields comes from the
      profile; the second block is filled in by pre-processing. */
  datatype FileObject = FileObject(
    filename: string,            // raw Windows path, `\`-separated
    meta_type: Option<int>,      // 1 = regular file, 2 = directory
    sha1: Option<string>,
    alloc_inode: Option<bool>,
    alloc_name: Option<bool>,
    annos: set<string>,          // lifecycle delta markers
    app_state: string,           // lifecycle phase the entry was seen in
    basename: Option<string>,
    filename_norm: Option<string>,
    basename_norm: Option<string>,
    orphan_name: Option<string>,
    app_name: Option<string>)

  /** A registry entry (key or value). */
  datatype CellObject = CellObject(
    cellpath: string,            // raw registry path, `\`-separated
    basename: Option<string>,
    name_type: Option<string>,   // "k" = key, "v" = value
    alloc: Option<bool>,
    data_type: Option<string>,
    data: Option<string>,
    annos: set<string>,
    app_state: string,
    cellpath_norm: Option<string>,
    basename_norm: Option<string>)

  /** Either kind of record, as a profile yields them. */
  datatype Artifact = File(file: FileObject) | Cell(cell: CellObject)
}

=== FILE: preprocess.dfy ===
/** The pre-processing pass over an application profile: every file record
    gets its basename, its normalised path and basename, a lower-case hash,
    the application name and, when unallocated, an orphan name; every cell
    record gets its normalised cell path and, when its basename is a
    `C:` path, a normalised basename. Records are collected into a file
    output and a cell output in the order the profile yields them.
 */
module PreProcess {
  import opened Wrappers
  import opened Strings
  import opened Objects
  import FilePathNormalizer
  import CellPathNormalizer
  import Apxml

  /** What the pass takes from outside the modelled code: the profile's
      application name, the object library's allocation test (`True`,
      `False` or `None`), and the target-side cell-path normaliser, which
      is not part of this model. */
  datatype Context = Context(
    appName: Option<string>,
    isAllocated: FileObject -> Option<bool>,
    targetCo: (string, string) -> string)

  const OrphanDir: string := "$OrphanFiles/"

  /* ---------------------------------------------------------------------- */
  /* File records                                                           */
  /* ---------------------------------------------------------------------- */

  /** LiveDiff writes hashes in upper case; they are compared in lower
      case. An absent hash stays absent. */
  function LowerHash(sha1: Option<string>): (r: Option<string>)
    ensures r.Some? <==> sha1.Some?
    ensures r.Some? ==> |r.value| == |sha1.value|
    ensures r.Some? ==> forall i :: 0 <= i < |r.value| ==> !IsUpper(r.value[i])
    ensures r.Some? ==> forall i :: 0 <= i < |r.value| && !IsUpper(sha1.value[i]) ==> r.value[i] == sha1.value[i]
    ensures r.Some? ==> forall i :: 0 <= i < |r.value| && IsUpper(sha1.value[i])
                          ==> r.value[i] as int == sha1.value[i] as int - 'A' as int + 'a' as int
  {
    match sha1
    case None => None
    case Some(h) => Some(Lower(h))
  }

  /** Lowering a hash twice is lowering it once. */
  lemma LowerHashIdempotent(sha1: Option<string>)
    ensures LowerHash(LowerHash(sha1)) == LowerHash(sha1)
  {
    if sha1.Some? {
      LowerIdempotent(sha1.value);
    }
  }

  /** `not obj.is_allocated()`: an allocation test of `False` or `None`. */
  predicate Unallocated(f: FileObject, ctx: Context) {
    ctx.isAllocated(f) != Some(true)
  }

  /** The record as the file branch has filled it in by the time it asks
      whether the file is allocated: basename, normalised name and
      basename, lower-cased hash and application name are already set. */
  function Filled(f: FileObject, ctx: Context): FileObject {
    var norm := FilePathNormalizer.Normalize(f.filename);
    f.(basename := Some(LastSegment(f.filename, '\\')),
       filename_norm := Some(norm),
       basename_norm := Some(LastSegment(norm, '/')),
       sha1 := LowerHash(f.sha1),
       app_name := ctx.appName)
  }

  /** The file branch of `normalise_all`. The allocation test is asked of
      the record as filled in so far, as the branch asks it after those
      assignments. */
  function NormaliseFile(f: FileObject, ctx: Context): (r: FileObject)
    ensures r.basename.Some? && '\\' !in r.basename.value
    ensures r.basename.value == f.filename || EndsWith(f.filename, "\\" + r.basename.value)
    ensures r.filename_norm == Some(FilePathNormalizer.Normalize(f.filename))
    ensures r.basename_norm.Some? && '/' !in r.basename_norm.value && '\\' !in r.basename_norm.value
    ensures r.basename_norm.value == r.filename_norm.value
         || EndsWith(r.filename_norm.value, "/" + r.basename_norm.value)
    ensures r.sha1 == LowerHash(f.sha1)
    ensures r.app_name == ctx.appName
    ensures Unallocated(Filled(f, ctx), ctx) && f.meta_type == Some(1) ==> r.orphan_name == Some(OrphanDir + r.basename.value)
    ensures !(Unallocated(Filled(f, ctx), ctx) && f.meta_type == Some(1)) ==> r.orphan_name == f.orphan_name
    ensures r.filename == f.filename && r.meta_type == f.meta_type
    ensures r.alloc_inode == f.alloc_inode && r.alloc_name == f.alloc_name
    ensures r.annos == f.annos && r.app_state == f.app_state
  {
    var mid := Filled(f, ctx);
    LastSegmentChars(mid.filename_norm.value, '/', '\\');
    mid.(orphan_name := if Unallocated(mid, ctx) && f.meta_type == Some(1)
                        then Some(OrphanDir + mid.basename.value) else f.orphan_name)
  }

  /** Running the file step twice changes nothing more, as long as the
      allocation test does not look at the orphan name the step sets. */
  lemma NormaliseFileIdempotent(f: FileObject, ctx: Context)
    requires ctx.isAllocated(NormaliseFile(f, ctx)) == ctx.isAllocated(Filled(f, ctx))
    ensures NormaliseFile(NormaliseFile(f, ctx), ctx) == NormaliseFile(f, ctx)
  {
    LowerHashIdempotent(f.sha1);
    assert Filled(NormaliseFile(f, ctx), ctx) == NormaliseFile(f, ctx);
  }

  /* ---------------------------------------------------------------------- */
  /* Cell records                                                           */
  /* ---------------------------------------------------------------------- */

  /** Whether a cell's basename is a path on drive `C:`. An absent or empty
      basename is not. */
  predicate DriveBasename(c: CellObject) {
    c.basename.Some? && StartsWith(c.basename.value, "C:")
  }

  /** The cell path after the profile-side and the target-side
      normalisers, the latter given the first segment as root key. */
  function TargetPath(c: CellObject, ctx: Context): string {
    var profiled := CellPathNormalizer.NormalizeProfileCo(c.cellpath);
    ctx.targetCo(profiled, FirstSegment(profiled, CellPathNormalizer.Sep))
  }

  /** A `C:` basename as the file-path normaliser writes it, with its
      forward slashes turned back into backslashes. */
  function BasenameNorm(b: string): (r: string)
    ensures '/' !in r
    ensures r == Translate(FilePathNormalizer.Normalize(b), '/', '\\')
  {
    var n := FilePathNormalizer.Normalize(b);
    ReplaceCharIsTranslate(n, '/', '\\');
    ReplaceAll(n, ['/'], ['\\'])
  }

  /** The cell branch of `normalise_all`. */
  function NormaliseCell(c: CellObject, ctx: Context): (r: CellObject)
    ensures r.basename_norm.Some? <==> DriveBasename(c)
    ensures r.basename_norm.Some? ==> r.basename_norm == Some(BasenameNorm(c.basename.value))
    ensures r.basename_norm.Some? ==> '/' !in r.basename_norm.value
    ensures !DriveBasename(c) ==> r.cellpath_norm == Some(TargetPath(c, ctx))
    ensures DriveBasename(c) ==> r.cellpath_norm == Some(ReplaceAll(TargetPath(c, ctx), c.basename.value, r.basename_norm.value))
    ensures r.cellpath_norm.Some?
    ensures r.cellpath == c.cellpath && r.basename == c.basename && r.name_type == c.name_type
    ensures r.alloc == c.alloc && r.data_type == c.data_type && r.data == c.data
    ensures r.annos == c.annos && r.app_state == c.app_state
  {
    var target := TargetPath(c, ctx);
    if DriveBasename(c) then
      var b := c.basename.value;
      var bn := BasenameNorm(b);
      c.(cellpath_norm := Some(ReplaceAll(target, b, bn)), basename_norm := Some(bn))
    else
      c.(cellpath_norm := Some(target), basename_norm := None)
  }

  /** A cell path that does not mention the basename is left as the
      normalisers gave it, whatever the basename is. */
  lemma CellBasenameAbsent(c: CellObject, ctx: Context)
    requires c.basename.Some? && !Contains(TargetPath(c, ctx), c.basename.value)
    ensures NormaliseCell(c, ctx).cellpath_norm == Some(TargetPath(c, ctx))
  {
    if DriveBasename(c) {
      ReplaceAllAbsent(TargetPath(c, ctx), c.basename.value, BasenameNorm(c.basename.value));
    }
  }

  lemma DriveHead(b: string)
    requires StartsWith(b, "C:")
    ensures |b| >= 2 && b[0] == 'C'
  {
    assert b[..2] == "C:";
    assert b[..2][0] == b[0];
  }

  /** Where the `C:` basename first occurs in the cell path, at `|a|`,
      it is replaced by the normalised basename; the text before it is
      kept and every later occurrence is replaced as well. */
  lemma CellBasenameFirst(c: CellObject, ctx: Context, a: string, d: string)
    requires DriveBasename(c) && TargetPath(c, ctx) == a + c.basename.value + d
    requires Find(a + c.basename.value, c.basename.value) == Some(|a|)
    ensures NormaliseCell(c, ctx).cellpath_norm
         == Some(a + NormaliseCell(c, ctx).basename_norm.value + ReplaceAll(d, c.basename.value, NormaliseCell(c, ctx).basename_norm.value))
  {
    var b := c.basename.value;
    DriveHead(b);
    ReplaceAllFirst(a, b, d, BasenameNorm(b));
  }

  /** The common case: a cell path that ends with its `C:` basename, with
      no earlier occurrence, ends with the normalised basename instead. */
  lemma CellBasenameAtEnd(c: CellObject, ctx: Context, a: string)
    requires DriveBasename(c) && TargetPath(c, ctx) == a + c.basename.value
    requires Find(a + c.basename.value, c.basename.value) == Some(|a|)
    ensures NormaliseCell(c, ctx).cellpath_norm == Some(a + NormaliseCell(c, ctx).basename_norm.value)
  {
    var b := c.basename.value;
    DriveHead(b);
    ReplaceAllFirstAtEnd(a, b, BasenameNorm(b));
  }

  /** The cell step reads only the raw fields, so running it twice changes
      nothing more. */
  lemma NormaliseCellIdempotent(c: CellObject, ctx: Context)
    ensures NormaliseCell(NormaliseCell(c, ctx), ctx) == NormaliseCell(c, ctx)
  {
  }

  /* ---------------------------------------------------------------------- */
  /* The whole pass                                                         */
  /* ---------------------------------------------------------------------- */


  /** The module-level file and cell outputs. */
  datatype Output = Output(files: seq<FileObject>, cells: seq<CellObject>)

  /** The loop of `normalise_all` for any per-record steps: each record of
      `items` goes through the step of its class and is appended to the
      output of its class. */
  function Collect(acc: Output, items: seq<Artifact>,
                   fileStep: FileObject -> FileObject, cellStep: CellObject -> CellObject): (out: Output)
    ensures |out.files| == |acc.files| + |Apxml.FilesOf(items)|
    ensures |out.cells| == |acc.cells| + |Apxml.CellsOf(items)|
    decreases |items|
  {
    if |items| == 0 then acc
    else
      var prev := Collect(acc, items[..|items| - 1], fileStep, cellStep);
      match items[|items| - 1]
      case File(f) => prev.(files := prev.files + [fileStep(f)])
      case Cell(c) => prev.(cells := prev.cells + [cellStep(c)])
  }

  function Map<T>(xs: seq<T>, step: T -> T): (r: seq<T>)
    ensures |r| == |xs|
    ensures forall i :: 0 <= i < |xs| ==> r[i] == step(xs[i])
  {
    seq(|xs|, i requires 0 <= i < |xs| => step(xs[i]))
  }

  lemma MapSnoc<T>(xs: seq<T>, x: T, step: T -> T)
    ensures Map(xs + [x], step) == Map(xs, step) + [step(x)]
  {
    var a, b := Map(xs + [x], step), Map(xs, step) + [step(x)];
    forall i | 0 <= i < |a| ensures a[i] == b[i] {
      if i < |xs| { assert (xs + [x])[i] == xs[i]; }
    }
  }

  /** Whatever the steps, the outputs keep what they held and then hold,
      in order, each file record and each cell record exactly once, gone
      through its step. */
  lemma {:induction false} CollectInOrder(acc: Output, items: seq<Artifact>,
                                          fileStep: FileObject -> FileObject, cellStep: CellObject -> CellObject)
    ensures Collect(acc, items, fileStep, cellStep).files == acc.files + Map(Apxml.FilesOf(items), fileStep)
    ensures Collect(acc, items, fileStep, cellStep).cells == acc.cells + Map(Apxml.CellsOf(items), cellStep)
    decreases |items|
  {
    if |items| == 0 {
      assert Map([], fileStep) == [] && Map([], cellStep) == [];
      assert acc.files + [] == acc.files && acc.cells + [] == acc.cells;
    } else {
      var init := items[..|items| - 1];
      CollectInOrder(acc, init, fileStep, cellStep);
      var fs, cs := Apxml.FilesOf(init), Apxml.CellsOf(init);
      match items[|items| - 1]
      case File(f) =>
        MapSnoc(fs, f, fileStep);
        assert Apxml.CellsOf(items) == cs + [];
        assert cs + [] == cs;
      case Cell(c) =>
        MapSnoc(cs, c, cellStep);
        assert Apxml.FilesOf(items) == fs + [];
        assert fs + [] == fs;
    }
  }

  function FileStep(ctx: Context): FileObject -> FileObject {
    f => NormaliseFile(f, ctx)
  }

  function CellStep(ctx: Context): CellObject -> CellObject {
    c => NormaliseCell(c, ctx)
  }

  /** `normalise_all`: each record of `items` normalised and appended to
      the output of its class. */
  function NormaliseAll(acc: Output, items: seq<Artifact>, ctx: Context): (out: Output)
    ensures |out.files| == |acc.files| + |Apxml.FilesOf(items)|
    ensures |out.cells| == |acc.cells| + |Apxml.CellsOf(items)|
  {
    Collect(acc, items, FileStep(ctx), CellStep(ctx))
  }

  /** Each file record normalised, in order. */
  function NormaliseFiles(fs: seq<FileObject>, ctx: Context): (r: seq<FileObject>)
    ensures |r| == |fs|
    ensures forall i :: 0 <= i < |fs| ==> r[i] == NormaliseFile(fs[i], ctx)
  {
    Map(fs, FileStep(ctx))
  }

  /** Each cell record normalised, in order. */
  function NormaliseCells(cs: seq<CellObject>, ctx: Context): (r: seq<CellObject>)
    ensures |r| == |cs|
    ensures forall i :: 0 <= i < |cs| ==> r[i] == NormaliseCell(cs[i], ctx)
  {
    Map(cs, CellStep(ctx))
  }

  /** The outputs keep what they held and then hold, in order, each file
      record and each cell record of the profile exactly once, normalised. */
  lemma NormaliseAllInOrder(acc: Output, items: seq<Artifact>, ctx: Context)
    ensures NormaliseAll(acc, items, ctx).files == acc.files + NormaliseFiles(Apxml.FilesOf(items), ctx)
    ensures NormaliseAll(acc, items, ctx).cells == acc.cells + NormaliseCells(Apxml.CellsOf(items), ctx)
  {
    CollectInOrder(acc, items, FileStep(ctx), CellStep(ctx));
  }

  /** Over a whole profile, starting from empty outputs, the file output is
      the profile's file records normalised and the cell output its cell
      records normalised, in order. */
  lemma NormaliseProfile(obj: Apxml.ApxmlObject, ctx: Context)
    ensures NormaliseAll(Output([], []), Apxml.Items(obj), ctx)
         == Output(NormaliseFiles(obj.files, ctx), NormaliseCells(obj.cells, ctx))
  {
    Apxml.ItemsSplit(obj);
    NormaliseAllInOrder(Output([], []), Apxml.Items(obj), ctx);
    assert [] + NormaliseFiles(obj.files, ctx) == NormaliseFiles(obj.files, ctx);
    assert [] + NormaliseCells(obj.cells, ctx) == NormaliseCells(obj.cells, ctx);
  }
}

=== FILE: profile_order.dfy ===
/** The order in which profiles are intersected: as given, by total number
    of records ascending or descending, or "stacked", which alternates the
    largest and the smallest profiles, ten of each at most. Python's sort
    is stable, also when reversed, so profiles of equal size keep their
    relative order.
 */
module ProfileOrder {
  import opened Wrappers
  import Apxml

  type Profile = Apxml.ApxmlObject

  /** The size a profile is sorted by: its total record count. */
  function Total(p: Profile): nat {
    p.stats.cALL
  }

  /** The sort key: the total, negated for a descending sort. */
  function Rank(p: Profile, desc: bool): int {
    if desc then -(Total(p) as int) else Total(p)
  }

  predicate Sorted(s: seq<Profile>, desc: bool) {
    forall i, j :: 0 <= i < j < |s| ==> Rank(s[i], desc) <= Rank(s[j], desc)
  }

  /* ---------------------------------------------------------------------- */
  /* A stable sort                                                          */
  /* ---------------------------------------------------------------------- */

  /** Places `x` after every element of the sorted `s` that does not rank
      above it. */
  function Insert(s: seq<Profile>, x: Profile, desc: bool): (r: seq<Profile>)
    requires Sorted(s, desc)
    ensures Sorted(r, desc)
    ensures multiset(r) == multiset(s) + multiset{x} && |r| == |s| + 1
    decreases |s|
  {
    if |s| == 0 then [x]
    else if Rank(s[|s| - 1], desc) <= Rank(x, desc) then s + [x]
    else
      var init, last := s[..|s| - 1], s[|s| - 1];
      SnocLast(s);
      var r0 := Insert(init, x, desc);
      BoundedByLast(s, x, r0, desc);
      SortedSnoc(r0, last, desc);
      r0 + [last]
  }

  /** Everything in `init` with `x` added ranks no higher than the last
      element of the sorted `s`, when `x` ranks below it. */
  lemma BoundedByLast(s: seq<Profile>, x: Profile, r0: seq<Profile>, desc: bool)
    requires Sorted(s, desc) && |s| > 0 && Rank(x, desc) < Rank(s[|s| - 1], desc)
    requires multiset(r0) == multiset(s[..|s| - 1]) + multiset{x}
    ensures forall i :: 0 <= i < |r0| ==> Rank(r0[i], desc) <= Rank(s[|s| - 1], desc)
  {
    forall i | 0 <= i < |r0|
      ensures Rank(r0[i], desc) <= Rank(s[|s| - 1], desc)
    {
      assert r0[i] in multiset(r0);
      if r0[i] != x {
        assert r0[i] in s[..|s| - 1];
      }
    }
  }

  /** An element ranking no lower than every element of a sorted list may
      follow it. */
  lemma SortedSnoc(s: seq<Profile>, y: Profile, desc: bool)
    requires Sorted(s, desc)
    requires forall i :: 0 <= i < |s| ==> Rank(s[i], desc) <= Rank(y, desc)
    ensures Sorted(s + [y], desc)
  {
  }

  /** `list.sort(key=..., reverse=desc)` on the totals. */
  function Sort(xs: seq<Profile>, desc: bool): (r: seq<Profile>)
    ensures Sorted(r, desc)
    ensures multiset(r) == multiset(xs) && |r| == |xs|
    decreases |xs|
  {
    if |xs| == 0 then []
    else
      assert xs == xs[..|xs| - 1] + [xs[|xs| - 1]];
      Insert(Sort(xs[..|xs| - 1], desc), xs[|xs| - 1], desc)
  }

  /** The profiles of total `v`, in order. */
  function KeyFilter(s: seq<Profile>, v: nat): seq<Profile>
    decreases |s|
  {
    if |s| == 0 then []
    else KeyFilter(s[..|s| - 1], v) + (if Total(s[|s| - 1]) == v then [s[|s| - 1]] else [])
  }

  /** The filter holds exactly the profiles of total `v`. */
  lemma {:induction false} KeyFilterMembers(s: seq<Profile>, v: nat, y: Profile)
    ensures y in KeyFilter(s, v) <==> y in s && Total(y) == v
    decreases |s|
  {
    if |s| > 0 {
      KeyFilterMembers(s[..|s| - 1], v, y);
      assert s == s[..|s| - 1] + [s[|s| - 1]];
    }
  }

  lemma KeyFilterSnoc(s: seq<Profile>, y: Profile, v: nat)
    ensures KeyFilter(s + [y], v) == KeyFilter(s, v) + (if Total(y) == v then [y] else [])
  {
    assert (s + [y])[..|s|] == s;
  }

  /** Inserting keeps, for every total, the profiles of that total in the
      order they came. */
  lemma {:induction false} InsertStable(s: seq<Profile>, x: Profile, desc: bool, v: nat)
    requires Sorted(s, desc)
    ensures KeyFilter(Insert(s, x, desc), v) == KeyFilter(s, v) + (if Total(x) == v then [x] else [])
    decreases |s|
  {
    if |s| == 0 {
      KeyFilterSnoc([], x, v);
      assert Insert(s, x, desc) == [] + [x];
    } else if Rank(s[|s| - 1], desc) <= Rank(x, desc) {
      assert Insert(s, x, desc) == s + [x];
      KeyFilterSnoc(s, x, v);
    } else {
      var init, last := s[..|s| - 1], s[|s| - 1];
      InsertPast(s, x, desc);
      InsertStable(init, x, desc, v);
      InsertStablePast(init, last, Insert(init, x, desc), x, v);
    }
  }

  /** When `x` ranks below the last element, it is inserted into the rest
      and the last element stays last. */
  lemma InsertPast(s: seq<Profile>, x: Profile, desc: bool)
    requires Sorted(s, desc) && |s| > 0 && Rank(x, desc) < Rank(s[|s| - 1], desc)
    ensures Sorted(s[..|s| - 1], desc)
    ensures s == s[..|s| - 1] + [s[|s| - 1]]
    ensures Insert(s, x, desc) == Insert(s[..|s| - 1], x, desc) + [s[|s| - 1]]
  {
    SnocLast(s);
  }

  /** The step of `InsertStable` where `x` goes before the last element,
      which has another total. */
  lemma InsertStablePast(init: seq<Profile>, last: Profile, r0: seq<Profile>, x: Profile, v: nat)
    requires Total(last) != Total(x)
    requires KeyFilter(r0, v) == KeyFilter(init, v) + (if Total(x) == v then [x] else [])
    ensures KeyFilter(r0 + [last], v) == KeyFilter(init + [last], v) + (if Total(x) == v then [x] else [])
  {
    KeyFilterSnoc(r0, last, v);
    KeyFilterSnoc(init, last, v);
    var k := KeyFilter(init, v);
    if Total(x) == v {
      AppendNothing(KeyFilter(r0, v));
      AppendNothing(k);
    } else if Total(last) == v {
      AppendNothing(k);
      AppendNothing(k + [last]);
    } else {
      AppendNothing(k);
    }
  }

  lemma AppendNothing<T>(s: seq<T>)
    ensures s + [] == s
  {
  }

  lemma SnocLast<T>(s: seq<T>)
    requires |s| > 0
    ensures s == s[..|s| - 1] + [s[|s| - 1]]
  {
  }

  /** Sorting is stable: for every total, the profiles of that total keep
      their relative order. */
  lemma {:induction false} SortStable(xs: seq<Profile>, desc: bool, v: nat)
    ensures KeyFilter(Sort(xs, desc), v) == KeyFilter(xs, v)
    decreases |xs|
  {
    if |xs| > 0 {
      var init, last := xs[..|xs| - 1], xs[|xs| - 1];
      SnocLast(xs);
      SortStable(init, desc, v);
      InsertStable(Sort(init, desc), last, desc, v);
      KeyFilterSnoc(init, last, v);
    }
  }

  /** Two sorted sequences that agree on the profiles of each total are the
      same: a stable sort has exactly one possible result. */
  lemma {:induction false} SortedUnique(r1: seq<Profile>, r2: seq<Profile>, desc: bool)
    requires Sorted(r1, desc) && Sorted(r2, desc)
    requires forall v :: KeyFilter(r1, v) == KeyFilter(r2, v)
    ensures r1 == r2
    decreases |r1| + |r2|
  {
    if |r1| > 0 || |r2| > 0 {
      BothNonEmpty(r1, r2);
      var a, b := r1[|r1| - 1], r2[|r2| - 1];
      var i1, i2 := r1[..|r1| - 1], r2[..|r2| - 1];
      assert r1 == i1 + [a] && r2 == i2 + [b];
      LastRankEqual(r1, r2, desc);
      assert Total(a) == Total(b);
      forall v
        ensures KeyFilter(i1, v) == KeyFilter(i2, v)
      {
        DropLast(i1, a, i2, b, v);
      }
      DropLast(i1, a, i2, b, Total(a));
      SortedUnique(i1, i2, desc);
    }
  }

  /** Equal filters of `i1 + [a]` and `i2 + [b]`, where `a` and `b` have
      the same total, give equal filters of `i1` and `i2`, and `a == b`. */
  lemma DropLast(i1: seq<Profile>, a: Profile, i2: seq<Profile>, b: Profile, v: nat)
    requires Total(a) == Total(b)
    requires KeyFilter(i1 + [a], v) == KeyFilter(i2 + [b], v)
    ensures KeyFilter(i1, v) == KeyFilter(i2, v)
    ensures Total(a) == v ==> a == b
  {
    KeyFilterSnoc(i1, a, v);
    KeyFilterSnoc(i2, b, v);
    var k1, k2 := KeyFilter(i1, v), KeyFilter(i2, v);
    if Total(a) == v {
      assert (k1 + [a])[..|k1|] == k1 && (k2 + [b])[..|k2|] == k2;
      assert (k1 + [a])[|k1|] == a && (k2 + [b])[|k2|] == b;
    } else {
      assert k1 + [] == k1 && k2 + [] == k2;
    }
  }

  lemma BothNonEmpty(r1: seq<Profile>, r2: seq<Profile>)
    requires forall v :: KeyFilter(r1, v) == KeyFilter(r2, v)
    requires |r1| > 0 || |r2| > 0
    ensures |r1| > 0 && |r2| > 0
  {
    var y := if |r1| > 0 then r1[0] else r2[0];
    KeyFilterMembers(r1, Total(y), y);
    KeyFilterMembers(r2, Total(y), y);
  }

  lemma LastRankEqual(r1: seq<Profile>, r2: seq<Profile>, desc: bool)
    requires Sorted(r1, desc) && Sorted(r2, desc) && |r1| > 0 && |r2| > 0
    requires forall v :: KeyFilter(r1, v) == KeyFilter(r2, v)
    ensures Total(r1[|r1| - 1]) == Total(r2[|r2| - 1])
  {
    var a, b := r1[|r1| - 1], r2[|r2| - 1];
    KeyFilterMembers(r1, Total(a), a);
    KeyFilterMembers(r2, Total(a), a);
    KeyFilterMembers(r1, Total(b), b);
    KeyFilterMembers(r2, Total(b), b);
    SortedLastMax(r2, a, desc);
    SortedLastMax(r1, b, desc);
  }

  /** No element of a sorted list ranks above its last one. */
  lemma SortedLastMax(r: seq<Profile>, y: Profile, desc: bool)
    requires Sorted(r, desc) && y in r
    ensures Rank(y, desc) <= Rank(r[|r| - 1], desc)
  {
    var j :| 0 <= j < |r| && r[j] == y;
    if j < |r| - 1 {
      assert Rank(r[j], desc) <= Rank(r[|r| - 1], desc);
    }
  }

  /** Sorting an already sorted list changes nothing, and sorting one way
      after sorting the other way is sorting that way. */
  lemma SortAfterSort(xs: seq<Profile>, first: bool, desc: bool)
    ensures Sort(Sort(xs, first), desc) == Sort(xs, desc)
  {
    forall v
      ensures KeyFilter(Sort(Sort(xs, first), desc), v) == KeyFilter(Sort(xs, desc), v)
    {
      SortStable(Sort(xs, first), desc, v);
      SortStable(xs, first, v);
      SortStable(xs, desc, v);
    }
    SortedUnique(Sort(Sort(xs, first), desc), Sort(xs, desc), desc);
  }

  /* ---------------------------------------------------------------------- */
  /* sort_profiles                                                          */
  /* ---------------------------------------------------------------------- */

  /** How many profiles of each end the stacked order takes. */
  const StackDepth: nat := 10

  function Min(a: nat, b: nat): nat {
    if a <= b then a else b
  }

  /** `for (h, l) in zip(high, low)`: one from each list in turn, as long as
      both last. */
  function Interleave(high: seq<Profile>, low: seq<Profile>): (r: seq<Profile>)
    ensures |r| == 2 * Min(|high|, |low|)
    ensures forall i :: 0 <= i < Min(|high|, |low|) ==> r[2 * i] == high[i] && r[2 * i + 1] == low[i]
    decreases |high|
  {
    if |high| == 0 || |low| == 0 then []
    else
      var rest := Interleave(high[1..], low[1..]);
      PairShift(high[0], low[0], rest);
      [high[0], low[0]] + rest
  }

  /** Prepending a pair moves every pair of `rest` one pair on. */
  lemma PairShift(h: Profile, l: Profile, rest: seq<Profile>)
    ensures forall i :: 1 <= i && 2 * i + 1 < |rest| + 2 ==>
              ([h, l] + rest)[2 * i] == rest[2 * (i - 1)] && ([h, l] + rest)[2 * i + 1] == rest[2 * (i - 1) + 1]
  {
    forall i | 1 <= i && 2 * i + 1 < |rest| + 2
      ensures ([h, l] + rest)[2 * i] == rest[2 * (i - 1)] && ([h, l] + rest)[2 * i + 1] == rest[2 * (i - 1) + 1]
    {
      PairAt(h, l, rest, i);
    }
  }

  lemma PairAt(h: Profile, l: Profile, rest: seq<Profile>, i: nat)
    requires 1 <= i && 2 * i + 1 < |rest| + 2
    ensures ([h, l] + rest)[2 * i] == rest[2 * i - 2] && ([h, l] + rest)[2 * i + 1] == rest[2 * i - 1]
  {
  }

  /** The "stacked" order: the list is first sorted ascending, then copied,
      and the copies sorted ascending and descending and cut to ten. */
  function Stacked(profiles: seq<Profile>): (r: seq<Profile>)
    ensures |r| == 2 * Min(|profiles|, StackDepth)
    ensures forall i :: 0 <= i < Min(|profiles|, StackDepth) ==>
              r[2 * i] == Sort(profiles, true)[i] && r[2 * i + 1] == Sort(profiles, false)[i]
  {
    var base := Sort(profiles, false);
    var n := Min(|profiles|, StackDepth);
    SortAfterSort(profiles, false, false);
    SortAfterSort(profiles, false, true);
    var low := Sort(base, false)[..n];
    var high := Sort(base, true)[..n];
    Interleave(high, low)
  }

  const Highest: string := "highest"
  const Lowest: string := "lowest"
  const StackedMethod: string := "stacked"

  predicate Recognised(how: Option<string>) {
    how == Some(Highest) || how == Some(Lowest) || how == Some(StackedMethod)
  }

  /** `Intersection.sort_profiles`, sorting by the total record count. Any
      method but the three it knows leaves the order as it was. */
  function SortProfiles(profiles: seq<Profile>, how: Option<string>): (r: seq<Profile>)
    ensures !Recognised(how) ==> r == profiles
    ensures how == Some(Highest) || how == Some(Lowest) ==>
              multiset(r) == multiset(profiles) && Sorted(r, how == Some(Highest))
    ensures how == Some(StackedMethod) ==> |r| == 2 * Min(|profiles|, StackDepth)
  {
    if how == Some(Highest) then Sort(profiles, true)
    else if how == Some(Lowest) then Sort(profiles, false)
    else if how == Some(StackedMethod) then Stacked(profiles)
    else profiles
  }

  /** The highest and lowest orders keep profiles of equal total in the
      order they were given. */
  lemma SortProfilesStable(profiles: seq<Profile>, how: Option<string>, v: nat)
    requires how == Some(Highest) || how == Some(Lowest)
    ensures KeyFilter(SortProfiles(profiles, how), v) == KeyFilter(profiles, v)
  {
    SortStable(profiles, how == Some(Highest), v);
  }

  /** In the stacked order the even positions run through the largest
      profiles, largest first, and the odd ones through the smallest,
      smallest first. */
  lemma StackedEnds(profiles: seq<Profile>, i: nat)
    requires i < Min(|profiles|, StackDepth)
    ensures var r := SortProfiles(profiles, Some(StackedMethod));
            r[2 * i] in profiles && r[2 * i + 1] in profiles
    ensures forall j :: 0 <= j < |profiles| ==>
              Total(profiles[j]) <= Total(SortProfiles(profiles, Some(StackedMethod))[0])
    ensures forall j :: 0 <= j < |profiles| ==>
              Total(SortProfiles(profiles, Some(StackedMethod))[1]) <= Total(profiles[j])
  {
    SortedIn(profiles, true, i);
    SortedIn(profiles, false, i);
    forall j | 0 <= j < |profiles|
      ensures Total(profiles[j]) <= Total(Sort(profiles, true)[0])
      ensures Total(Sort(profiles, false)[0]) <= Total(profiles[j])
    {
      SortedFirstMin(profiles, true, j);
      SortedFirstMin(profiles, false, j);
    }
  }

  /** Every element of a sorted copy comes from the original. */
  lemma SortedIn(xs: seq<Profile>, desc: bool, i: nat)
    requires i < |xs|
    ensures Sort(xs, desc)[i] in xs
  {
    var r := Sort(xs, desc);
    assert r[i] in multiset(r);
  }

  /** No element of the original ranks below the first of its sorted
      copy. */
  lemma SortedFirstMin(xs: seq<Profile>, desc: bool, j: nat)
    requires j < |xs|
    ensures Rank(Sort(xs, desc)[0], desc) <= Rank(xs[j], desc)
  {
    var r := Sort(xs, desc);
    assert xs[j] in multiset(r);
    var k :| 0 <= k < |r| && r[k] == xs[j];
    if k > 0 {
      assert Rank(r[0], desc) <= Rank(r[k], desc);
    }
  }

  /* ---------------------------------------------------------------------- */
  /* sort_profiles as written                                               */
  /* ---------------------------------------------------------------------- */

  /** `sort_profiles` as written sorts by `x.stats.all`, an attribute the
      statistics object does not have. Python computes every key before
      sorting, so any of the three methods raises on a non-empty list, and
      leaves the list as it was. */
  function SortProfilesAsWritten(profiles: seq<Profile>, how: Option<string>): (r: Result<seq<Profile>>)
    ensures r.Failure? <==> Recognised(how) && |profiles| > 0
    ensures r.Failure? ==> r.error == AttributeError
    ensures r.Success? ==> r.value == profiles
  {
    if Recognised(how) && |profiles| > 0 then Failure(AttributeError) else Success(profiles)
  }

  /** Where it does not raise, the code as written agrees with the order
      sorted by the total: it raises exactly when there is something to
      sort. */
  lemma AsWrittenAgrees(profiles: seq<Profile>, how: Option<string>)
    ensures SortProfilesAsWritten(profiles, how).Success? ==>
              SortProfilesAsWritten(profiles, how).value == SortProfiles(profiles, how)
  {
    if Recognised(how) && |profiles| == 0 {
      assert Interleave([], []) == [];
    }
  }

  /** One profile and the method "highest" already raise. */
  lemma AsWrittenRaises(p: Profile)
    ensures SortProfilesAsWritten([p], Some(Highest)) == Failure(AttributeError)
    ensures SortProfiles([p], Some(Highest)) == [p]
  {
    assert Sort([p], true) == Insert([], p, true);
  }
}

=== FILE: strings.dfy ===
/** The handful of Python `str` operations the normalizers and the
    intersection engine are built from, written as total functions on
    `seq<char>`, together with the algebra the proofs need
    (split/join round trips, how replace-all distributes over a separator).
 */
module Strings {
  import opened Wrappers

  /** Python's `s.startswith(prefix)`. */
  predicate StartsWith(s: string, prefix: string) {
    |prefix| <= |s| && s[..|prefix|] == prefix
  }

  /** Python's `s.endswith(suffix)`. */
  predicate EndsWith(s: string, suffix: string) {
    |suffix| <= |s| && s[|s| - |suffix|..] == suffix
  }

  /** A string that starts with `p + q` starts with `p`. */
  lemma StartsWithShorter(s: string, p: string, q: string)
    ensures StartsWith(s, p + q) ==> StartsWith(s, p)
  {
    if StartsWith(s, p + q) {
      assert s[..|p|] == (p + q)[..|p|];
    }
  }

  /** One differing character within both lengths rules a prefix out. */
  lemma MismatchAt(s: string, prefix: string, k: nat)
    requires k < |s| && k < |prefix| && s[k] != prefix[k]
    ensures !StartsWith(s, prefix)
  {
    if |prefix| <= |s| {
      assert s[..|prefix|][k] == s[k];
    }
  }

  /** A string that starts with `p` cannot start with a `q` that differs
      from `p` at some index both share. */
  lemma StartsWithDiffer(s: string, p: string, q: string, k: nat)
    requires StartsWith(s, p) && k < |p| && k < |q| && p[k] != q[k]
    ensures !StartsWith(s, q)
  {
    assert s[..|p|][k] == s[k];
    MismatchAt(s, q, k);
  }

  /** `sub` occurs in `s` starting at index `j`. */
  predicate OccursAt(s: string, sub: string, j: int) {
    0 <= j && j + |sub| <= |s| && s[j..j + |sub|] == sub
  }

  /* ---------------------------------------------------------------------- */
  /* Python slicing                                                         */
  /* ---------------------------------------------------------------------- */

  /** How Python turns a slice bound into an index of a sequence of length
      `n`: negative bounds count from the end, and every bound is clamped
      into `0..n`. */
  function SliceBound(i: int, n: nat): (k: nat)
    ensures k <= n
    ensures 0 <= i <= n ==> k == i
    ensures i < 0 ==> k == if n + i < 0 then 0 else n + i
  {
    if i < 0 then (if n + i < 0 then 0 else n + i)
    else if i > n then n
    else i
  }

  /** Python's `s[i:j]`: never fails, whatever the bounds. */
  function PySlice(s: string, i: int, j: int): (r: string)
    ensures 0 <= i <= j <= |s| ==> r == s[i..j]
    ensures |r| <= |s|
  {
    var a := SliceBound(i, |s|);
    var b := SliceBound(j, |s|);
    if a <= b then s[a..b] else []
  }

  /** Python's `s[i:]`. */
  function PySliceFrom(s: string, i: int): (r: string)
    ensures 0 <= i <= |s| ==> r == s[i..]
    ensures |s| <= i ==> r == []
  {
    PySlice(s, i, |s|)
  }

  /* ---------------------------------------------------------------------- */
  /* Searching                                                              */
  /* ---------------------------------------------------------------------- */

  /** Python's `s.find(sub)`: the first index at which `sub` occurs. */
  function Find(s: string, sub: string): (r: Option<nat>)
    ensures r.Some? ==> OccursAt(s, sub, r.value)
    ensures r.Some? ==> forall j :: 0 <= j < r.value ==> !OccursAt(s, sub, j)
    ensures r.None? ==> forall j :: !OccursAt(s, sub, j)
    decreases |s|
  {
    if StartsWith(s, sub) then
      assert s[0..|sub|] == s[..|sub|];
      Some(0)
    else if |s| == 0 then
      None
    else
      var rest := Find(s[1..], sub);
      assert forall j :: 1 <= j ==> (OccursAt(s, sub, j) <==> OccursAt(s[1..], sub, j - 1)) by {
        forall j | 1 <= j
          ensures OccursAt(s, sub, j) <==> OccursAt(s[1..], sub, j - 1)
        {
          if j + |sub| <= |s| {
            assert s[1..][j - 1..j - 1 + |sub|] == s[j..j + |sub|];
          }
        }
      }
      assert !OccursAt(s, sub, 0);
      match rest
      case None => None
      case Some(i) => Some(i + 1)
  }

  /** Python's `s.rfind(c)` for one character: the last position of `c`,
      or -1 when there is none. */
  function RFindChar(s: string, c: char): (r: int)
    ensures -1 <= r < |s|
    ensures r == -1 <==> c !in s
    ensures r >= 0 ==> s[r] == c && c !in s[r + 1..]
    decreases |s|
  {
    if |s| == 0 then -1
    else if s[|s| - 1] == c then |s| - 1
    else
      assert s[..|s| - 1][RFindChar(s[..|s| - 1], c) + 1..] + [s[|s| - 1]] == s[RFindChar(s[..|s| - 1], c) + 1..];
      RFindChar(s[..|s| - 1], c)
  }

  /** The last `c` is at `k` when `s[k]` is `c` and nothing after it is. */
  lemma RFindCharAt(s: string, c: char, k: nat)
    requires k < |s| && s[k] == c
    requires forall i :: k < i < |s| ==> s[i] != c
    ensures RFindChar(s, c) == k
  {
    var r := RFindChar(s, c);
    assert r >= k ==> r == k;
  }

  /** `Find` reports the one occurrence that has no earlier one. */
  lemma FindUnique(s: string, sub: string, k: nat)
    requires OccursAt(s, sub, k)
    requires forall j :: 0 <= j < k ==> !OccursAt(s, sub, j)
    ensures Find(s, sub) == Some(k)
  {
  }

  /** Behind a prefix that cannot begin an occurrence, the occurrences are
      those of the rest, shifted by the prefix's length. */
  lemma OccursShift(a: string, s: string, sub: string, j: nat)
    requires |sub| > 0 && sub[0] !in a
    ensures OccursAt(a + s, sub, j) <==> (j >= |a| && OccursAt(s, sub, j - |a|))
  {
    var t := a + s;
    if j < |a| {
      if j + |sub| <= |t| {
        assert t[j..j + |sub|][0] == t[j] == a[j];
      }
    } else if j + |sub| <= |t| {
      assert t[j..j + |sub|] == s[j - |a|..j - |a| + |sub|];
    }
  }

  /** Prepending text that cannot begin an occurrence shifts the first
      occurrence by its length. */
  lemma FindShift(a: string, s: string, sub: string, k: nat)
    requires |sub| > 0 && sub[0] !in a && Find(s, sub) == Some(k)
    ensures Find(a + s, sub) == Some(|a| + k)
  {
    OccursShift(a, s, sub, |a| + k);
    MissesShift(a, s, sub, k);
    FindUnique(a + s, sub, |a| + k);
  }

  lemma MissesShift(a: string, s: string, sub: string, k: nat)
    requires |sub| > 0 && sub[0] !in a && Find(s, sub) == Some(k)
    ensures forall j :: 0 <= j < |a| + k ==> !OccursAt(a + s, sub, j)
  {
    forall j | 0 <= j < |a| + k
      ensures !OccursAt(a + s, sub, j)
    {
      MissShift(a, s, sub, k, j);
    }
  }

  lemma MissShift(a: string, s: string, sub: string, k: nat, j: nat)
    requires |sub| > 0 && sub[0] !in a && Find(s, sub) == Some(k) && j < |a| + k
    ensures !OccursAt(a + s, sub, j)
  {
    OccursShift(a, s, sub, j);
    if j >= |a| {
      assert !OccursAt(s, sub, j - |a|);
    }
  }

  /** One character that differs from `sub` rules out an occurrence. */
  lemma MissAt(s: string, sub: string, j: nat, i: nat)
    requires i < |sub| && j + i < |s| && s[j + i] != sub[i]
    ensures !OccursAt(s, sub, j)
  {
    if j + |sub| <= |s| {
      assert s[j..j + |sub|][i] == s[j + i];
    }
  }

  /** An occurrence inside the first part of a path is an occurrence in
      that part. */
  lemma OccursInPrefix(a: string, b: string, sub: string, j: nat)
    requires j + |sub| <= |a| && !Contains(a, sub)
    ensures !OccursAt(a + b, sub, j)
  {
    assert (a + b)[j..j + |sub|] == a[j..j + |sub|];
    assert !OccursAt(a, sub, j);
  }

  /** Python's `sub in s`. */
  predicate Contains(s: string, sub: string) {
    Find(s, sub).Some?
  }

  lemma ContainsIff(s: string, sub: string)
    ensures Contains(s, sub) <==> exists j :: OccursAt(s, sub, j)
  {
  }

  /* ---------------------------------------------------------------------- */
  /* Splitting and joining on one separator character                       */
  /* ---------------------------------------------------------------------- */

  /** Python's `s.split(sep)` for a one-character separator: the pieces
      between separators, so there is always at least one piece. */
  function Split(s: string, sep: char): (parts: seq<string>)
    ensures |parts| >= 1
    decreases |s|
  {
    if |s| == 0 then [""]
    else if s[0] == sep then [""] + Split(s[1..], sep)
    else
      var rest := Split(s[1..], sep);
      [[s[0]] + rest[0]] + rest[1..]
  }

  /** No piece of a split contains the separator. */
  lemma {:induction false} SplitPiecesSepFree(s: string, sep: char)
    ensures forall k :: 0 <= k < |Split(s, sep)| ==> sep !in Split(s, sep)[k]
    decreases |s|
  {
    if |s| > 0 {
      SplitPiecesSepFree(s[1..], sep);
    }
  }

  /** Python's `sep.join(parts)`. */
  function Join(parts: seq<string>, sep: char): string
  {
    if |parts| == 0 then ""
    else if |parts| == 1 then parts[0]
    else parts[0] + [sep] + Join(parts[1..], sep)
  }

  function Last(parts: seq<string>): string
    requires |parts| >= 1
  {
    parts[|parts| - 1]
  }

  /** The last piece of `s.split(sep)`: what follows the last separator. */
  function LastSegment(s: string, sep: char): (r: string)
    ensures sep !in r
    ensures r == s || EndsWith(s, [sep] + r)
    ensures sep !in s ==> r == s
  {
    SplitPiecesSepFree(s, sep);
    JoinSplit(s, sep);
    var parts := Split(s, sep);
    if |parts| == 1 then
      Last(parts)
    else
      JoinEndsWithLast(parts, sep);
      Last(parts)
  }

  /** The first piece of a split is what precedes the first separator. */
  lemma {:induction false} SplitFirst(s: string, sep: char)
    ensures Split(s, sep)[0] == s || StartsWith(s, Split(s, sep)[0] + [sep])
    decreases |s|
  {
    if |s| > 0 && s[0] != sep {
      SplitFirst(s[1..], sep);
      var f := Split(s[1..], sep)[0];
      assert s == [s[0]] + s[1..];
      if f != s[1..] {
        assert ([s[0]] + f + [sep]) == [s[0]] + (f + [sep]);
      }
    }
  }

  /** The first piece of `s.split(sep)`: what comes before the first
      separator, or all of `s` when it has none. */
  function FirstSegment(s: string, sep: char): (r: string)
    ensures sep !in r
    ensures r == s || StartsWith(s, r + [sep])
  {
    SplitPiecesSepFree(s, sep);
    SplitFirst(s, sep);
    Split(s, sep)[0]
  }

  /** The last piece holds only characters of the whole. */
  lemma LastSegmentChars(s: string, sep: char, c: char)
    requires c !in s
    ensures c !in LastSegment(s, sep)
  {
    var r := LastSegment(s, sep);
    if r != s {
      assert forall i :: 0 <= i < |r| ==> r[i] == s[|s| - |r| + i];
    }
  }

  lemma EndsWithTrans(s: string, t: string, u: string)
    requires EndsWith(s, t) && EndsWith(t, u)
    ensures EndsWith(s, u)
  {
    assert s[|s| - |u|..] == s[|s| - |t|..][|t| - |u|..];
  }

  /** A join of several pieces ends with a separator and the last piece. */
  lemma {:induction false} JoinEndsWithLast(parts: seq<string>, sep: char)
    requires |parts| > 1
    ensures EndsWith(Join(parts, sep), [sep] + Last(parts))
    decreases |parts|
  {
    var tail := Join(parts[1..], sep);
    assert Join(parts, sep) == parts[0] + [sep] + tail;
    if |parts| == 2 {
      assert tail == Last(parts);
    } else {
      JoinEndsWithLast(parts[1..], sep);
      assert Last(parts[1..]) == Last(parts);
      EndsWithTrans(parts[0] + [sep] + tail, tail, [sep] + Last(parts));
    }
  }

  /** `Split` of a separator-free string is that string alone. */
  lemma {:induction false} SplitNoSep(s: string, sep: char)
    requires sep !in s
    ensures Split(s, sep) == [s]
    decreases |s|
  {
    if |s| > 0 {
      SplitNoSep(s[1..], sep);
      assert s == [s[0]] + s[1..];
    }
  }

  /** Splitting distributes over a separator placed between two strings. */
  lemma {:induction false} SplitConcat(a: string, b: string, sep: char)
    ensures Split(a + [sep] + b, sep) == Split(a, sep) + Split(b, sep)
    decreases |a|
  {
    var s := a + [sep] + b;
    if |a| == 0 {
      assert s == [sep] + b;
      assert s[1..] == b;
    } else {
      assert s[0] == a[0];
      assert s[1..] == a[1..] + [sep] + b;
      SplitConcat(a[1..], b, sep);
    }
  }

  /** `Join` puts the separator between a first piece and the rest. */
  lemma JoinCons(x: string, parts: seq<string>, sep: char)
    requires |parts| >= 1
    ensures Join([x] + parts, sep) == x + [sep] + Join(parts, sep)
  {
    assert ([x] + parts)[1..] == parts;
  }

  /** Prefixing the first piece with a character prefixes the join. */
  lemma JoinPrefixFirst(c: char, parts: seq<string>, sep: char)
    requires |parts| >= 1
    ensures Join([[c] + parts[0]] + parts[1..], sep) == [c] + Join(parts, sep)
  {
    var q := [[c] + parts[0]] + parts[1..];
    if |parts| > 1 {
      assert q[1..] == parts[1..];
    }
  }

  /** Joining the pieces of a split gives the string back. */
  lemma {:induction false} JoinSplit(s: string, sep: char)
    ensures Join(Split(s, sep), sep) == s
    decreases |s|
  {
    if |s| > 0 {
      JoinSplit(s[1..], sep);
      if s[0] == sep {
        JoinCons("", Split(s[1..], sep), sep);
      } else {
        JoinPrefixFirst(s[0], Split(s[1..], sep), sep);
      }
      assert s == [s[0]] + s[1..];
    }
  }

  /** Splitting a join of separator-free pieces gives the pieces back. */
  lemma {:induction false} SplitJoin(parts: seq<string>, sep: char)
    requires |parts| >= 1
    requires forall k :: 0 <= k < |parts| ==> sep !in parts[k]
    ensures Split(Join(parts, sep), sep) == parts
    decreases |parts|
  {
    if |parts| == 1 {
      SplitNoSep(parts[0], sep);
    } else {
      SplitJoin(parts[1..], sep);
      SplitConcat(parts[0], Join(parts[1..], sep), sep);
      SplitNoSep(parts[0], sep);
      assert parts == [parts[0]] + parts[1..];
    }
  }

  /** Every character of a piece of a split occurs in the split string. */
  lemma {:induction false} SplitChars(s: string, sep: char, k: nat, c: char)
    requires k < |Split(s, sep)|
    requires c in Split(s, sep)[k]
    ensures c in s
    decreases |s|
  {
    if |s| > 0 {
      var rest := Split(s[1..], sep);
      if s[0] == sep {
        SplitChars(s[1..], sep, k - 1, c);
      } else if k == 0 && c != s[0] {
        assert c in rest[0];
        SplitChars(s[1..], sep, 0, c);
      } else if k > 0 {
        SplitChars(s[1..], sep, k, c);
      }
    }
  }

  /** A character absent from every piece, and different from the
      separator, is absent from the join. */
  lemma {:induction false} JoinChars(parts: seq<string>, sep: char, c: char)
    requires c != sep
    requires forall k :: 0 <= k < |parts| ==> c !in parts[k]
    ensures c !in Join(parts, sep)
    decreases |parts|
  {
    if |parts| > 1 {
      JoinChars(parts[1..], sep, c);
    }
  }

  /* ---------------------------------------------------------------------- */
  /* Character translation and replace-all                                  */
  /* ---------------------------------------------------------------------- */

  /** Every `from` character of `s` turned into `to`; all else kept. */
  function Translate(s: string, from: char, to: char): (r: string)
    ensures |r| == |s|
    ensures from != to ==> from !in r
  {
    seq(|s|, i requires 0 <= i < |s| => if s[i] == from then to else s[i])
  }

  lemma TranslateConcat(a: string, b: string, from: char, to: char)
    ensures Translate(a + b, from, to) == Translate(a, from, to) + Translate(b, from, to)
  {
  }

  /** Translation brings in no character other than `to`. */
  lemma TranslateKeepsOut(s: string, from: char, to: char, c: char)
    requires c !in s && c != to
    ensures c !in Translate(s, from, to)
  {
    var r := Translate(s, from, to);
    forall i | 0 <= i < |r|
      ensures r[i] != c
    {
      assert r[i] == if s[i] == from then to else s[i];
    }
  }

  /** `to.join(s.split(from))` is a character translation. */
  lemma TranslateAbsent(s: string, from: char, to: char)
    requires from !in s
    ensures Translate(s, from, to) == s
  {
  }

  lemma {:induction false} JoinSplitIsTranslate(s: string, from: char, to: char)
    ensures Join(Split(s, from), to) == Translate(s, from, to)
    decreases |s|
  {
    if |s| > 0 {
      JoinSplitIsTranslate(s[1..], from, to);
      if s[0] == from {
        JoinCons("", Split(s[1..], from), to);
      } else {
        JoinPrefixFirst(s[0], Split(s[1..], from), to);
      }
      assert s == [s[0]] + s[1..];
      TranslateConcat([s[0]], s[1..], from, to);
    }
  }

  /** Python's `s.replace(pat, rep)`: every non-overlapping occurrence of
      `pat`, scanning left to right, is replaced by `rep`. */
  function ReplaceAll(s: string, pat: string, rep: string): string
    requires |pat| > 0
    decreases |s|
  {
    if |s| == 0 then []
    else if StartsWith(s, pat) then rep + ReplaceAll(s[|pat|..], pat, rep)
    else [s[0]] + ReplaceAll(s[1..], pat, rep)
  }

  /** Without an occurrence of the pattern there is nothing to replace. */
  lemma {:induction false} ReplaceAllAbsent(s: string, pat: string, rep: string)
    requires |pat| > 0 && !Contains(s, pat)
    ensures ReplaceAll(s, pat, rep) == s
    decreases |s|
  {
    if |s| > 0 {
      assert !OccursAt(s, pat, 0);
      ReplaceAllAbsent(s[1..], pat, rep);
    }
  }

  /** Every character of the result comes from the input or from the
      replacement. */
  lemma {:induction false} ReplaceAllChars(s: string, pat: string, rep: string, c: char)
    requires |pat| > 0 && c in ReplaceAll(s, pat, rep)
    ensures c in s || c in rep
    decreases |s|
  {
    if |s| > 0 {
      if StartsWith(s, pat) {
        if c !in rep {
          ReplaceAllChars(s[|pat|..], pat, rep, c);
        }
      } else if c != s[0] {
        ReplaceAllChars(s[1..], pat, rep, c);
      }
    }
  }

  /** A replacement at the very start of the string. */
  lemma ReplaceAllPrefix(pat: string, rest: string, rep: string)
    requires |pat| > 0
    ensures ReplaceAll(pat + rest, pat, rep) == rep + ReplaceAll(rest, pat, rep)
  {
    assert (pat + rest)[..|pat|] == pat;
    assert (pat + rest)[|pat|..] == rest;
  }

  /** A character that cannot begin an occurrence is copied unchanged. */
  lemma ReplaceAllSkip(c: char, rest: string, pat: string, rep: string)
    requires |pat| > 0 && c != pat[0]
    ensures ReplaceAll([c] + rest, pat, rep) == [c] + ReplaceAll(rest, pat, rep)
  {
    assert ([c] + rest)[1..] == rest;
  }

  /** A stretch that does not hold the pattern's first character is copied
      through untouched. */
  lemma {:induction false} ReplaceAllSkipPrefix(a: string, rest: string, pat: string, rep: string)
    requires |pat| > 0 && pat[0] !in a
    ensures ReplaceAll(a + rest, pat, rep) == a + ReplaceAll(rest, pat, rep)
    decreases |a|
  {
    if |a| == 0 {
      assert a + rest == rest;
    } else {
      assert a + rest == [a[0]] + (a[1..] + rest);
      assert a[0] in a;
      ReplaceAllSkip(a[0], a[1..] + rest, pat, rep);
      ReplaceAllSkipPrefix(a[1..], rest, pat, rep);
      assert [a[0]] + (a[1..] + ReplaceAll(rest, pat, rep)) == a + ReplaceAll(rest, pat, rep);
    }
  }

  /** Replace-all copies the text before the first occurrence, replaces
      that occurrence and carries on behind it. An occurrence that starts
      inside `a` would lie inside `a + pat`, so `Find` on `a + pat` is
      enough to know none does. */
  lemma ReplaceAllFirst(a: string, pat: string, rest: string, rep: string)
    requires |pat| > 0 && Find(a + pat, pat) == Some(|a|)
    ensures ReplaceAll(a + pat + rest, pat, rep) == a + rep + ReplaceAll(rest, pat, rep)
  {
    ReplaceAllClear(a, pat, rest, rep);
  }

  /** Holds `pat` at no position inside `a` of `a + pat`. */
  predicate ClearBefore(a: string, pat: string) {
    forall j :: 0 <= j < |a| ==> !OccursAt(a + pat, pat, j)
  }

  lemma {:induction false} ReplaceAllClear(a: string, pat: string, rest: string, rep: string)
    requires |pat| > 0 && ClearBefore(a, pat)
    ensures ReplaceAll(a + pat + rest, pat, rep) == a + rep + ReplaceAll(rest, pat, rep)
    decreases |a|
  {
    if |a| == 0 {
      assert a + pat + rest == pat + rest;
      ReplaceAllPrefix(pat, rest, rep);
    } else {
      FirstNotAtHead(a, pat, rest);
      DropHeadMisses(a, pat);
      ReplaceAllClear(a[1..], pat, rest, rep);
      ReplaceAllHeadStep(a, pat, rest, rep);
    }
  }

  /** One character of `a` copied through, given the result for `a[1..]`. */
  lemma ReplaceAllHeadStep(a: string, pat: string, rest: string, rep: string)
    requires |pat| > 0 && |a| > 0 && !StartsWith(a + pat + rest, pat)
    requires ReplaceAll(a[1..] + pat + rest, pat, rep) == a[1..] + rep + ReplaceAll(rest, pat, rep)
    ensures ReplaceAll(a + pat + rest, pat, rep) == a + rep + ReplaceAll(rest, pat, rep)
  {
    var s := a + pat + rest;
    var r := ReplaceAll(rest, pat, rep);
    assert s[1..] == a[1..] + pat + rest;
    assert s[0] == a[0];
    assert ReplaceAll(s, pat, rep) == [a[0]] + (a[1..] + rep + r);
    assert a == [a[0]] + a[1..];
    ConcatRegroup([a[0]], a[1..], rep, r);
  }

  /** With the first occurrence later on, the text does not start with it. */
  lemma FirstNotAtHead(a: string, pat: string, rest: string)
    requires |pat| > 0 && |a| > 0 && ClearBefore(a, pat)
    ensures !StartsWith(a + pat + rest, pat)
  {
    assert !OccursAt(a + pat, pat, 0);
    assert (a + pat + rest)[..|pat|] == (a + pat)[0..|pat|];
  }

  /** Dropping the first character keeps the text before the occurrence clear. */
  lemma DropHeadMisses(a: string, pat: string)
    requires |pat| > 0 && |a| > 0 && ClearBefore(a, pat)
    ensures ClearBefore(a[1..], pat)
  {
    forall j | 0 <= j < |a| - 1
      ensures !OccursAt(a[1..] + pat, pat, j)
    {
      DropHeadMiss(a, pat, j);
    }
  }

  lemma DropHeadMiss(a: string, pat: string, j: nat)
    requires |a| > 0 && !OccursAt(a + pat, pat, j + 1)
    ensures !OccursAt(a[1..] + pat, pat, j)
  {
    HeadSplit(a, pat);
    OccursCons(a + pat, a[0], a[1..] + pat, pat, j);
  }

  /** The first occurrence at the very end is the only one replaced. */
  lemma ReplaceAllFirstAtEnd(a: string, pat: string, rep: string)
    requires |pat| > 0 && Find(a + pat, pat) == Some(|a|)
    ensures ReplaceAll(a + pat, pat, rep) == a + rep
  {
    ReplaceAllFirst(a, pat, [], rep);
    assert a + pat + [] == a + pat;
    assert a + rep + [] == a + rep;
  }

  lemma HeadSplit(a: string, b: string)
    requires |a| > 0
    ensures a + b == [a[0]] + (a[1..] + b)
  {
    assert a == [a[0]] + a[1..];
  }

  /** Occurrences behind one leading character are shifted by one. */
  lemma OccursCons(u: string, c: char, t: string, pat: string, j: nat)
    requires u == [c] + t
    ensures OccursAt(u, pat, j + 1) <==> OccursAt(t, pat, j)
  {
    if j + |pat| <= |t| {
      assert u[j + 1..j + 1 + |pat|] == t[j..j + |pat|];
    }
  }

  /** A character in neither `s` nor `rep` is not in `s` with `pat`
      replaced by `rep`. */
  lemma ReplaceKeepsOut(s: string, pat: string, rep: string, c: char)
    requires |pat| > 0 && c !in s && c !in rep
    ensures c !in ReplaceAll(s, pat, rep)
  {
    if c in ReplaceAll(s, pat, rep) {
      ReplaceAllChars(s, pat, rep, c);
    }
  }

  /** Replace-all leaves alone a string that lacks the pattern's first
      character. */
  lemma ReplaceAllHeadAbsent(s: string, pat: string, rep: string)
    requires |pat| > 0 && pat[0] !in s
    ensures ReplaceAll(s, pat, rep) == s
  {
    assert s + [] == s;
    ReplaceAllSkipPrefix(s, [], pat, rep);
  }

  /** An occurrence at the start of `a + [c] + b` lies inside `a` when the
      pattern cannot contain `c`. */
  lemma MatchInsideLeft(a: string, c: char, b: string, pat: string)
    requires c !in pat
    ensures StartsWith(a + [c] + b, pat) <==> StartsWith(a, pat)
  {
    var s := a + [c] + b;
    if StartsWith(s, pat) {
      forall k | 0 <= k < |pat|
        ensures s[k] != c
      {
        assert s[k] == pat[k];
        assert pat[k] in pat;
      }
      assert s[|a|] == c;
      assert a[..|pat|] == s[..|pat|];
    }
    if StartsWith(a, pat) {
      assert a[..|pat|] == s[..|pat|];
    }
  }

  /** Replace-all distributes over a character the pattern cannot contain:
      no occurrence can straddle it. */
  lemma {:induction false} ReplaceAllAround(a: string, c: char, b: string, pat: string, rep: string)
    requires |pat| > 0 && c !in pat
    ensures ReplaceAll(a + [c] + b, pat, rep)
         == ReplaceAll(a, pat, rep) + [c] + ReplaceAll(b, pat, rep)
    decreases |a|
  {
    if |a| == 0 {
      assert a + [c] + b == [c] + b;
      ReplaceAllSkip(c, b, pat, rep);
    } else if StartsWith(a, pat) {
      AroundMatch(a, c, b, pat, rep);
      ReplaceAllAround(a[|pat|..], c, b, pat, rep);
      ConcatRegroup(rep, ReplaceAll(a[|pat|..], pat, rep), [c], ReplaceAll(b, pat, rep));
    } else {
      AroundSkip(a, c, b, pat, rep);
      ReplaceAllAround(a[1..], c, b, pat, rep);
      ConcatRegroup([a[0]], ReplaceAll(a[1..], pat, rep), [c], ReplaceAll(b, pat, rep));
    }
  }

  lemma ConcatRegroup<T>(w: seq<T>, x: seq<T>, y: seq<T>, z: seq<T>)
    ensures w + (x + y + z) == (w + x) + y + z
  {
  }

  /** The step of `ReplaceAllAround` where `a` begins with the pattern. */
  lemma AroundMatch(a: string, c: char, b: string, pat: string, rep: string)
    requires |pat| > 0 && c !in pat && StartsWith(a, pat)
    ensures ReplaceAll(a + [c] + b, pat, rep) == rep + ReplaceAll(a[|pat|..] + [c] + b, pat, rep)
    ensures ReplaceAll(a, pat, rep) == rep + ReplaceAll(a[|pat|..], pat, rep)
  {
    var s := a + [c] + b;
    MatchInsideLeft(a, c, b, pat);
    assert s[|pat|..] == a[|pat|..] + [c] + b;
  }

  /** The step of `ReplaceAllAround` where `a` does not begin with the
      pattern. */
  lemma AroundSkip(a: string, c: char, b: string, pat: string, rep: string)
    requires |pat| > 0 && c !in pat && |a| > 0 && !StartsWith(a, pat)
    ensures ReplaceAll(a + [c] + b, pat, rep) == [a[0]] + ReplaceAll(a[1..] + [c] + b, pat, rep)
    ensures ReplaceAll(a, pat, rep) == [a[0]] + ReplaceAll(a[1..], pat, rep)
  {
    var s := a + [c] + b;
    MatchInsideLeft(a, c, b, pat);
    assert s[0] == a[0];
    assert s[1..] == a[1..] + [c] + b;
  }

  /** Replacing a one-character pattern is a character translation. */
  lemma {:induction false} ReplaceCharIsTranslate(s: string, from: char, to: char)
    ensures ReplaceAll(s, [from], [to]) == Translate(s, from, to)
    decreases |s|
  {
    if |s| > 0 {
      ReplaceCharIsTranslate(s[1..], from, to);
      assert s == [s[0]] + s[1..];
      TranslateConcat([s[0]], s[1..], from, to);
      if s[0] == from {
        assert StartsWith(s, [from]);
      } else {
        assert !StartsWith(s, [from]);
      }
    }
  }

  /* ---------------------------------------------------------------------- */
  /* Case                                                                   */
  /* ---------------------------------------------------------------------- */

  predicate IsUpper(c: char) {
    'A' <= c <= 'Z'
  }

  function LowerChar(c: char): char {
    if IsUpper(c) then (c as int - 'A' as int + 'a' as int) as char else c
  }

  /** Python's `s.lower()` on ASCII letters. */
  function Lower(s: string): (r: string)
    ensures |r| == |s|
    ensures forall i :: 0 <= i < |s| ==> !IsUpper(r[i])
    ensures forall i :: 0 <= i < |s| && !IsUpper(s[i]) ==> r[i] == s[i]
    ensures forall i :: 0 <= i < |s| && IsUpper(s[i]) ==> r[i] as int == s[i] as int - 'A' as int + 'a' as int
  {
    seq(|s|, i requires 0 <= i < |s| => LowerChar(s[i]))
  }

  /** Lowering twice is lowering once. */
  lemma LowerIdempotent(s: string)
    ensures Lower(Lower(s)) == Lower(s)
  {
  }
}

=== FILE: wrappers.dfy ===
/** Failure-compatible wrappers shared by the whole model.

    `Option` stands for a Python value that may be `None`; `Result` stands for
    an operation that either returns a value or raises one of the Python
    exceptions listed in `PyError`.
 */
module Wrappers {

  datatype Option<+T> = None | Some(value: T)

  /** The Python exceptions the modelled code can raise. */
  datatype PyError =
    | TypeError     // a value of an unexpected class was handed over
    | IndexError    // a list or string was indexed out of range
    | KeyError      // a dictionary was indexed with a missing key
    | NameError     // the code referenced a name that is not defined
    | AttributeError // the code read an attribute the object does not have

  datatype Result<+R> = Success(value: R) | Failure(error: PyError) {

    predicate IsFailure() {
      Failure?
    }

    function PropagateFailure<U>(): Result<U>
      requires Failure?
    {
      Failure(error)
    }

    function Extract(): R
      requires Success?
    {
      value
    }
  }
}
